=== FILE: README.md ===
# TimeTrackerInjector core, modelled in Dafny

TimeTrackerInjector instruments a C# solution with timing probes. It starts from one configured
entry method. It builds the call tree of that method, restricted to methods of the analysed
assembly. It gives every method of the tree a `System.Diagnostics.Stopwatch` field named
`sw<n>_<method>`, always declared in the entry method's class. It then rewrites the source files
of that class:

- every expression statement that calls a registered method is wrapped in `Start()` / `Stop()`;
- every `for`, single-variable `foreach` and `while` body is timed by a `swLoop<n>` stopwatch;
- the entry method ends with a hierarchical report built in a `StringBuilder`, indented with `"| "` per level.

This project models that core with Roslyn replaced by plain data:

- `ProgramModel` is the symbol table: names, containing types and namespaces, assemblies,
  original definitions and declaring syntax of method symbols, plus what `GetSymbolInfo` answers
  for each invocation.
- `SyntaxModel` is the part of the C# syntax tree that the rewriter tells apart. Generated
  statements and fields are tagged records rather than parsed text.
- `CallGraphBuilder` / `CallGraphShape` model `CallGraphBuilder.BuildTreeAsync` and
  `ExpandAsync`, with the visited set threaded explicitly.
- `StopwatchRegistry` models `CodeRewriter.BuildStopwatchRegistry`.
- `DeepHierarchyRewriter` models the syntax visitor. Its mutable fields (`_currentClass`,
  `_currentMethod`, `_isInEntryPublic`, `_depth`, `_log`, `_loopFieldsToAdd`,
  `_loopFieldCounter`) become a `RewriterState` threaded through pure functions.
- `LogReport` models `BuildLogStatements` and `LogLine`, with a parser that reads the report back.
- `RewriterErasure`, `RewriterSites` and `RewriterClasses` hold the properties of the visitor:
  - it only inserts statements, fields and the blocks it opens around them; every block of
    the input stays a block;
  - the counters, loop fields, report lines and started stopwatches follow a separate
    specification by "sites";
  - classes other than the entry class are untouched;
  - generated field names never clash.
- `CodeRewriter` models `RewriteAsync`: which files are rewritten, and with what.
- `SolutionAnalyzer` models `AnalyzeAsync`, `GetTargetProject` and `FindEntryMethod`, with
  the thrown exceptions as `Failure` values.
- `NestedClassFinding` documents one defect of the visitor (see Findings).
- `Scenarios` works a recursive call cycle through the builder and the registry.
- `ProcessServiceScenario` works `ProcessService.ProcessAll` of the sample project through the
  rewriter: its calls, its three loops and its report lines.

Behaviour of the code worth knowing:

- Only expression statements that are calls get wrapped. Calls that initialise a declaration or
  are returned are left alone.
- Every `for`, single-variable `foreach` and `while` loop gets a stopwatch, started first and
  stopped last *inside* its body. The loop is not wrapped from outside, and loops without calls
  get one too. A `do ... while` loop and a deconstructing `foreach (var (a, b) in xs)` have no
  visitor override (CodeRewriter.cs:345-347): their calls are wrapped, but they get no stopwatch
  and no loop number.
- The report lists wrapped calls and loops in the order the visitor meets them inside the entry
  method's body. Calls appear as often as they occur, and loop lines come before the lines of
  their body. It is not a walk of the call tree.
- The registry includes the entry method itself. In the cycle Main → A → B → A there are three
  stopwatches (`sw1_Main`, `sw2_A`, `sw3_B`), not two.
- The call-tree builder filters only by assembly. The System/Microsoft/LogService exclusion is
  applied by the rewriter, not by the builder.
- `_currentClass` is set on entering each class declaration and never restored. After a nested
  class, the rest of the entry class is visited as if outside it (see Findings).

## Model

| member | source | states |
|---|---|---|
| ProgramModel.FirstMethod | TimeTrackerInjector/TimeTrackerInjector.UI/Core/CallGraphBuilder.cs:53-54 | the first method symbol among the candidates; none exactly when no candidate is a method |
| ProgramModel.ResolveTarget | TimeTrackerInjector/TimeTrackerInjector.UI/Core/CallGraphBuilder.cs:48-56 | the resolved symbol when it is a method, otherwise the first method candidate (the same rule the rewriter uses at CodeRewriter.cs:303-305) |
| CallGraphModels.NewNode | TimeTrackerInjector/TimeTrackerInjector.UI/Core/CallGraphModels.cs:6-12 | a new node carries its symbol and no children; the builder returns such a node for a method already visited or without syntax |
| CallGraphModels.NewStopwatchInfo | TimeTrackerInjector/TimeTrackerInjector.UI/Core/CallGraphModels.cs:17-21 | a default StopwatchInfo has empty class and field names; the registry fills in both |
| CallGraphBuilder.Targets | TimeTrackerInjector/TimeTrackerInjector.UI/Core/CallGraphBuilder.cs:46-60 | at most one child per invocation, and only targets in the compilation's own assembly |
| CallGraphBuilder.TargetsHas | TimeTrackerInjector/TimeTrackerInjector.UI/Core/CallGraphBuilder.cs:46-60 | every invocation that resolves to a method of the compilation's own assembly yields a child |
| CallGraphBuilder.Expand | TimeTrackerInjector/TimeTrackerInjector.UI/Core/CallGraphBuilder.cs:31-66 | the expanded node is for the given method, and the visited set afterwards is the old one plus every method in the node's subtree |
| CallGraphBuilder.ExpandCalls | TimeTrackerInjector/TimeTrackerInjector.UI/Core/CallGraphBuilder.cs:46-65 | the children's methods are exactly the resolved own-assembly targets in invocation order, and every method of their subtrees becomes visited |
| CallGraphBuilder.BuildTree | TimeTrackerInjector/TimeTrackerInjector.UI/Core/CallGraphBuilder.cs:24-29 | the root carries the entry symbol; on a first visit its children are its call targets, and an already-visited root stays a leaf |
| CallGraphShape.BuildTreeIsDepthFirst | TimeTrackerInjector/TimeTrackerInjector.UI/Core/CallGraphBuilder.cs:31-66 | in pre-order, each node whose method was already met is a leaf, and each other node's children are exactly its method's call targets |
| CallGraphShape.ExpandedNodesAreFirstOccurrences | TimeTrackerInjector/TimeTrackerInjector.UI/Core/CallGraphBuilder.cs:34-35 | a node with children is the first occurrence of its method and was not visited before the build, so cycles are cut |
| CallGraphShape.ExpandedCountBounded | TimeTrackerInjector/TimeTrackerInjector.UI/Core/CallGraphBuilder.cs:17-35 | the methods that get expanded are pairwise distinct and at most as many as the program's methods, so the expansion terminates on any cyclic graph |
| CallGraphShape.RebuildIsLeaf | TimeTrackerInjector/TimeTrackerInjector.UI/Core/CallGraphBuilder.cs:34 | a second build of the same root on the same builder gives a bare root |
| StopwatchRegistry.Lookup | TimeTrackerInjector/TimeTrackerInjector.UI/Core/CodeRewriter.cs:322-323 | `TryGetValue` finds an entry exactly when the method is a key, and returns that key's info |
| StopwatchRegistry.FieldName | TimeTrackerInjector/TimeTrackerInjector.UI/Core/CodeRewriter.cs:114-119 | defined as `sw`, the counter in decimal, `_`, then the letters and digits of the method name |
| StopwatchRegistry.FieldNameIsIdentifier | TimeTrackerInjector/TimeTrackerInjector.UI/Core/CodeRewriter.cs:119 | a method field name starts with `sw` and a digit, and every other character is a letter or digit except one underscore right after the counter, so it is a C# identifier |
| StopwatchRegistry.EntryClassName | TimeTrackerInjector/TimeTrackerInjector.UI/Core/CodeRewriter.cs:105-107 | the entry class's minimally qualified display name, or `EntryClass` when the entry method has no containing type |
| StopwatchRegistry.Register | TimeTrackerInjector/TimeTrackerInjector.UI/Core/CodeRewriter.cs:111-121 | a method is added only when absent, as the next numbered entry; the keys stay duplicate-free and the existing entries are kept |
| StopwatchRegistry.Walk | TimeTrackerInjector/TimeTrackerInjector.UI/Core/CodeRewriter.cs:109-125 | registering a subtree appends its not-yet-registered methods in pre-order, keeping the numbering |
| StopwatchRegistry.BuildStopwatchRegistry | TimeTrackerInjector/TimeTrackerInjector.UI/Core/CodeRewriter.cs:101-129 | the keys are the distinct methods of the tree in first-visit pre-order; entry i is named `sw{i+1}_{letters and digits of the method name}` and declared in the entry class's display name, or in "EntryClass" when there is none |
| StopwatchRegistry.FieldNamesDiffer | TimeTrackerInjector/TimeTrackerInjector.UI/Core/CodeRewriter.cs:119 | two different counters always give different field names, whatever the method names |
| StopwatchRegistry.RegistryNamesDistinct | TimeTrackerInjector/TimeTrackerInjector.UI/Core/CodeRewriter.cs:101-129 | one stopwatch per method, and no two stopwatches share a field name |
| Text.LettersAndDigits | TimeTrackerInjector/TimeTrackerInjector.UI/Core/CodeRewriter.cs:114 | the sanitized name keeps only letters and digits, is no longer than the original, and is the name itself when that has no other characters |
| Text.LettersAndDigitsKeeps | TimeTrackerInjector/TimeTrackerInjector.UI/Core/CodeRewriter.cs:114 | every letter or digit occurs in the sanitized name exactly as often as in the method name |
| Text.LettersAndDigitsAppend | TimeTrackerInjector/TimeTrackerInjector.UI/Core/CodeRewriter.cs:114 | the filter works character by character: the sanitized concatenation is the concatenation of the sanitized parts, so order is kept |
| Text.Repeat | TimeTrackerInjector/TimeTrackerInjector.UI/Core/CodeRewriter.cs:406 | the indentation has depth times the bar string's length, and its i-th character is the bar string's character at i modulo that length |
| Text.Contains | TimeTrackerInjector/TimeTrackerInjector.UI/Core/CodeRewriter.cs:316 | ordinal `Contains` holds exactly when the part occurs at some index of the string |
| DeepHierarchyRewriter.FindStopwatch | TimeTrackerInjector/TimeTrackerInjector.UI/Core/CodeRewriter.cs:322-323 | a stopwatch is found exactly when the original definition or the target itself is registered; the original definition's entry wins, and the target's own entry is used only when the original definition has none |
| DeepHierarchyRewriter.CallProbe | TimeTrackerInjector/TimeTrackerInjector.UI/Core/CodeRewriter.cs:301-326 | a call gets a probe exactly when it is an invocation with a resolved target that is not excluded and has a stopwatch; the probe is `<entry class>.<field>` with the field of the stopwatch that lookup finds |
| DeepHierarchyRewriter.InEntryClass | TimeTrackerInjector/TimeTrackerInjector.UI/Core/CodeRewriter.cs:171-173 | never inside the entry class when no class is current or the entry method has no containing type; inside it, probes are qualified by the entry class's display name, never by the fallback |
| DeepHierarchyRewriter.Excluded | TimeTrackerInjector/TimeTrackerInjector.UI/Core/CodeRewriter.cs:310-319 | a target without containing namespace and type is never excluded: both missing names read as the empty string |
| DeepHierarchyRewriter.ExcludedIff | TimeTrackerInjector/TimeTrackerInjector.UI/Core/CodeRewriter.cs:311-316 | a target is excluded exactly when its namespace starts with `System` or `Microsoft` (ordinal prefix, so `SystemX` too), or `LogService` occurs anywhere in its containing type's name |
| DeepHierarchyRewriter.LoopFieldName | TimeTrackerInjector/TimeTrackerInjector.UI/Core/CodeRewriter.cs:359-360 | defined as `swLoop` followed by the counter in decimal |
| DeepHierarchyRewriter.LoopFieldNameIsIdentifier | TimeTrackerInjector/TimeTrackerInjector.UI/Core/CodeRewriter.cs:360 | a loop field name starts with `swLoop` and a digit and holds only letters and digits, so it is a C# identifier |
| DeepHierarchyRewriter.VisitStatement | TimeTrackerInjector/TimeTrackerInjector.UI/Core/CodeRewriter.cs:292-347 | outside the entry class, and at or beyond depth 50, a statement and the state are returned unchanged; otherwise the class, method, entry flag and depth are as before the visit |
| DeepHierarchyRewriter.RewriteLoop | TimeTrackerInjector/TimeTrackerInjector.UI/Core/CodeRewriter.cs:349-390 | outside the entry class or too deep the loop is returned as is; otherwise same kind and header, with a body block that starts and ends with `swLoop<counter+1>` |
| DeepHierarchyRewriter.EnterLoop | TimeTrackerInjector/TimeTrackerInjector.UI/Core/CodeRewriter.cs:359-370 | the loop counter and the depth each go up by one before the body is visited |
| DeepHierarchyRewriter.TimedBody | TimeTrackerInjector/TimeTrackerInjector.UI/Core/CodeRewriter.cs:378-380 | the new loop body is a block whose first statement starts the loop's stopwatch and whose last stops it |
| DeepHierarchyRewriter.VisitStatements | TimeTrackerInjector/TimeTrackerInjector.UI/Core/CodeRewriter.cs:371 | a statement list is visited in order; outside the entry class or too deep nothing changes |
| DeepHierarchyRewriter.VisitMember | TimeTrackerInjector/TimeTrackerInjector.UI/Core/CodeRewriter.cs:259-285 | a method keeps its symbol, identifier and body presence; fields are untouched |
| DeepHierarchyRewriter.VisitMembers | TimeTrackerInjector/TimeTrackerInjector.UI/Core/CodeRewriter.cs:189 | one visited member per member |
| DeepHierarchyRewriter.MethodFieldNames | TimeTrackerInjector/TimeTrackerInjector.UI/Core/CodeRewriter.cs:193-217 | one method stopwatch field per registry entry, in registry order |
| DeepHierarchyRewriter.StopwatchFields | TimeTrackerInjector/TimeTrackerInjector.UI/Core/CodeRewriter.cs:219-245 | one generated field per name, in order |
| DeepHierarchyRewriter.VisitClass | TimeTrackerInjector/TimeTrackerInjector.UI/Core/CodeRewriter.cs:180-254 | the class keeps its symbol |
| DeepHierarchyRewriter.VisitUnit | TimeTrackerInjector/TimeTrackerInjector.UI/Core/CodeRewriter.cs:87-88 | a fresh rewriter keeps the tree's top-level declarations one for one |
| LogReport.BuildLogStatements | TimeTrackerInjector/TimeTrackerInjector.UI/Core/CodeRewriter.cs:396-422 | the report is the builder declaration, the entry header, then two lines per method entry and one per loop entry, all generated statements |
| LogReport.RenderLinesShape | TimeTrackerInjector/TimeTrackerInjector.UI/Core/CodeRewriter.cs:404-419 | the rendered lines number two per method entry and one per loop entry, all generated |
| LogReport.BarDepthOfBars | TimeTrackerInjector/TimeTrackerInjector.UI/Core/CodeRewriter.cs:406 | an indentation prefix reads back as its depth |
| LogReport.ParseRenderLines | TimeTrackerInjector/TimeTrackerInjector.UI/Core/CodeRewriter.cs:404-419 | parsing the rendered lines gives back the recorded lines |
| LogReport.LogRoundTrip | TimeTrackerInjector/TimeTrackerInjector.UI/Core/CodeRewriter.cs:396-439 | the report is lossless: parsing it gives back the entry method's name and every recorded line with its depth, kind, name and stopwatch |
| LogReport.LeadingBarsOf | TimeTrackerInjector/TimeTrackerInjector.UI/Core/CodeRewriter.cs:406-417 | a reader counting leading `"| "` before `[` recovers the depth |
| LogReport.PrintedDepth | TimeTrackerInjector/TimeTrackerInjector.UI/Core/CodeRewriter.cs:406-417 | every printed line of a recorded entry carries exactly that entry's depth in bars |
| RewriterErasure.VisitStatementErases | TimeTrackerInjector/TimeTrackerInjector.UI/Core/CodeRewriter.cs:292-390 | a visited statement, with generated statements and the blocks the visitor opens (those starting with a stopwatch start) erased, is the original statement; blocks of the input are kept as blocks |
| RewriterErasure.TimedBodyErases | TimeTrackerInjector/TimeTrackerInjector.UI/Core/CodeRewriter.cs:378-380 | the timed loop body is an opened block: it erases to the visited body's statements, the body's own block reused or a block opened around a single statement |
| RewriterErasure.NormParsed | TimeTrackerInjector/TimeTrackerInjector.UI/Core/CodeRewriter.cs:334 | erasure loses nothing of parsed source: a statement without generated parts erases to one statement, and a block of it to a block with as many statements; only blocks opened with a stopwatch start (the wrapped call) are flattened |
| RewriterErasure.NormOfParsed | TimeTrackerInjector/TimeTrackerInjector.UI/Core/CodeRewriter.cs:334 | a parsed statement list erases statement by statement, keeping its length |
| RewriterErasure.BlocksKept | TimeTrackerInjector/TimeTrackerInjector.UI/Core/CodeRewriter.cs:379-380 | unwrapping a block, dropping an empty block or merging two blocks changes the erased form, so the erasure lemmas rule these rewrites out |
| RewriterErasure.RewriteLoopErases | TimeTrackerInjector/TimeTrackerInjector.UI/Core/CodeRewriter.cs:349-390 | a rewritten loop erases to the original loop |
| RewriterErasure.VisitStatementsErase | TimeTrackerInjector/TimeTrackerInjector.UI/Core/CodeRewriter.cs:371 | a visited statement list erases to the original list |
| RewriterErasure.EraseFields | TimeTrackerInjector/TimeTrackerInjector.UI/Core/CodeRewriter.cs:248-253 | the generated fields placed before the members vanish under erasure |
| RewriterErasure.VisitMethodErases | TimeTrackerInjector/TimeTrackerInjector.UI/Core/CodeRewriter.cs:259-285 | a visited method, its appended report included, erases to the original method |
| RewriterErasure.VisitMemberErases | TimeTrackerInjector/TimeTrackerInjector.UI/Core/CodeRewriter.cs:259-285 | every visited member erases to the original member |
| RewriterErasure.VisitMembersErase | TimeTrackerInjector/TimeTrackerInjector.UI/Core/CodeRewriter.cs:189 | a visited member list erases to the original list |
| RewriterErasure.VisitClassErases | TimeTrackerInjector/TimeTrackerInjector.UI/Core/CodeRewriter.cs:180-254 | a visited class erases to the original class |
| RewriterErasure.VisitUnitErases | TimeTrackerInjector/TimeTrackerInjector.UI/Core/CodeRewriter.cs:87-88 | a rewritten syntax tree erases to the original: the rewriter only inserts, and never removes, unwraps or merges a block of the input |
| RewriterSites.LoopNamesAt | TimeTrackerInjector/TimeTrackerInjector.UI/Core/CodeRewriter.cs:359-360 | one loop name per loop; the i-th is `swLoop<from+i+1>` |
| RewriterSites.TimedBodyStarts | TimeTrackerInjector/TimeTrackerInjector.UI/Core/CodeRewriter.cs:378-380 | a timed body starts its loop's stopwatch before those of its statements |
| RewriterSites.LoopFollows | TimeTrackerInjector/TimeTrackerInjector.UI/Core/CodeRewriter.cs:359-372 | entering a loop numbers it, records its field and (in the entry method) its report line one level down, then restores the depth |
| RewriterSites.ExpressionFollowsSites | TimeTrackerInjector/TimeTrackerInjector.UI/Core/CodeRewriter.cs:292-339 | a wrapped call adds one report line at depth+1 in the entry method and starts exactly its probe |
| RewriterSites.RewriteLoopFollowsSites | TimeTrackerInjector/TimeTrackerInjector.UI/Core/CodeRewriter.cs:349-390 | a loop's counter, fields, report lines and started stopwatches are those of its sites |
| RewriterSites.VisitFollowsSites | TimeTrackerInjector/TimeTrackerInjector.UI/Core/CodeRewriter.cs:292-390 | in the entry class the loop counter, loop fields, report and started stopwatches after a statement visit are exactly what its sites predict, in document order |
| RewriterSites.VisitStatementsFollowSites | TimeTrackerInjector/TimeTrackerInjector.UI/Core/CodeRewriter.cs:371 | the same for a statement list |
| RewriterSites.SitesDepths | TimeTrackerInjector/TimeTrackerInjector.UI/Core/CodeRewriter.cs:298-299 | every site lies at or below the starting depth and strictly below 50 |
| RewriterSites.SitesOfDepths | TimeTrackerInjector/TimeTrackerInjector.UI/Core/CodeRewriter.cs:355-356 | the same for a statement list |
| RewriterSites.SiteLogDepths | TimeTrackerInjector/TimeTrackerInjector.UI/Core/CodeRewriter.cs:331 | report lines lie between depth+1 and 50 |
| RewriterClasses.EntryMethodReport | TimeTrackerInjector/TimeTrackerInjector.UI/Core/CodeRewriter.cs:259-285 | the entry method keeps its statements, up to erasure, and ends with the report of exactly its body's sites |
| RewriterClasses.EntryReportReadable | TimeTrackerInjector/TimeTrackerInjector.UI/Core/CodeRewriter.cs:396-422 | the entry method's report parses back to its name and lines, every line at depth 1 to 50 |
| RewriterClasses.VisitStatementKeepsKind | TimeTrackerInjector/TimeTrackerInjector.UI/Core/CodeRewriter.cs:292-390 | the visitor never produces a report declaration where there was none |
| RewriterClasses.VisitStatementsNoReport | TimeTrackerInjector/TimeTrackerInjector.UI/Core/CodeRewriter.cs:371 | a visited list without a report declaration still has none |
| RewriterClasses.OtherMethodNoReport | TimeTrackerInjector/TimeTrackerInjector.UI/Core/CodeRewriter.cs:277-284 | other methods of the entry class get no report |
| RewriterClasses.MemberWithoutEntryUnchanged | TimeTrackerInjector/TimeTrackerInjector.UI/Core/CodeRewriter.cs:184-186 | outside the entry class a member not containing it is returned unchanged, and the report state is unchanged |
| RewriterClasses.MembersWithoutEntryUnchanged | TimeTrackerInjector/TimeTrackerInjector.UI/Core/CodeRewriter.cs:185-186 | the same for a member list |
| RewriterClasses.UnitWithoutEntryUnchanged | TimeTrackerInjector/TimeTrackerInjector.UI/Core/CodeRewriter.cs:87-88 | a syntax tree that does not declare the entry class is returned exactly as it was |
| RewriterClasses.LoopFieldNameStarts | TimeTrackerInjector/TimeTrackerInjector.UI/Core/CodeRewriter.cs:360 | every loop field name starts with `swLoop` |
| RewriterClasses.StatementsKeepLoopFields | TimeTrackerInjector/TimeTrackerInjector.UI/Core/CodeRewriter.cs:363 | statement visits only record `swLoop` names |
| RewriterClasses.MemberKeepsLoopFields | TimeTrackerInjector/TimeTrackerInjector.UI/Core/CodeRewriter.cs:363 | the same for a member visit |
| RewriterClasses.MembersKeepLoopFields | TimeTrackerInjector/TimeTrackerInjector.UI/Core/CodeRewriter.cs:363 | the same for a member list |
| RewriterClasses.VisitMemberNotField | TimeTrackerInjector/TimeTrackerInjector.UI/Core/CodeRewriter.cs:189 | visiting a member never produces a generated field |
| RewriterClasses.VisitMembersNoFields | TimeTrackerInjector/TimeTrackerInjector.UI/Core/CodeRewriter.cs:189 | a visited list of members without generated fields has none |
| RewriterClasses.MethodNameNotLoopName | TimeTrackerInjector/TimeTrackerInjector.UI/Core/CodeRewriter.cs:119 | a method stopwatch name is never a loop stopwatch name |
| RewriterClasses.FieldNamesAllDistinct | TimeTrackerInjector/TimeTrackerInjector.UI/Core/CodeRewriter.cs:191-245 | the method fields followed by the distinct loop fields have no repeated name |
| RewriterClasses.EntryClassFieldsDistinct | TimeTrackerInjector/TimeTrackerInjector.UI/Core/CodeRewriter.cs:180-254 | in a class the tool has not already instrumented, the rewritten entry class never declares the same stopwatch field twice |
| CodeRewriter.CandidatePaths | TimeTrackerInjector/TimeTrackerInjector.UI/Core/CodeRewriter.cs:58-61 | a path is a candidate exactly when some analysed method of the entry class (ordinal name match) has it as a non-blank path |
| CodeRewriter.FilesForEntryClass | TimeTrackerInjector/TimeTrackerInjector.UI/Core/CodeRewriter.cs:58-63 | the selected paths are the candidates, each once |
| CodeRewriter.FirstTree | TimeTrackerInjector/TimeTrackerInjector.UI/Core/CodeRewriter.cs:78-80 | the first syntax tree with the path; none exactly when no tree has it |
| CodeRewriter.RewriteFiles | TimeTrackerInjector/TimeTrackerInjector.UI/Core/CodeRewriter.cs:73-93 | every write is for a selected file that exists and has a tree, and holds the rewriter's output for that tree |
| CodeRewriter.RewriteFilesComplete | TimeTrackerInjector/TimeTrackerInjector.UI/Core/CodeRewriter.cs:73-93 | no selected file that exists and has a tree is skipped |
| CodeRewriter.RewriteFilesOnce | TimeTrackerInjector/TimeTrackerInjector.UI/Core/CodeRewriter.cs:62-73 | no file is written twice |
| CodeRewriter.RewriteContext | TimeTrackerInjector/TimeTrackerInjector.UI/Core/CodeRewriter.cs:53-88 | the visitor gets the program, the entry method and the class-restoring flag; its registry's keys are the call tree's distinct methods in pre-order, entry i named `sw{i+1}_…` and declared in the entry class's name |
| CodeRewriter.Rewrite | TimeTrackerInjector/TimeTrackerInjector.UI/Core/CodeRewriter.cs:44-94 | nothing is written for an empty method list, and no path is written twice |
| CodeRewriter.RewriteWritesOnlySelected | TimeTrackerInjector/TimeTrackerInjector.UI/Core/CodeRewriter.cs:58-92 | each written file belongs to an analysed method of the entry class, exists, has a tree, and holds that tree rewritten |
| CodeRewriter.RewriteWritesEverySelected | TimeTrackerInjector/TimeTrackerInjector.UI/Core/CodeRewriter.cs:58-92 | every analysed method of the entry class whose file exists and has a tree gets that file rewritten |
| CodeRewriter.RewriteOnlyInserts | TimeTrackerInjector/TimeTrackerInjector.UI/Core/CodeRewriter.cs:87-92 | every written file is its original tree with only generated statements, the blocks opened around them and generated fields inserted; the input's own blocks are kept |
| CodeRewriter.RewriteKeepsOtherFiles | TimeTrackerInjector/TimeTrackerInjector.UI/Core/CodeRewriter.cs:57-92 | a written file that does not declare the entry class is written back unchanged |
| SolutionAnalyzer.FirstProjectNamed | TimeTrackerInjector/TimeTrackerInjector.UI/Core/SolutionAnalyzer.cs:90-91 | the first project whose name matches ignoring case; none exactly when no name matches |
| SolutionAnalyzer.GetTargetProject | TimeTrackerInjector/TimeTrackerInjector.UI/Core/SolutionAnalyzer.cs:85-92 | a blank name picks the first project, if any; otherwise the first case-insensitive name match |
| SolutionAnalyzer.FirstEntryUnique | TimeTrackerInjector/TimeTrackerInjector.UI/Core/SolutionAnalyzer.cs:99-118 | the first-match result of the entry search is unique |
| SolutionAnalyzer.FindEntryMethod | TimeTrackerInjector/TimeTrackerInjector.UI/Core/SolutionAnalyzer.cs:94-119 | a blank class or method name gives none; otherwise the first declaration, tree by tree, whose method name matches ordinally and whose containing type's name matches ignoring case; none exactly when there is no such declaration |
| SolutionAnalyzer.Analyzed | TimeTrackerInjector/TimeTrackerInjector.UI/Core/SolutionAnalyzer.cs:61-67 | the record carries the symbol, its name, its containing type's name or "", and the document path or "" |
| SolutionAnalyzer.DeclarationRecords | TimeTrackerInjector/TimeTrackerInjector.UI/Core/SolutionAnalyzer.cs:55-67 | the inner loop adds, in declaration order, one record per declaration that has a method symbol and skips the others |
| SolutionAnalyzer.CollectMethods | TimeTrackerInjector/TimeTrackerInjector.UI/Core/SolutionAnalyzer.cs:45-69 | the loop collects, document by document, one record per declared method symbol of each document that has a root and a semantic model |
| SolutionAnalyzer.CollectedSound | TimeTrackerInjector/TimeTrackerInjector.UI/Core/SolutionAnalyzer.cs:47-67 | every record comes from a method symbol declared in a usable document |
| SolutionAnalyzer.AnalyzedAllSound | TimeTrackerInjector/TimeTrackerInjector.UI/Core/SolutionAnalyzer.cs:55-67 | every record of a document is one of its declared symbols |
| SolutionAnalyzer.CollectedComplete | TimeTrackerInjector/TimeTrackerInjector.UI/Core/SolutionAnalyzer.cs:47-67 | every method symbol declared in a usable document is collected |
| SolutionAnalyzer.AnalyzedAllComplete | TimeTrackerInjector/TimeTrackerInjector.UI/Core/SolutionAnalyzer.cs:55-67 | every declared symbol of a document gets its record |
| SolutionAnalyzer.Analyze | TimeTrackerInjector/TimeTrackerInjector.UI/Core/SolutionAnalyzer.cs:22-83 | a blank solution path, a missing solution file, a missing project and a failed compilation each give their own error, in that order; otherwise the result holds the compilation, the collected methods and the first-match entry method, which may be none |
| NestedClassFinding.NestedClassLeavesEntryClass | TimeTrackerInjector/TimeTrackerInjector.UI/Core/CodeRewriter.cs:182-186 | as written, after visiting a nested class that is not the entry class, the visitor no longer considers itself inside the entry class |
| NestedClassFinding.AsWrittenSkipsEntryMethod | TimeTrackerInjector/TimeTrackerInjector.UI/Core/CodeRewriter.cs:182-186 | as written, an entry method declared after a nested class comes out unchanged: no probe, no report |
| NestedClassFinding.CorrectedInstrumentsEntryMethod | TimeTrackerInjector/TimeTrackerInjector.UI/Core/CodeRewriter.cs:259-334 | with the enclosing class restored, the same entry method gets its call wrapped and its report |
| NestedClassFinding.MemberKeepsClass | TimeTrackerInjector/TimeTrackerInjector.UI/Core/CodeRewriter.cs:182 | with the enclosing class restored, a member visit leaves the current class as it was |
| NestedClassFinding.MembersKeepClass | TimeTrackerInjector/TimeTrackerInjector.UI/Core/CodeRewriter.cs:189 | the same for a member list |
| NestedClassFinding.VisitMembersAt | TimeTrackerInjector/TimeTrackerInjector.UI/Core/CodeRewriter.cs:189 | the k-th visited member is the k-th member visited in the state the earlier ones leave |
| NestedClassFinding.CorrectedReportsEntryMethod | TimeTrackerInjector/TimeTrackerInjector.UI/Core/CodeRewriter.cs:180-285 | with the enclosing class restored, the entry method of the entry class ends with its report wherever it stands among the members |
| Scenarios.CycleTree | TimeTrackerInjector/TimeTrackerInjector.UI/Core/CallGraphBuilder.cs:31-66 | for Main → A → B → A, the second A is a leaf |
| Scenarios.CycleRegistry | TimeTrackerInjector/TimeTrackerInjector.UI/Core/CodeRewriter.cs:101-129 | for the same cycle the registry is sw1_Main, sw2_A, sw3_B, all in the entry class |
| ProcessServiceScenario.WriteExcluded | TimeTrackerInjector/TimeTrackerInjector.UI/Core/CodeRewriter.cs:310-319 | in the sample project, `_logService.Write` is excluded because its type name contains `LogService` |
| ProcessServiceScenario.SleepExcluded | TimeTrackerInjector/TimeTrackerInjector.UI/Core/CodeRewriter.cs:310-319 | `Thread.Sleep` is excluded because its namespace starts with `System` |
| ProcessServiceScenario.ItemNotExcluded | TimeTrackerInjector/TimeTrackerInjector.UI/Core/CodeRewriter.cs:310-319 | `ProcessItem` is not excluded |
| ProcessServiceScenario.ExcludedCallsNotProbed | TimeTrackerInjector/TimeTrackerInjector.UI/Core/CodeRewriter.cs:301-338 | the `Write` and `Sleep` calls get no probe even when `Write` is registered |
| ProcessServiceScenario.ItemCallProbed | TimeTrackerInjector/TimeTrackerInjector.UI/Core/CodeRewriter.cs:321-326 | the `ProcessItem` call is probed as `ProcessService.<its field>` |
| ProcessServiceScenario.ForLoopVisit | TimeTrackerInjector/TimeTrackerInjector.UI/Core/CodeRewriter.cs:349-390 | a `for` or `foreach` loop of `ProcessAll` gets the next `swLoop` number, started before and stopped after its body, whose `ProcessItem` call is wrapped and whose `Sleep` is kept |
| ProcessServiceScenario.WhileLoopVisit | TimeTrackerInjector/TimeTrackerInjector.UI/Core/CodeRewriter.cs:349-390 | the same for the `while` loop, whose `index++` is kept |
| ProcessServiceScenario.ProcessAllRewritten | TimeTrackerInjectorTestSolution/ProjectExample/Services/ProcessService.cs:11-42 | `ProcessAll` rewritten: the two `Write` calls, the `Sleep`, the `items` and `index` declarations are kept; the three loops become `swLoop<n+1>` to `swLoop<n+3>` in document order, each timing its body |
| ProcessServiceScenario.ProcessAllRecords | TimeTrackerInjectorTestSolution/ProjectExample/Services/ProcessService.cs:11-42 | after `ProcessAll` three loop fields are recorded, and the report holds each loop's line followed by its `ProcessItem` line one level deeper |
| ProcessServiceScenario.FirstLoopNames | TimeTrackerInjector/TimeTrackerInjector.UI/Core/CodeRewriter.cs:359-360 | the first three loop stopwatches are `swLoop1`, `swLoop2`, `swLoop3` |
| ProcessServiceScenario.DirectCalleeRegistered | TimeTrackerInjector/TimeTrackerInjector.UI/Core/CodeRewriter.cs:101-129 | a method the root calls directly, in the root's own assembly, gets a stopwatch in the registry built from the root's call tree |
| ProcessServiceScenario.SampleCallees | TimeTrackerInjectorTestSolution/ProjectExample/Services/ProcessService.cs:11-42 | `ProcessAll` calls `ProcessItem` and `_logService.Write`, both of the sample's own assembly, so both are children of its call-tree root |
| ProcessServiceScenario.SampleRegistryContext | TimeTrackerInjector/TimeTrackerInjector.UI/Core/CodeRewriter.cs:68-88 | the context `RewriteAsync` builds for the sample with `ProcessAll` as entry method registers `ProcessItem` and `Write`, as the sample's rewriter context assumes |

## Left out

- Parsing, semantic binding and printing are Roslyn's. The symbol table and the syntax trees are
  inputs. `NormalizeWhitespace`, `ToFullString` and the UTF-8 write are not modelled. A write
  is a path plus the rewritten tree.
- File existence is a set of existing paths. The opened solution is a value. Nothing is read or
  written, and `async` is ignored.
- A null `methods` list (CodeRewriter.cs:50) is modelled as an empty sequence. A syntax tree
  whose root is not a compilation unit (CodeRewriter.cs:83-85) cannot occur in the model.
- `HashSet` and `Dictionary` enumeration follows insertion order. This covers the selected
  files (CodeRewriter.cs:63, 73) and the registry (CodeRewriter.cs:193). .NET gives this order
  for sets and dictionaries that are only added to, but does not promise it.
- `StringComparison.OrdinalIgnoreCase` and `char.IsLetterOrDigit` are modelled on ASCII only.
  Non-ASCII letters are treated as neither letters nor case-foldable.
- Syntax the visitor reaches through its default visit has no constructor of its own:
  - `if`, `switch`, `try`, `using`, `lock`, `do` and the deconstructing `foreach` are a generic
    compound statement;
  - constructors and accessors are code members;
  - structs, records and interfaces are other types.
- Lambdas, anonymous methods and local functions are not modelled. Expression statements inside
  them would be visited by the real visitor.
- A partial entry class split over several files is not modelled: each file's visit is
  independent.
- `StopwatchRegistry.FieldName`: counters are unbounded. The source's 32-bit `int` counters
  would overflow only after 2^31 stopwatches.
- `DeepHierarchyRewriter.LoopFieldName`: the same unbounded counter.
- `DeepHierarchyRewriter.VisitClass`: its own contract only states that the symbol is kept. The
  field layout, erasure and distinct names are proved in RewriterErasure and RewriterClasses.
- `DeepHierarchyRewriter.VisitUnit`: its own contract only states the member count. Erasure and
  unchanged files are proved in RewriterErasure and RewriterClasses.
- Logging is not modelled: the console output of workspace failures (SolutionAnalyzer.cs:31-34)
  and of a missing entry method (SolutionAnalyzer.cs:74).
- RewriterErasure.VisitStatementErases: a loop body is compared by its statements, so `for (...) { a; }`
  and `for (...) a;` erase alike; the visitor reuses the body's block or opens one (CodeRewriter.cs:379),
  and no other block of the input is flattened.
- RewriterErasure.VisitUnitErases: inherits the loop-body comparison of VisitStatementErases.
- CodeRewriter.RewriteOnlyInserts: inherits the loop-body comparison of VisitStatementErases.
- RewriterClasses.EntryClassFieldsDistinct: a file instrumented before parses its stopwatch fields as
  ordinary fields, so a second run would declare `sw1_...` again; the lemma covers a class the tool
  has not already instrumented.
- The constructor null checks are not modelled (SolutionAnalyzer.cs:19, CallGraphBuilder.cs:21,
  CodeRewriter.cs:38).
- The user interface, configuration storage and the separate `AnalyzedMethod.cs` record are not
  part of this model.
- `_entryMethod.ContainingType` is dereferenced without a null check (CodeRewriter.cs:326).
  That line is reached only inside the entry class, where the containing type exists, so the
  null case does not arise.

## Findings

| source | as written | input that shows it | evidently intended | confidence | as-written member | corrected member |
|---|---|---|---|---|---|---|
| TimeTrackerInjector/TimeTrackerInjector.UI/Core/CodeRewriter.cs:182-186 | `_currentClass` is set on entering every class declaration and never restored. After a nested class, the remaining members of the entry class are visited as if outside it. | Entry class `Service` declares a nested class, then the entry method `Run`, which calls the registered `Step()`. `Run` is returned unchanged: the call is not wrapped and no report is appended. The stopwatch fields are still added. | Every member of the entry class is instrumented wherever nested classes stand. The enclosing class is restored after a nested class. | likely; not executed | NestedClassFinding.AsWrittenSkipsEntryMethod | NestedClassFinding.CorrectedReportsEntryMethod |

In the model the `restoreClass` flag of the rewriter's context selects the behaviour. Cleared,
it is the visitor as written, and `CodeRewriter.Rewrite` with the flag cleared is `RewriteAsync`
as written. Set, it is the corrected visitor, about which
`NestedClassFinding.CorrectedReportsEntryMethod` is proved. The properties of `CodeRewriter`
hold for either value.

=== FILE: call_graph_builder.dfy ===
/** `CallGraphBuilder`: depth-first expansion of the call tree from an entry
    method. The builder's visited set is threaded through explicitly; a method
    is expanded only the first time it is met, so a repeated (or recursive)
    call still gets its node but that node stays a leaf. */
module CallGraphBuilder {
  import opened Wrappers
  import opened Seqs
  import opened ProgramModel
  import opened CallGraphModels

  /** The children an invocation list yields: resolved targets, in document
      order, that belong to the compilation's own assembly. */
  function Targets(p: Program, calls: seq<SymbolInfo>): (r: seq<MethodId>)
    ensures |r| <= |calls|
    ensures forall k :: 0 <= k < |r| ==> Info(p, r[k]).assembly == OwnAssembly
  {
    if calls == [] then []
    else
      var rest := Targets(p, calls[1..]);
      match ResolveTarget(calls[0])
      case Some(t) => if Info(p, t).assembly == OwnAssembly then [t] + rest else rest
      case None => rest
  }

  /** An invocation that resolves to a method of the compilation's own
      assembly always yields a child. */
  lemma {:induction false} TargetsHas(p: Program, calls: seq<SymbolInfo>, k: nat, t: MethodId)
    requires k < |calls| && ResolveTarget(calls[k]) == Some(t) && Info(p, t).assembly == OwnAssembly
    ensures t in Targets(p, calls)
  {
    if k > 0 {
      TargetsHas(p, calls[1..], k - 1, t);
    }
  }

  /** The children a first visit of `m` produces: none without a method
      declaration, otherwise the targets of its invocations. */
  function ChildTargets(p: Program, m: MethodId): seq<MethodId> {
    match Info(p, m).syntax
    case MethodDeclaration(invocations) => Targets(p, invocations)
    case _ => []
  }

  /** Visiting a new method leaves one fewer method unvisited. */
  lemma UnvisitedShrinks<T>(keys: set<T>, visited: set<T>, m: T)
    requires m !in visited
    ensures keys - (visited + {m}) == (keys - visited) - {m}
  {
  }

  lemma SubsetCard<T>(a: set<T>, b: set<T>)
    requires a <= b
    ensures |a| <= |b|
  {
    assert b == a + (b - a);
  }

  /** `ExpandAsync` on a fresh node for `m`, from visited set `visited`; yields
      the node and the visited set afterwards. */
  function Expand(p: Program, m: MethodId, visited: set<MethodId>): (r: (CallGraphNode, set<MethodId>))
    ensures r.0.symbol == m
    ensures r.1 == visited + SymbolSet(PreOrder(r.0))
    decreases |p.methods.Keys - visited|, 0
  {
    if m in visited then
      NodeSymbolSet(m, []);
      (NewNode(m), visited)
    else
      var seen := visited + {m};
      match Info(p, m).syntax
      case MethodDeclaration(invocations) =>
        UnvisitedShrinks(p.methods.Keys, visited, m);
        var (children, after) := ExpandCalls(p, invocations, seen);
        NodeSymbolSet(m, children);
        (CallGraphNode(m, children), after)
      case _ =>
        NodeSymbolSet(m, []);
        (NewNode(m), seen)
  }

  /** The `foreach (var inv in invocations)` loop of `ExpandAsync`: each
      resolved own-assembly target becomes a child that is expanded before the
      next invocation is looked at. */
  function ExpandCalls(p: Program, calls: seq<SymbolInfo>, visited: set<MethodId>): (r: (seq<CallGraphNode>, set<MethodId>))
    ensures Symbols(r.0) == Targets(p, calls)
    ensures r.1 == visited + SymbolSet(PreOrderList(r.0))
    decreases |p.methods.Keys - visited|, |calls| + 1
  {
    if calls == [] then ([], visited)
    else
      match ResolveTarget(calls[0])
      case None => ExpandCalls(p, calls[1..], visited)
      case Some(t) =>
        if Info(p, t).assembly != OwnAssembly then ExpandCalls(p, calls[1..], visited)
        else
          var (child, mid) := Expand(p, t, visited);
          SubsetCard(p.methods.Keys - mid, p.methods.Keys - visited);
          var (rest, after) := ExpandCalls(p, calls[1..], mid);
          ConsNodes(child, rest);
          ([child] + rest, after)
  }

  /** `BuildTreeAsync(root)` on a builder whose visited set is `visited` (empty
      for a fresh builder): the root node and the builder's visited set after. */
  function BuildTree(p: Program, root: MethodId, visited: set<MethodId>): (r: (CallGraphNode, set<MethodId>))
    ensures r.0.symbol == root
    ensures r.1 == visited + SymbolSet(PreOrder(r.0))
    ensures root !in visited ==> Symbols(r.0.children) == ChildTargets(p, root)
    ensures root in visited ==> r.0.children == []
  {
    Expand(p, root, visited)
  }
}

/** What the depth-first expansion guarantees about the tree it returns, stated
    over the tree's pre-order node sequence without reference to the visited
    set the builder threads. */
module CallGraphShape {
  import opened Seqs
  import opened ProgramModel
  import opened CallGraphModels
  import opened CallGraphBuilder

  /** A node met after the methods in `seen`: a leaf if its method was met
      before, otherwise its children are exactly the method's call targets. */
  predicate NodeShaped(p: Program, n: CallGraphNode, seen: set<MethodId>) {
    if n.symbol in seen then n.children == []
    else Symbols(n.children) == ChildTargets(p, n.symbol)
  }

  /** Every node of a pre-order sequence is shaped by what precedes it. */
  predicate DfsShaped(p: Program, nodes: seq<CallGraphNode>, visited: set<MethodId>) {
    forall i {:trigger nodes[i]} :: 0 <= i < |nodes| ==> NodeShaped(p, nodes[i], visited + SymbolSet(nodes[..i]))
  }

  /** One node of a shaped sequence. */
  lemma {:induction false} DfsShapedAt(p: Program, nodes: seq<CallGraphNode>, visited: set<MethodId>, i: nat)
    requires DfsShaped(p, nodes, visited) && i < |nodes|
    ensures NodeShaped(p, nodes[i], visited + SymbolSet(nodes[..i]))
  {
  }

  /** A node of the first half, seen after the same nodes as before. */
  lemma {:induction false} DfsShapedAppendLeft(p: Program, a: seq<CallGraphNode>, b: seq<CallGraphNode>, visited: set<MethodId>, i: nat)
    requires DfsShaped(p, a, visited) && i < |a|
    ensures NodeShaped(p, (a + b)[i], visited + SymbolSet((a + b)[..i]))
  {
    DfsShapedAt(p, a, visited, i);
    assert (a + b)[..i] == a[..i];
    assert (a + b)[i] == a[i];
  }

  /** A node of the second half, seen after all of the first half. */
  lemma {:induction false} DfsShapedAppendRight(p: Program, a: seq<CallGraphNode>, b: seq<CallGraphNode>, visited: set<MethodId>, j: nat)
    requires DfsShaped(p, b, visited + SymbolSet(a)) && j < |b|
    ensures NodeShaped(p, (a + b)[|a| + j], visited + SymbolSet((a + b)[..|a| + j]))
  {
    DfsShapedAt(p, b, visited + SymbolSet(a), j);
    assert (a + b)[..|a| + j] == a + b[..j];
    SymbolSetAppend(a, b[..j]);
    assert visited + SymbolSet(a) + SymbolSet(b[..j]) == visited + SymbolSet((a + b)[..|a| + j]);
    assert (a + b)[|a| + j] == b[j];
  }

  lemma {:induction false} DfsShapedAppendAt(p: Program, a: seq<CallGraphNode>, b: seq<CallGraphNode>, visited: set<MethodId>, i: nat)
    requires DfsShaped(p, a, visited)
    requires DfsShaped(p, b, visited + SymbolSet(a))
    requires i < |a + b|
    ensures NodeShaped(p, (a + b)[i], visited + SymbolSet((a + b)[..i]))
  {
    if i < |a| {
      DfsShapedAppendLeft(p, a, b, visited, i);
    } else {
      DfsShapedAppendRight(p, a, b, visited, i - |a|);
    }
  }

  lemma {:induction false} DfsShapedAppend(p: Program, a: seq<CallGraphNode>, b: seq<CallGraphNode>, visited: set<MethodId>)
    requires DfsShaped(p, a, visited)
    requires DfsShaped(p, b, visited + SymbolSet(a))
    ensures DfsShaped(p, a + b, visited)
  {
    forall i | 0 <= i < |a + b|
      ensures NodeShaped(p, (a + b)[i], visited + SymbolSet((a + b)[..i]))
    {
      DfsShapedAppendAt(p, a, b, visited, i);
    }
  }

  lemma {:induction false} ExpandShaped(p: Program, m: MethodId, visited: set<MethodId>)
    ensures DfsShaped(p, PreOrder(Expand(p, m, visited).0), visited)
    decreases |p.methods.Keys - visited|, 0
  {
    var node := Expand(p, m, visited).0;
    assert NodeShaped(p, node, visited);
    assert DfsShaped(p, [node], visited) by {
      assert [node][..0] == [];
    }
    assert SymbolSet([node]) == {m};
    if m !in visited {
      match Info(p, m).syntax
      case MethodDeclaration(invocations) =>
        var seen := visited + {m};
        assert p.methods.Keys - seen == (p.methods.Keys - visited) - {m};
        ExpandCallsShaped(p, invocations, seen);
        DfsShapedAppend(p, [node], PreOrderList(node.children), visited);
      case _ =>
        assert PreOrder(node) == [node];
    } else {
      assert PreOrder(node) == [node];
    }
  }

  lemma {:induction false} ExpandCallsShaped(p: Program, calls: seq<SymbolInfo>, visited: set<MethodId>)
    ensures DfsShaped(p, PreOrderList(ExpandCalls(p, calls, visited).0), visited)
    decreases |p.methods.Keys - visited|, |calls| + 1
  {
    if calls != [] {
      match ResolveTarget(calls[0])
      case None => ExpandCallsShaped(p, calls[1..], visited);
      case Some(t) =>
        if Info(p, t).assembly != OwnAssembly {
          ExpandCallsShaped(p, calls[1..], visited);
        } else {
          var (child, mid) := Expand(p, t, visited);
          SubsetCard(p.methods.Keys - mid, p.methods.Keys - visited);
          var rest := ExpandCalls(p, calls[1..], mid).0;
          ExpandShaped(p, t, visited);
          ExpandCallsShaped(p, calls[1..], mid);
          assert ([child] + rest)[0] == child && ([child] + rest)[1..] == rest;
          DfsShapedAppend(p, PreOrder(child), PreOrderList(rest), visited);
        }
    }
  }

  /** The methods whose nodes received children, in pre-order. */
  function ExpandedSymbols(nodes: seq<CallGraphNode>): (r: seq<MethodId>)
    ensures forall k :: 0 <= k < |r| ==> exists i :: 0 <= i < |nodes| && nodes[i].children != [] && nodes[i].symbol == r[k]
  {
    if nodes == [] then []
    else
      var rest := ExpandedSymbols(nodes[1..]);
      assert forall i :: 0 <= i < |nodes[1..]| ==> nodes[1..][i] == nodes[i + 1];
      (if nodes[0].children != [] then [nodes[0].symbol] else []) + rest
  }

  /** The tree `BuildTreeAsync` returns is a depth-first expansion: in
      pre-order, a node whose method was already met (before the call, or
      earlier in the tree) is a childless leaf, and any other node's children
      are its method's resolved own-assembly invocation targets in document
      order. */
  lemma BuildTreeIsDepthFirst(p: Program, root: MethodId, visited: set<MethodId>)
    ensures DfsShaped(p, PreOrder(BuildTree(p, root, visited).0), visited)
  {
    ExpandShaped(p, root, visited);
  }

  /** Each method has its children computed at most once: a node with children
      is the first occurrence of its method in pre-order and was not visited
      by an earlier build on the same builder. */
  lemma ExpandedNodesAreFirstOccurrences(p: Program, nodes: seq<CallGraphNode>, visited: set<MethodId>)
    requires DfsShaped(p, nodes, visited)
    ensures forall j :: 0 <= j < |nodes| && nodes[j].children != [] ==> nodes[j].symbol !in visited
    ensures forall i, j :: 0 <= i < j < |nodes| && nodes[j].children != [] ==> nodes[i].symbol != nodes[j].symbol
  {
    forall i, j | 0 <= i < j < |nodes| && nodes[j].children != []
      ensures nodes[i].symbol != nodes[j].symbol
    {
      assert NodeShaped(p, nodes[j], visited + SymbolSet(nodes[..j]));
      assert nodes[..j][i] == nodes[i];
    }
    forall j | 0 <= j < |nodes| && nodes[j].children != []
      ensures nodes[j].symbol !in visited
    {
      assert NodeShaped(p, nodes[j], visited + SymbolSet(nodes[..j]));
    }
  }

  /** Hence the number of expanded nodes is bounded by the number of methods
      the compilation declares. */
  lemma {:induction false} ExpandedCountBounded(p: Program, nodes: seq<CallGraphNode>, visited: set<MethodId>)
    requires DfsShaped(p, nodes, visited)
    ensures NoDuplicates(ExpandedSymbols(nodes))
    ensures |ExpandedSymbols(nodes)| <= |p.methods.Keys|
  {
    ExpandedNodesAreFirstOccurrences(p, nodes, visited);
    var e := ExpandedSymbols(nodes);
    ExpandedSymbolsDistinct(nodes);
    forall k | 0 <= k < |e|
      ensures e[k] in p.methods.Keys
    {
      ExpandedDeclared(p, nodes, visited, k);
    }
    DistinctLength(e, p.methods.Keys);
  }

  /** An expanded method has children, so the compilation declares it. */
  lemma ExpandedDeclared(p: Program, nodes: seq<CallGraphNode>, visited: set<MethodId>, k: nat)
    requires DfsShaped(p, nodes, visited) && k < |ExpandedSymbols(nodes)|
    ensures ExpandedSymbols(nodes)[k] in p.methods.Keys
  {
    var e := ExpandedSymbols(nodes);
    var i :| 0 <= i < |nodes| && nodes[i].children != [] && nodes[i].symbol == e[k];
    DfsShapedAt(p, nodes, visited, i);
    assert ChildTargets(p, e[k]) != [];
  }

  lemma {:induction false} ExpandedSymbolsDistinct(nodes: seq<CallGraphNode>)
    requires forall i, j :: 0 <= i < j < |nodes| && nodes[j].children != [] ==> nodes[i].symbol != nodes[j].symbol
    ensures NoDuplicates(ExpandedSymbols(nodes))
  {
    if nodes != [] {
      var tail := nodes[1..];
      forall i, j | 0 <= i < j < |tail| && tail[j].children != []
        ensures tail[i].symbol != tail[j].symbol
      {
        assert tail[i] == nodes[i + 1] && tail[j] == nodes[j + 1];
      }
      ExpandedSymbolsDistinct(tail);
      if nodes[0].children != [] {
        var rest := ExpandedSymbols(tail);
        forall k | 0 <= k < |rest|
          ensures rest[k] != nodes[0].symbol
        {
          var i :| 0 <= i < |tail| && tail[i].children != [] && tail[i].symbol == rest[k];
          assert tail[i] == nodes[i + 1];
        }
      }
    }
  }

  /** A second `BuildTreeAsync` for an already expanded root on the same
      builder returns a bare root. */
  lemma RebuildIsLeaf(p: Program, root: MethodId, visited: set<MethodId>)
    ensures var (_, after) := BuildTree(p, root, visited);
            BuildTree(p, root, after).0 == CallGraphNode(root, [])
  {
    var (t, after) := BuildTree(p, root, visited);
    assert PreOrder(t)[0] == t;
    assert root in SymbolSet(PreOrder(t));
  }
}

=== FILE: call_graph_models.dfy ===
/** The call tree and the stopwatch record. Both are immutable values: a node's
    symbol and a record's fields are fixed when the value is built. */
module CallGraphModels {
  import opened ProgramModel

  /** A call-tree node: the method symbol and its children in call order. */
  datatype CallGraphNode = CallGraphNode(symbol: MethodId, children: seq<CallGraphNode>)

  /** A method's stopwatch: the class that declares the field and the field's
      name (`sw1_ProcessItem`). */
  datatype StopwatchInfo = StopwatchInfo(declaringClassName: string, fieldName: string)

  /** `new CallGraphNode(symbol)`: the given symbol and no children yet. */
  function NewNode(symbol: MethodId): (n: CallGraphNode)
    ensures n.symbol == symbol && |n.children| == 0
  {
    CallGraphNode(symbol, [])
  }

  /** `new StopwatchInfo()`: both properties default to the empty string. */
  function NewStopwatchInfo(): (s: StopwatchInfo)
    ensures |s.declaringClassName| == 0 && |s.fieldName| == 0
  {
    StopwatchInfo("", "")
  }

  /** The nodes of a tree in depth-first pre-order (the order of a recursive
      walk that handles a node before its children). */
  function PreOrder(n: CallGraphNode): (r: seq<CallGraphNode>)
    ensures |r| > 0 && r[0] == n
  {
    [n] + PreOrderList(n.children)
  }

  function PreOrderList(ns: seq<CallGraphNode>): seq<CallGraphNode> {
    if ns == [] then [] else PreOrder(ns[0]) + PreOrderList(ns[1..])
  }

  function Symbols(ns: seq<CallGraphNode>): (r: seq<MethodId>)
    ensures |r| == |ns|
    ensures forall i :: 0 <= i < |ns| ==> r[i] == ns[i].symbol
  {
    if ns == [] then [] else [ns[0].symbol] + Symbols(ns[1..])
  }

  function SymbolSet(ns: seq<CallGraphNode>): set<MethodId> {
    set i | 0 <= i < |ns| :: ns[i].symbol
  }

  lemma SymbolSetAppend(a: seq<CallGraphNode>, b: seq<CallGraphNode>)
    ensures SymbolSet(a + b) == SymbolSet(a) + SymbolSet(b)
  {
    forall m | m in SymbolSet(a + b)
      ensures m in SymbolSet(a) + SymbolSet(b)
    {
      var i :| 0 <= i < |a + b| && (a + b)[i].symbol == m;
      if i >= |a| {
        assert b[i - |a|].symbol == m;
      }
    }
    forall m | m in SymbolSet(b)
      ensures m in SymbolSet(a + b)
    {
      var i :| 0 <= i < |b| && b[i].symbol == m;
      assert (a + b)[|a| + i].symbol == m;
    }
    forall m | m in SymbolSet(a)
      ensures m in SymbolSet(a + b)
    {
      var i :| 0 <= i < |a| && a[i].symbol == m;
      assert (a + b)[i].symbol == m;
    }
  }

  /** A node's pre-order holds its own method and those below it. */
  lemma NodeSymbolSet(m: MethodId, children: seq<CallGraphNode>)
    ensures SymbolSet(PreOrder(CallGraphNode(m, children))) == {m} + SymbolSet(PreOrderList(children))
  {
    SymbolSetAppend([CallGraphNode(m, children)], PreOrderList(children));
    assert SymbolSet([CallGraphNode(m, children)]) == {m} by {
      assert [CallGraphNode(m, children)][0].symbol == m;
    }
  }

  /** A node in front of its siblings: its method first, its subtree first. */
  lemma ConsNodes(x: CallGraphNode, rest: seq<CallGraphNode>)
    ensures Symbols([x] + rest) == [x.symbol] + Symbols(rest)
    ensures SymbolSet(PreOrderList([x] + rest)) == SymbolSet(PreOrder(x)) + SymbolSet(PreOrderList(rest))
  {
    assert ([x] + rest)[0] == x && ([x] + rest)[1..] == rest;
    SymbolSetAppend(PreOrder(x), PreOrderList(rest));
  }

  lemma SymbolsAppend(a: seq<CallGraphNode>, b: seq<CallGraphNode>)
    ensures Symbols(a + b) == Symbols(a) + Symbols(b)
  {
  }

  /** Every child of a list of siblings is met in their pre-order. */
  lemma {:induction false} ChildInPreOrderList(ns: seq<CallGraphNode>, k: nat)
    requires k < |ns|
    ensures ns[k] in PreOrderList(ns)
  {
    assert PreOrderList(ns) == PreOrder(ns[0]) + PreOrderList(ns[1..]);
    if k > 0 {
      ChildInPreOrderList(ns[1..], k - 1);
    }
  }

  /** The method of a child is among the methods of its parent's pre-order. */
  lemma ChildSymbolInPreOrder(n: CallGraphNode, k: nat)
    requires k < |n.children|
    ensures n.children[k].symbol in Symbols(PreOrder(n))
  {
    ChildInPreOrderList(n.children, k);
    var j :| 0 <= j < |PreOrderList(n.children)| && PreOrderList(n.children)[j] == n.children[k];
    assert PreOrder(n)[j + 1] == n.children[k];
  }
}

=== FILE: code_rewriter.dfy ===
/** `CodeRewriter.RewriteAsync`: which files are rewritten, and with what.
    The file system and the compilation's syntax trees are given as values;
    the rewritten files are returned in the order they would be written. */
module CodeRewriter {
  import opened Wrappers
  import opened Text
  import opened Seqs
  import opened ProgramModel
  import opened CallGraphModels
  import opened StopwatchRegistry
  import opened SyntaxModel
  import opened DeepHierarchyRewriter
  import RewriterErasure
  import RewriterClasses

  /** One method found by the analysis: `ClassName`, `MethodName`,
      `FilePath` and `Symbol`. */
  datatype AnalyzedMethod = AnalyzedMethod(className: string, methodName: string, filePath: string, symbol: Option<MethodId>)

  /** A syntax tree of the compilation and the path it was parsed from. */
  datatype SyntaxTree = SyntaxTree(filePath: string, root: CompilationUnit)

  /** The compilation: its symbol table and its syntax trees in order. */
  datatype Compilation = Compilation(program: Program, trees: seq<SyntaxTree>)

  /** A file written back: its path and its new contents. */
  datatype FileWrite = FileWrite(path: string, unit: CompilationUnit)

  predicate SelectsFile(m: AnalyzedMethod, entryClassName: string) {
    m.className == entryClassName && !IsNullOrWhiteSpace(Some(m.filePath))
  }

  /** The paths of the analysed methods of the entry class, blank paths
      dropped, in the order of the methods. */
  function CandidatePaths(methods: seq<AnalyzedMethod>, entryClassName: string): (r: seq<string>)
    ensures forall f :: f in r <==> exists i :: 0 <= i < |methods| && SelectsFile(methods[i], entryClassName) && methods[i].filePath == f
  {
    if methods == [] then []
    else
      var rest := CandidatePaths(methods[1..], entryClassName);
      assert forall i :: 0 < i < |methods| ==> methods[i] == methods[1..][i - 1];
      if SelectsFile(methods[0], entryClassName) then [methods[0].filePath] + rest else rest
  }

  /** `filesForEntryClass`: the non-blank paths of the methods whose class
      name ordinally equals the entry class's name, each path once. */
  function FilesForEntryClass(methods: seq<AnalyzedMethod>, entryClassName: string): (r: seq<string>)
    ensures NoDuplicates(r)
    ensures forall f :: f in r <==> exists i :: 0 <= i < |methods| && SelectsFile(methods[i], entryClassName) && methods[i].filePath == f
  {
    var c := CandidatePaths(methods, entryClassName);
    var r := Dedup(c);
    forall f
      ensures f in r <==> f in c
    {
      DedupSameElements(c, f);
    }
    r
  }

  /** `compilation.SyntaxTrees.FirstOrDefault(t => t.FilePath == path)`. */
  function FirstTree(trees: seq<SyntaxTree>, path: string): (r: Option<CompilationUnit>)
    ensures r.None? <==> forall i :: 0 <= i < |trees| ==> trees[i].filePath != path
    ensures r.Some? ==> exists i :: 0 <= i < |trees| && trees[i] == SyntaxTree(path, r.value)
                                    && forall j :: 0 <= j < i ==> trees[j].filePath != path
  {
    if trees == [] then None
    else if trees[0].filePath == path then Some(trees[0].root)
    else
      var r := FirstTree(trees[1..], path);
      assert forall j :: 0 < j < |trees| ==> trees[j] == trees[1..][j - 1];
      r
  }

  /** Whether `f` is rewritten at all: it exists and has a syntax tree. */
  predicate Rewritable(trees: seq<SyntaxTree>, existing: set<string>, f: string) {
    f in existing && FirstTree(trees, f).Some?
  }

  /** The loop over the selected files: a file that does not exist or has
      no syntax tree is skipped; any other is read from its first syntax
      tree and given to a fresh rewriter, `rewrite`. */
  function RewriteFiles(rewrite: CompilationUnit -> CompilationUnit, trees: seq<SyntaxTree>, files: seq<string>, existing: set<string>): (r: seq<FileWrite>)
    ensures |r| <= |files|
    ensures forall k :: 0 <= k < |r| ==> r[k].path in files && Rewritable(trees, existing, r[k].path)
                                         && r[k].unit == rewrite(FirstTree(trees, r[k].path).value)
  {
    if files == [] then []
    else
      var rest := RewriteFiles(rewrite, trees, files[1..], existing);
      assert forall f :: f in files && f != files[0] ==> f in files[1..];
      if !Rewritable(trees, existing, files[0]) then rest
      else
        var r := [FileWrite(files[0], rewrite(FirstTree(trees, files[0]).value))] + rest;
        assert r[1..] == rest;
        r
  }

  /** No file that exists and has a syntax tree is left out. */
  lemma {:induction false} RewriteFilesComplete(rewrite: CompilationUnit -> CompilationUnit, trees: seq<SyntaxTree>, files: seq<string>, existing: set<string>, f: string)
    requires f in files && Rewritable(trees, existing, f)
    ensures exists k :: 0 <= k < |RewriteFiles(rewrite, trees, files, existing)|
                        && RewriteFiles(rewrite, trees, files, existing)[k] == FileWrite(f, rewrite(FirstTree(trees, f).value))
  {
    var r := RewriteFiles(rewrite, trees, files, existing);
    var rest := RewriteFiles(rewrite, trees, files[1..], existing);
    if f == files[0] {
      assert r[0] == FileWrite(f, rewrite(FirstTree(trees, f).value));
    } else {
      assert f in files[1..];
      RewriteFilesComplete(rewrite, trees, files[1..], existing, f);
      var k :| 0 <= k < |rest| && rest[k] == FileWrite(f, rewrite(FirstTree(trees, f).value));
      if Rewritable(trees, existing, files[0]) {
        assert r[k + 1] == rest[k];
      } else {
        assert r == rest;
      }
    }
  }

  /** The output paths of a sequence of writes. */
  function Paths(ws: seq<FileWrite>): (r: seq<string>)
    ensures |r| == |ws| && forall k :: 0 <= k < |ws| ==> r[k] == ws[k].path
  {
    if ws == [] then [] else [ws[0].path] + Paths(ws[1..])
  }

  lemma {:induction false} RewriteFilesOnce(rewrite: CompilationUnit -> CompilationUnit, trees: seq<SyntaxTree>, files: seq<string>, existing: set<string>)
    requires NoDuplicates(files)
    ensures NoDuplicates(Paths(RewriteFiles(rewrite, trees, files, existing)))
  {
    if files != [] {
      assert NoDuplicates(files[1..]);
      RewriteFilesOnce(rewrite, trees, files[1..], existing);
    }
  }

  /** The stopwatch registry and the rewriter's context for an entry method.
      `restoreClass` false is the visitor as written, which never restores
      the current class after a class declaration; true is the corrected
      visitor, which restores it. */
  function RewriteContext(comp: Compilation, root: CallGraphNode, entry: MethodId, restoreClass: bool): (r: Context)
    ensures r.entry == entry && r.restoreClass == restoreClass && r.program == comp.program
    ensures Keys(r.stopwatches) == Dedup(Symbols(PreOrder(root)))
    ensures WellNumbered(comp.program, EntryClassName(Info(comp.program, entry).containingType), r.stopwatches)
  {
    var entryType := Info(comp.program, entry).containingType;
    Context(comp.program, BuildStopwatchRegistry(comp.program, root, entryType), entry, restoreClass)
  }

  /** `entryClass?.Name ?? string.Empty`. */
  function EntryClassSimpleName(comp: Compilation, entry: MethodId): string {
    match Info(comp.program, entry).containingType
    case Some(t) => t.name
    case None => ""
  }

  /** The rewriter of one file: a fresh `DeepHierarchyRewriter` over the
      context of the entry method. */
  function FileRewriter(comp: Compilation, root: CallGraphNode, entry: MethodId, restoreClass: bool): CompilationUnit -> CompilationUnit {
    var ctx := RewriteContext(comp, root, entry, restoreClass);
    u => VisitUnit(ctx, u)
  }

  /** `RewriteAsync`: nothing is written for an empty method list or when no
      analysed method of the entry class has a usable path; otherwise each
      selected file that exists and has a syntax tree is rewritten, once.
      `RewriteAsync` as written is `restoreClass` false. */
  function Rewrite(comp: Compilation, root: CallGraphNode, methods: seq<AnalyzedMethod>, entry: MethodId, existing: set<string>, restoreClass: bool): (r: seq<FileWrite>)
    ensures |methods| == 0 ==> r == []
    ensures NoDuplicates(Paths(r))
  {
    if |methods| == 0 then []
    else
      var files := FilesForEntryClass(methods, EntryClassSimpleName(comp, entry));
      if |files| == 0 then []
      else
        RewriteFilesOnce(FileRewriter(comp, root, entry, restoreClass), comp.trees, files, existing);
        RewriteFiles(FileRewriter(comp, root, entry, restoreClass), comp.trees, files, existing)
  }

  /** Every written file belongs to an analysed method of the entry class,
      exists, and holds the rewriter's output for its first syntax tree. */
  lemma RewriteWritesOnlySelected(comp: Compilation, root: CallGraphNode, methods: seq<AnalyzedMethod>, entry: MethodId, existing: set<string>, restoreClass: bool, k: nat)
    ensures k < |Rewrite(comp, root, methods, entry, existing, restoreClass)| ==>
            var w := Rewrite(comp, root, methods, entry, existing, restoreClass)[k];
            && Rewritable(comp.trees, existing, w.path)
            && w.unit == VisitUnit(RewriteContext(comp, root, entry, restoreClass), FirstTree(comp.trees, w.path).value)
            && exists i :: 0 <= i < |methods| && methods[i].filePath == w.path
                           && SelectsFile(methods[i], EntryClassSimpleName(comp, entry))
  {
    var files := FilesForEntryClass(methods, EntryClassSimpleName(comp, entry));
    assert Rewrite(comp, root, methods, entry, existing, restoreClass) == RewriteFiles(FileRewriter(comp, root, entry, restoreClass), comp.trees, files, existing);
  }

  /** Every analysed method of the entry class whose file exists and has a
      syntax tree gets that file rewritten. */
  lemma RewriteWritesEverySelected(comp: Compilation, root: CallGraphNode, methods: seq<AnalyzedMethod>, entry: MethodId, existing: set<string>, restoreClass: bool, i: nat)
    requires i < |methods| && SelectsFile(methods[i], EntryClassSimpleName(comp, entry))
    requires Rewritable(comp.trees, existing, methods[i].filePath)
    ensures var r := Rewrite(comp, root, methods, entry, existing, restoreClass);
            exists k :: 0 <= k < |r| && r[k].path == methods[i].filePath
                        && r[k].unit == VisitUnit(RewriteContext(comp, root, entry, restoreClass), FirstTree(comp.trees, methods[i].filePath).value)
  {
    var files := FilesForEntryClass(methods, EntryClassSimpleName(comp, entry));
    var f := methods[i].filePath;
    assert f in files;
    var rw := FileRewriter(comp, root, entry, restoreClass);
    RewriteFilesComplete(rw, comp.trees, files, existing, f);
    var r := RewriteFiles(rw, comp.trees, files, existing);
    assert Rewrite(comp, root, methods, entry, existing, restoreClass) == r;
    var k :| 0 <= k < |r| && r[k] == FileWrite(f, rw(FirstTree(comp.trees, f).value));
    assert r[k].unit == VisitUnit(RewriteContext(comp, root, entry, restoreClass), FirstTree(comp.trees, f).value);
  }

  lemma WriteOnlyInserts(comp: Compilation, root: CallGraphNode, methods: seq<AnalyzedMethod>, entry: MethodId, existing: set<string>, restoreClass: bool, k: nat)
    ensures k < |Rewrite(comp, root, methods, entry, existing, restoreClass)| ==>
            var w := Rewrite(comp, root, methods, entry, existing, restoreClass)[k];
            RewriterErasure.EraseMembers(w.unit.members) == RewriterErasure.EraseMembers(FirstTree(comp.trees, w.path).value.members)
  {
    if k < |Rewrite(comp, root, methods, entry, existing, restoreClass)| {
      var w := Rewrite(comp, root, methods, entry, existing, restoreClass)[k];
      RewriteWritesOnlySelected(comp, root, methods, entry, existing, restoreClass, k);
      RewriterErasure.VisitUnitErases(RewriteContext(comp, root, entry, restoreClass), FirstTree(comp.trees, w.path).value);
    }
  }

  /** Every written file is its syntax tree with statements, the blocks
      opened around them and stopwatch fields inserted: erasing what the
      rewriter generates gives back the tree's members, their blocks kept. */
  lemma RewriteOnlyInserts(comp: Compilation, root: CallGraphNode, methods: seq<AnalyzedMethod>, entry: MethodId, existing: set<string>, restoreClass: bool)
    ensures var r := Rewrite(comp, root, methods, entry, existing, restoreClass);
            forall k :: 0 <= k < |r| ==>
              RewriterErasure.EraseMembers(r[k].unit.members) == RewriterErasure.EraseMembers(FirstTree(comp.trees, r[k].path).value.members)
  {
    var r := Rewrite(comp, root, methods, entry, existing, restoreClass);
    forall k | 0 <= k < |r|
      ensures RewriterErasure.EraseMembers(r[k].unit.members) == RewriterErasure.EraseMembers(FirstTree(comp.trees, r[k].path).value.members)
    {
      WriteOnlyInserts(comp, root, methods, entry, existing, restoreClass, k);
    }
  }

  lemma WriteKeepsOtherFile(comp: Compilation, root: CallGraphNode, methods: seq<AnalyzedMethod>, entry: MethodId, existing: set<string>, restoreClass: bool, k: nat)
    ensures k < |Rewrite(comp, root, methods, entry, existing, restoreClass)| ==>
            var w := Rewrite(comp, root, methods, entry, existing, restoreClass)[k];
            !RewriterClasses.AnyDeclaresEntry(RewriteContext(comp, root, entry, restoreClass), FirstTree(comp.trees, w.path).value.members) ==>
            w.unit == FirstTree(comp.trees, w.path).value
  {
    if k < |Rewrite(comp, root, methods, entry, existing, restoreClass)| {
      var w := Rewrite(comp, root, methods, entry, existing, restoreClass)[k];
      RewriteWritesOnlySelected(comp, root, methods, entry, existing, restoreClass, k);
      if !RewriterClasses.AnyDeclaresEntry(RewriteContext(comp, root, entry, restoreClass), FirstTree(comp.trees, w.path).value.members) {
        RewriterClasses.UnitWithoutEntryUnchanged(RewriteContext(comp, root, entry, restoreClass), FirstTree(comp.trees, w.path).value);
      }
    }
  }

  /** A written file in which no class, at any nesting, is the entry class
      comes back exactly as it was read. */
  lemma RewriteKeepsOtherFiles(comp: Compilation, root: CallGraphNode, methods: seq<AnalyzedMethod>, entry: MethodId, existing: set<string>, restoreClass: bool)
    ensures var r := Rewrite(comp, root, methods, entry, existing, restoreClass);
            forall k :: 0 <= k < |r| && !RewriterClasses.AnyDeclaresEntry(RewriteContext(comp, root, entry, restoreClass), FirstTree(comp.trees, r[k].path).value.members) ==>
              r[k].unit == FirstTree(comp.trees, r[k].path).value
  {
    var r := Rewrite(comp, root, methods, entry, existing, restoreClass);
    forall k | 0 <= k < |r| && !RewriterClasses.AnyDeclaresEntry(RewriteContext(comp, root, entry, restoreClass), FirstTree(comp.trees, r[k].path).value.members)
      ensures r[k].unit == FirstTree(comp.trees, r[k].path).value
    {
      WriteKeepsOtherFile(comp, root, methods, entry, existing, restoreClass, k);
    }
  }
}

=== FILE: deep_hierarchy_rewriter.dfy ===
/** `CodeRewriter.DeepHierarchyRewriter`: the syntax visitor that instruments
    the entry class. The visitor's mutable fields are threaded explicitly as a
    `RewriterState`; every visit returns the rewritten node and the state after
    it, in document order. */
module DeepHierarchyRewriter {
  import opened Wrappers
  import opened Text
  import opened Seqs
  import opened ProgramModel
  import opened CallGraphModels
  import opened StopwatchRegistry
  import opened SyntaxModel
  import opened LogReport

  /** Nesting limit beyond which statements are left untouched. */
  const MaxDepth: nat := 50

  /** The visitor's mutable fields: `_currentClass`, `_currentMethod`,
      `_isInEntryPublic`, `_depth`, `_log`, `_loopFieldsToAdd` and
      `_loopFieldCounter`. */
  datatype RewriterState = RewriterState(
    currentClass: Option<ClassId>,
    currentMethod: Option<MethodId>,
    inEntryMethod: bool,
    depth: nat,
    log: seq<LogLine>,
    loopFields: seq<string>,
    loopCounter: nat)

  /** A freshly constructed rewriter. */
  const Initial := RewriterState(None, None, false, 0, [], [], 0)

  /** The visitor's read-only fields: the semantic model (here the program's
      symbol table), the stopwatch registry and the entry method.
      `restoreClass` selects the corrected class visit, which restores the
      current class after a nested class declaration; `false` is the visit
      as written, which leaves the nested class current. */
  datatype Context = Context(program: Program, stopwatches: Registry, entry: MethodId, restoreClass: bool)

  function EntryType(ctx: Context): Option<TypeInfo> {
    Info(ctx.program, ctx.entry).containingType
  }

  /** `IsInEntryClass`: the class being visited is the entry method's
      containing type. */
  predicate InEntryClass(ctx: Context, st: RewriterState): (r: bool)
    ensures st.currentClass.None? || EntryType(ctx).None? ==> !r
    ensures r ==> EntryClassName(EntryType(ctx)) == EntryType(ctx).value.display
  {
    st.currentClass.Some? && EntryType(ctx).Some? && st.currentClass.value == EntryType(ctx).value.id
  }

  /** The part of the state a statement visit leaves as it found it. */
  predicate SameFrame(a: RewriterState, b: RewriterState) {
    a.currentClass == b.currentClass && a.currentMethod == b.currentMethod
    && a.inEntryMethod == b.inEntryMethod && a.depth == b.depth
  }

  /** Calls that are never wrapped: a containing namespace that starts with
      `System` or `Microsoft`, or a containing type whose name contains
      `LogService` (ordinal comparisons, a missing name read as ""). */
  predicate Excluded(p: Program, t: MethodId): (r: bool)
    ensures Info(p, t).containingNamespace.None? && Info(p, t).containingType.None? ==> !r
  {
    var info := Info(p, t);
    var ns := match info.containingNamespace case Some(n) => n case None => "";
    var typeName := match info.containingType case Some(ty) => ty.name case None => "";
    StartsWith(ns, "System") || StartsWith(ns, "Microsoft") || Contains(typeName, "LogService")
  }

  /** Exclusion, read off the symbol: a namespace that starts with `System`
      or `Microsoft`, or a `LogService` occurring anywhere in the containing
      type's name. */
  lemma ExcludedIff(p: Program, t: MethodId)
    ensures Excluded(p, t) <==>
              (Info(p, t).containingNamespace.Some?
               && (StartsWith(Info(p, t).containingNamespace.value, "System")
                   || StartsWith(Info(p, t).containingNamespace.value, "Microsoft")))
              || (Info(p, t).containingType.Some?
                  && exists i :: OccursAt(Info(p, t).containingType.value.name, "LogService", i))
  {
    var typeName := match Info(p, t).containingType case Some(ty) => ty.name case None => "";
    assert Contains(typeName, "LogService") <==> exists i :: OccursAt(typeName, "LogService", i);
  }

  /** The registry lookup for a call target: by its original definition
      first, then by the symbol itself. */
  function FindStopwatch(ctx: Context, t: MethodId): (r: Option<StopwatchInfo>)
    ensures r.Some? <==> Info(ctx.program, t).originalDefinition in Keys(ctx.stopwatches) || t in Keys(ctx.stopwatches)
    ensures r.Some? ==> exists i :: 0 <= i < |ctx.stopwatches| && ctx.stopwatches[i].info == r.value
                                   && ctx.stopwatches[i].symbol in {Info(ctx.program, t).originalDefinition, t}
    ensures Info(ctx.program, t).originalDefinition in Keys(ctx.stopwatches) ==>
              exists i :: 0 <= i < |ctx.stopwatches| && ctx.stopwatches[i].symbol == Info(ctx.program, t).originalDefinition
                          && ctx.stopwatches[i].info == r.value
    ensures Info(ctx.program, t).originalDefinition !in Keys(ctx.stopwatches) && t in Keys(ctx.stopwatches) ==>
              exists i :: 0 <= i < |ctx.stopwatches| && ctx.stopwatches[i].symbol == t && ctx.stopwatches[i].info == r.value
  {
    match Lookup(ctx.stopwatches, Info(ctx.program, t).originalDefinition)
    case Some(sw) => Some(sw)
    case None => Lookup(ctx.stopwatches, t)
  }

  /** `$"swLoop{n}"`. */
  function LoopFieldName(n: nat): string {
    "swLoop" + DecimalString(n)
  }

  /** A loop field name is a C# identifier: `swLoop`, then the counter's
      digits, letters and digits only. */
  lemma LoopFieldNameIsIdentifier(n: nat)
    ensures |LoopFieldName(n)| > 6 && LoopFieldName(n)[..6] == "swLoop" && IsDigit(LoopFieldName(n)[6])
    ensures forall i :: 0 <= i < |LoopFieldName(n)| ==> IsLetterOrDigit(LoopFieldName(n)[i])
  {
  }

  /** The probe an expression statement receives, if any: the called method's
      name and the stopwatch field qualified by the entry class. Only an
      invocation whose target resolves, is not excluded and has a registered
      stopwatch gets one. */
  function CallProbe(ctx: Context, e: Expr): (r: Option<(string, string)>)
    ensures r.Some? ==> e.Invocation? && ResolveTarget(e.info).Some?
                        && !Excluded(ctx.program, ResolveTarget(e.info).value)
    ensures r.Some? ==>
              exists i :: 0 <= i < |ctx.stopwatches| &&
                r.value == (Info(ctx.program, ResolveTarget(e.info).value).name,
                            EntryClassName(EntryType(ctx)) + "." + ctx.stopwatches[i].info.fieldName)
    ensures r.Some? ==>
              FindStopwatch(ctx, ResolveTarget(e.info).value).Some?
              && r.value.1 == EntryClassName(EntryType(ctx)) + "." + FindStopwatch(ctx, ResolveTarget(e.info).value).value.fieldName
    ensures (e.Invocation? && ResolveTarget(e.info).Some? && !Excluded(ctx.program, ResolveTarget(e.info).value)
             && FindStopwatch(ctx, ResolveTarget(e.info).value).Some?) ==> r.Some?
  {
    match e
    case OtherExpression(_) => None
    case Invocation(info, _) =>
      match ResolveTarget(info)
      case None => None
      case Some(t) =>
        if Excluded(ctx.program, t) then None
        else
          match FindStopwatch(ctx, t)
          case None => None
          case Some(sw) => Some((Info(ctx.program, t).name, EntryClassName(EntryType(ctx)) + "." + sw.fieldName))
  }

  /** `VisitExpressionStatement`, `RewriteLoop` and the default visit of the
      other statements. Outside the entry class, and at or beyond the depth
      limit, a statement and the state are returned as they are; a visit
      always restores the depth it started at. */
  function VisitStatement(ctx: Context, s: Stmt, st: RewriterState): (r: (Stmt, RewriterState))
    decreases s, 1
    ensures SameFrame(st, r.1)
    ensures !InEntryClass(ctx, st) ==> r == (s, st)
    ensures st.depth >= MaxDepth ==> r == (s, st)
  {
    match s
    case ExpressionStatement(e) =>
      if !InEntryClass(ctx, st) then (s, st)
      else if st.depth >= MaxDepth then (s, st)
      else
        (match CallProbe(ctx, e)
         case None => (s, st)
         case Some((name, q)) =>
           var log := if st.inEntryMethod then st.log + [MethodLine(st.depth + 1, name, q)] else st.log;
           (Block([StartStopwatch(q), s, StopStopwatch(q)]), st.(log := log)))
    case Loop(kind, header, body) => RewriteLoop(ctx, kind, header, body, st)
    case Block(ss) =>
      var (ss', st') := VisitStatements(ctx, ss, st);
      (Block(ss'), st')
    case Compound(header, parts) =>
      var (ps', st') := VisitStatements(ctx, parts, st);
      (Compound(header, ps'), st')
    case _ => (s, st)
  }

  /** A probed call inside the entry class is wrapped between the start and
      the stop of its stopwatch; in the entry method it adds one report line
      a level below the current depth, and nothing else in the state changes. */
  lemma VisitWrapsCall(ctx: Context, e: Expr, st: RewriterState)
    requires InEntryClass(ctx, st) && st.depth < MaxDepth && CallProbe(ctx, e).Some?
    ensures var (name, q) := CallProbe(ctx, e).value;
            var r := VisitStatement(ctx, ExpressionStatement(e), st);
            && r.0 == Block([StartStopwatch(q), ExpressionStatement(e), StopStopwatch(q)])
            && r.1.loopCounter == st.loopCounter && r.1.loopFields == st.loopFields
            && r.1.log == st.log + (if st.inEntryMethod then [MethodLine(st.depth + 1, name, q)] else [])
  {
  }

  /** Any other expression statement is left as it is. */
  lemma VisitSkipsCall(ctx: Context, e: Expr, st: RewriterState)
    requires st.depth >= MaxDepth || CallProbe(ctx, e).None?
    ensures VisitStatement(ctx, ExpressionStatement(e), st) == (ExpressionStatement(e), st)
  {
  }

  /** Inside the entry class and below the depth limit, a loop's body is
      visited in the entered state and comes back timed by the new loop's
      stopwatch; the depth is restored afterwards. */
  lemma RewriteLoopVisitsBody(ctx: Context, kind: LoopKind, header: seq<SymbolInfo>, body: Stmt, st: RewriterState)
    requires InEntryClass(ctx, st) && st.depth < MaxDepth
    ensures var (body', st2) := VisitStatement(ctx, body, EnterLoop(st));
            RewriteLoop(ctx, kind, header, body, st)
              == (Loop(kind, header, TimedBody(LoopFieldName(st.loopCounter + 1), body')), st2.(depth := st.depth))
  {
  }

  /** `RewriteLoop`: numbers the loop, records its field (and, in the entry
      method, its report line one level below the current depth), visits the
      body one level deeper, and puts Start/Stop of the loop's stopwatch first
      and last inside the body. A body that is (or became) a block is reused;
      any other body is wrapped in a block first. */
  function RewriteLoop(ctx: Context, kind: LoopKind, header: seq<SymbolInfo>, body: Stmt, st: RewriterState): (r: (Stmt, RewriterState))
    decreases body, 2
    ensures SameFrame(st, r.1)
    ensures !InEntryClass(ctx, st) || st.depth >= MaxDepth ==> r == (Loop(kind, header, body), st)
    ensures InEntryClass(ctx, st) && st.depth < MaxDepth ==>
              r.0.Loop? && r.0.kind == kind && r.0.header == header && r.0.body.Block?
              && |r.0.body.stmts| >= 2
              && r.0.body.stmts[0] == StartStopwatch(LoopFieldName(st.loopCounter + 1))
              && r.0.body.stmts[|r.0.body.stmts| - 1] == StopStopwatch(LoopFieldName(st.loopCounter + 1))
  {
    if !InEntryClass(ctx, st) then (Loop(kind, header, body), st)
    else if st.depth >= MaxDepth then (Loop(kind, header, body), st)
    else
      var st1 := EnterLoop(st);
      var (body', st2) := VisitStatement(ctx, body, st1);
      (Loop(kind, header, TimedBody(LoopFieldName(st1.loopCounter), body')), st2.(depth := st2.depth - 1))
  }

  /** The state a loop body is visited in: the next loop number, its field
      recorded, its report line recorded when in the entry method, and one
      level deeper. */
  function EnterLoop(st: RewriterState): (r: RewriterState)
    ensures r.loopCounter == st.loopCounter + 1 && r.depth == st.depth + 1
  {
    var name := LoopFieldName(st.loopCounter + 1);
    st.(loopCounter := st.loopCounter + 1,
        loopFields := st.loopFields + [name],
        log := if st.inEntryMethod then st.log + [LoopLine(st.depth + 1, name)] else st.log,
        depth := st.depth + 1)
  }

  /** The visited loop body as a block with the loop's stopwatch started
      first and stopped last; a body that is not a block becomes the block's
      only statement. */
  function TimedBody(name: string, body: Stmt): (r: Stmt)
    ensures r.Block? && |r.stmts| >= 2
    ensures r.stmts[0] == StartStopwatch(name) && r.stmts[|r.stmts| - 1] == StopStopwatch(name)
  {
    var inner := if body.Block? then body.stmts else [body];
    Block([StartStopwatch(name)] + inner + [StopStopwatch(name)])
  }

  function VisitStatements(ctx: Context, ss: seq<Stmt>, st: RewriterState): (r: (seq<Stmt>, RewriterState))
    decreases ss, 0
    ensures SameFrame(st, r.1)
    ensures !InEntryClass(ctx, st) ==> r == (ss, st)
    ensures st.depth >= MaxDepth ==> r == (ss, st)
  {
    if ss == [] then ([], st)
    else
      var (s', st1) := VisitStatement(ctx, ss[0], st);
      var (rest', st2) := VisitStatements(ctx, ss[1..], st1);
      assert ss == [ss[0]] + ss[1..];
      ([s'] + rest', st2)
  }

  /** `VisitMethodDeclaration` and the default visit of the other members.
      A method of the entry class starts a fresh report at depth zero, and
      only the entry method gets the report statements appended to its body.
      A method without a block body is returned unchanged, but the state it
      set up stays. */
  function VisitMember(ctx: Context, m: Member, st: RewriterState): (r: (Member, RewriterState))
    decreases m
    ensures m.MethodMember? ==> r.0.MethodMember? && r.0.symbol == m.symbol && r.0.identifier == m.identifier
                                && r.0.body.Some? == m.body.Some?
    ensures m.DataMember? || m.StopwatchField? ==> r == (m, st)
  {
    match m
    case MethodMember(sym, id, body) =>
      var st1 := st.(currentMethod := sym);
      if !InEntryClass(ctx, st1) then
        (match body
         case None => (m, st1)
         case Some(b) =>
           var (b', st2) := VisitStatements(ctx, b, st1);
           (MethodMember(sym, id, Some(b')), st2))
      else
        var st2 := st1.(inEntryMethod := sym == Some(ctx.entry), depth := 0, log := []);
        (match body
         case None => (m, st2)
         case Some(b) =>
           var (b', st3) := VisitStatements(ctx, b, st2);
           var b'' := if st3.inEntryMethod then b' + BuildLogStatements(id, st3.log) else b';
           (MethodMember(sym, id, Some(b'')), st3))
    case CodeMember(stmts) =>
      var (ss', st1) := VisitStatements(ctx, stmts, st);
      (CodeMember(ss'), st1)
    case NestedClass(c) =>
      var (c', st1) := VisitClass(ctx, c, st);
      (NestedClass(c'), if ctx.restoreClass then st1.(currentClass := st.currentClass) else st1)
    case OtherType(ms) =>
      var (ms', st1) := VisitMembers(ctx, ms, st);
      (OtherType(ms'), st1)
    case _ => (m, st)
  }

  function VisitMembers(ctx: Context, ms: seq<Member>, st: RewriterState): (r: (seq<Member>, RewriterState))
    decreases ms
    ensures |r.0| == |ms|
  {
    if ms == [] then ([], st)
    else
      var (m', st1) := VisitMember(ctx, ms[0], st);
      var (rest', st2) := VisitMembers(ctx, ms[1..], st1);
      ([m'] + rest', st2)
  }

  /** The field names of the method stopwatches, in registry order. */
  function MethodFieldNames(reg: Registry): (r: seq<string>)
    ensures |r| == |reg|
    ensures forall i :: 0 <= i < |reg| ==> r[i] == reg[i].info.fieldName
  {
    if reg == [] then [] else [reg[0].info.fieldName] + MethodFieldNames(reg[1..])
  }

  /** One generated stopwatch field declaration per name. */
  function StopwatchFields(names: seq<string>): (r: seq<Member>)
    ensures |r| == |names|
    ensures forall i :: 0 <= i < |names| ==> r[i] == StopwatchField(names[i])
  {
    if names == [] then [] else [StopwatchField(names[0])] + StopwatchFields(names[1..])
  }

  /** `VisitClassDeclaration`: makes the class current; a class other than
      the entry class gets the default visit, while the entry class has its
      members visited first and then receives, at the top, one field per
      registered method stopwatch followed by one per distinct loop
      stopwatch recorded so far. */
  function VisitClass(ctx: Context, c: ClassDecl, st: RewriterState): (r: (ClassDecl, RewriterState))
    decreases c
    ensures r.0.symbol == c.symbol
  {
    var st1 := st.(currentClass := c.symbol);
    if !InEntryClass(ctx, st1) then
      var (ms, st2) := VisitMembers(ctx, c.members, st1);
      (ClassDecl(c.symbol, ms), st2)
    else
      var (ms, st2) := VisitMembers(ctx, c.members, st1);
      var fields := StopwatchFields(MethodFieldNames(ctx.stopwatches)) + StopwatchFields(Dedup(st2.loopFields));
      (ClassDecl(c.symbol, fields + ms), st2)
  }

  /** `DeepHierarchyRewriter.Visit(root)` on one syntax tree with a fresh
      rewriter. */
  function VisitUnit(ctx: Context, u: CompilationUnit): (r: CompilationUnit)
    ensures |r.members| == |u.members|
  {
    CompilationUnit(VisitMembers(ctx, u.members, Initial).0)
  }
}

=== FILE: log_report.dfy ===
/** `BuildLogStatements` and `LogLine` of the rewriter: the hierarchical report
    appended to the entry method. Indentation is `"| "` repeated once per depth
    level, and the depth can be read back from the repetition count. */
module LogReport {
  import opened Wrappers
  import opened Text
  import opened SyntaxModel

  /** A recorded report line: a wrapped call (its method name and qualified
      stopwatch) or a loop (its stopwatch), at a depth of at least one. */
  datatype LogLine =
    | MethodLine(depth: nat, methodName: string, stopwatch: string)
    | LoopLine(depth: nat, stopwatch: string)

  const Bar := "| "

  /** `string.Concat(Enumerable.Repeat("| ", depth))`. */
  function Bars(depth: nat): string {
    Repeat(Bar, depth)
  }

  /** The statements one recorded line renders to: a loop line becomes one
      `AppendLine`, a method line two (elapsed time, then its header). */
  function RenderLine(l: LogLine): seq<Stmt> {
    match l
    case LoopLine(d, sw) => [AppendLog(LoopElapsed(Bars(d), sw))]
    case MethodLine(d, m, sw) => [AppendLog(MethodElapsed(Bars(d), m, sw)), AppendLog(MethodHeader(Bars(d), m))]
  }

  function RenderLines(log: seq<LogLine>): seq<Stmt> {
    if log == [] then [] else RenderLine(log[0]) + RenderLines(log[1..])
  }

  /** Statements per recorded line: two for a method, one for a loop. */
  function Weight(log: seq<LogLine>): nat {
    if log == [] then 0 else (if log[0].MethodLine? then 2 else 1) + Weight(log[1..])
  }

  /** `BuildLogStatements(entryMethodName)`: the builder declaration, the
      entry header, then each recorded line in order. Every statement is a
      generated one. */
  function BuildLogStatements(entryMethodName: string, log: seq<LogLine>): (r: seq<Stmt>)
    ensures |r| == 2 + Weight(log)
    ensures r[0] == DeclareLogBuilder && r[1] == AppendLog(EntryHeader(entryMethodName))
    ensures forall k :: 0 <= k < |r| ==> IsGenerated(r[k])
  {
    RenderLinesShape(log);
    [DeclareLogBuilder, AppendLog(EntryHeader(entryMethodName))] + RenderLines(log)
  }

  lemma {:induction false} RenderLinesShape(log: seq<LogLine>)
    ensures |RenderLines(log)| == Weight(log)
    ensures forall k :: 0 <= k < |RenderLines(log)| ==> IsGenerated(RenderLines(log)[k])
  {
    if log != [] {
      RenderLinesShape(log[1..]);
    }
  }

  /** Reads an indentation prefix back: the number of `"| "` it repeats, or
      `None` if it is anything else. */
  function BarDepth(s: string): Option<nat>
    decreases |s|
  {
    if s == [] then Some(0)
    else if |s| >= 2 && s[..2] == Bar then
      match BarDepth(s[2..])
      case Some(d) => Some(d + 1)
      case None => None
    else None
  }

  lemma {:induction false} BarDepthOfBars(d: nat)
    ensures BarDepth(Bars(d)) == Some(d)
  {
    if d > 0 {
      BarDepthOfBars(d - 1);
      assert Bars(d)[..2] == Bar && Bars(d)[2..] == Bars(d - 1);
    }
  }

  /** The inverse of `RenderLines`. */
  function ParseLines(stmts: seq<Stmt>): Option<seq<LogLine>>
    decreases |stmts|
  {
    if stmts == [] then Some([])
    else
      match stmts[0]
      case AppendLog(LoopElapsed(bars, sw)) =>
        (match (BarDepth(bars), ParseLines(stmts[1..]))
         case (Some(d), Some(rest)) => Some([LoopLine(d, sw)] + rest)
         case _ => None)
      case AppendLog(MethodElapsed(bars, m, sw)) =>
        if |stmts| >= 2 && stmts[1] == AppendLog(MethodHeader(bars, m)) then
          match (BarDepth(bars), ParseLines(stmts[2..]))
          case (Some(d), Some(rest)) => Some([MethodLine(d, m, sw)] + rest)
          case _ => None
        else None
      case _ => None
  }

  /** The inverse of `BuildLogStatements`: the entry method name and the lines. */
  function ParseLog(stmts: seq<Stmt>): Option<(string, seq<LogLine>)> {
    if |stmts| >= 2 && stmts[0] == DeclareLogBuilder && stmts[1].AppendLog? && stmts[1].text.EntryHeader? then
      match ParseLines(stmts[2..])
      case Some(lines) => Some((stmts[1].text.methodName, lines))
      case None => None
    else None
  }

  /** One rendered line in front of statements that parse reads back as that
      line in front of what they parse to. */
  lemma ParseRenderedLine(l: LogLine, tail: seq<Stmt>, rest: seq<LogLine>)
    requires ParseLines(tail) == Some(rest)
    ensures ParseLines(RenderLine(l) + tail) == Some([l] + rest)
  {
    BarDepthOfBars(l.depth);
    var r := RenderLine(l) + tail;
    match l
    case LoopLine(d, sw) =>
      assert r[0] == AppendLog(LoopElapsed(Bars(d), sw));
      assert r[1..] == tail;
    case MethodLine(d, m, sw) =>
      assert r[0] == AppendLog(MethodElapsed(Bars(d), m, sw));
      assert r[1] == AppendLog(MethodHeader(Bars(d), m));
      assert r[2..] == tail;
  }

  lemma {:induction false} ParseRenderLines(log: seq<LogLine>)
    ensures ParseLines(RenderLines(log)) == Some(log)
  {
    if log != [] {
      ParseRenderLines(log[1..]);
      ParseRenderedLine(log[0], RenderLines(log[1..]), log[1..]);
      assert log == [log[0]] + log[1..];
    }
  }

  /** The report is lossless: the entry method name and every recorded line,
      depth included, can be recovered from the appended statements. */
  lemma LogRoundTrip(entryMethodName: string, log: seq<LogLine>)
    ensures ParseLog(BuildLogStatements(entryMethodName, log)) == Some((entryMethodName, log))
  {
    var r := BuildLogStatements(entryMethodName, log);
    assert r[2..] == RenderLines(log);
    ParseRenderLines(log);
  }

  /** The printed prefix of an appended line, up to the elapsed-time text. */
  function LineText(t: LogText): string {
    match t
    case EntryHeader(m) => "[Dentro do método: " + m + "]"
    case MethodElapsed(bars, m, _) => bars + "[Metodo: " + m + "]"
    case MethodHeader(bars, m) => bars + "[Dentro do método: " + m + "]"
    case LoopElapsed(bars, sw) => bars + "[Loop: " + sw + "]"
  }

  /** How a reader of the printed report finds a line's depth: the number of
      leading `"| "`. */
  function LeadingBars(s: string): nat
    decreases |s|
  {
    if |s| >= 2 && s[..2] == Bar then 1 + LeadingBars(s[2..]) else 0
  }

  lemma {:induction false} LeadingBarsOf(d: nat, rest: string)
    requires |rest| > 0 && rest[0] == '['
    ensures LeadingBars(Bars(d) + rest) == d
  {
    if d > 0 {
      LeadingBarsOf(d - 1, rest);
      assert (Bars(d) + rest)[2..] == Bars(d - 1) + rest;
    } else {
      assert (Bars(d) + rest)[0] == '[';
    }
  }

  lemma LoopElapsedDepth(d: nat, sw: string)
    ensures LeadingBars(LineText(LoopElapsed(Bars(d), sw))) == d
  {
    var rest := "[Loop: " + sw + "]";
    assert rest[0] == '[';
    assert LineText(LoopElapsed(Bars(d), sw)) == Bars(d) + rest;
    LeadingBarsOf(d, rest);
  }

  lemma MethodElapsedDepth(d: nat, m: string, sw: string)
    ensures LeadingBars(LineText(MethodElapsed(Bars(d), m, sw))) == d
  {
    var rest := "[Metodo: " + m + "]";
    assert rest[0] == '[';
    assert LineText(MethodElapsed(Bars(d), m, sw)) == Bars(d) + rest;
    LeadingBarsOf(d, rest);
  }

  lemma MethodHeaderDepth(d: nat, m: string)
    ensures LeadingBars(LineText(MethodHeader(Bars(d), m))) == d
  {
    var rest := "[Dentro do método: " + m + "]";
    assert rest[0] == '[';
    assert LineText(MethodHeader(Bars(d), m)) == Bars(d) + rest;
    LeadingBarsOf(d, rest);
  }

  /** Every printed report line of a recorded line carries exactly its depth
      as leading bars. */
  lemma PrintedDepth(l: LogLine)
    ensures forall k :: 0 <= k < |RenderLine(l)| ==> RenderLine(l)[k].AppendLog? && LeadingBars(LineText(RenderLine(l)[k].text)) == l.depth
  {
    match l
    case LoopLine(d, sw) =>
      LoopElapsedDepth(d, sw);
    case MethodLine(d, m, sw) =>
      MethodElapsedDepth(d, m, sw);
      MethodHeaderDepth(d, m);
  }
}

=== FILE: nested_class_finding.dfy ===
/** A nested class declared before the entry method hides the entry method
    from the rewriter: `VisitClassDeclaration` sets the current class and
    never restores it, so after a nested class the rest of the entry class is
    treated as if it were outside. The visit with `restoreClass` restores the
    enclosing class after each nested class; with it every entry method of
    the entry class is instrumented and gets its report. */
module NestedClassFinding {
  import opened Wrappers
  import opened Text
  import opened Seqs
  import opened ProgramModel
  import opened CallGraphModels
  import opened StopwatchRegistry
  import opened SyntaxModel
  import opened LogReport
  import opened DeepHierarchyRewriter
  import opened RewriterSites
  import opened RewriterClasses

  /** As written: after a nested class that is not (and does not contain)
      the entry class, the visitor is no longer in the entry class. */
  lemma NestedClassLeavesEntryClass(ctx: Context, d: ClassDecl, st: RewriterState)
    requires !ctx.restoreClass && !IsEntryClassSymbol(ctx, d.symbol) && !AnyDeclaresEntry(ctx, d.members)
    ensures !InEntryClass(ctx, VisitMember(ctx, NestedClass(d), st).1)
  {
    MembersWithoutEntryUnchanged(ctx, d.members, st.(currentClass := d.symbol));
  }

  // A concrete input: class Service { class Helper { } void Run() { Step(); } }
  // where Run is the entry method and Step is in the call tree.
  const ServiceType := TypeInfo(ClassId(1), "Service", "Service")
  const RunId := MethodId(1)
  const StepId := MethodId(2)
  const Sample := Program(map[
    RunId := MethodInfo("Run", Some(ServiceType), Some("App"), OwnAssembly, RunId, MethodDeclaration([])),
    StepId := MethodInfo("Step", Some(ServiceType), Some("App"), OwnAssembly, StepId, MethodDeclaration([]))])
  const SampleRegistry: Registry := [
    RegistryEntry(RunId, StopwatchInfo("Service", "sw1_Run")),
    RegistryEntry(StepId, StopwatchInfo("Service", "sw2_Step"))]
  const CallStep := ExpressionStatement(Invocation(SymbolInfo(Some(MethodSym(StepId)), []), []))
  const ServiceClass := ClassDecl(Some(ClassId(1)), [
    NestedClass(ClassDecl(Some(ClassId(2)), [])),
    MethodMember(Some(RunId), "Run", Some([CallStep]))])

  /** The probe name of `Step`: the entry class, a dot, the field. */
  const SampleQualified := "Service" + "." + "sw2_Step"

  lemma StepNotExcluded()
    ensures !Excluded(Sample, StepId)
  {
    assert Info(Sample, StepId) == Sample.methods[StepId];
    assert !StartsWith("App", "System") && !StartsWith("App", "Microsoft");
    assert !Contains("Service"[6..], "LogService");
    assert !Contains("Service", "LogService");
  }

  lemma StepStopwatch(restore: bool)
    ensures FindStopwatch(Context(Sample, SampleRegistry, RunId, restore), StepId) == Some(StopwatchInfo("Service", "sw2_Step"))
  {
    assert Info(Sample, StepId) == Sample.methods[StepId];
    assert Lookup(SampleRegistry, StepId) == Some(StopwatchInfo("Service", "sw2_Step"));
  }

  lemma SampleProbe(restore: bool)
    ensures CallProbe(Context(Sample, SampleRegistry, RunId, restore), CallStep.expr) == Some(("Step", SampleQualified))
  {
    var ctx := Context(Sample, SampleRegistry, RunId, restore);
    assert Info(Sample, StepId) == Sample.methods[StepId];
    assert Info(Sample, RunId) == Sample.methods[RunId];
    assert ResolveTarget(CallStep.expr.info) == Some(StepId);
    assert EntryClassName(EntryType(ctx)) == "Service";
    StepNotExcluded();
    StepStopwatch(restore);
  }

  /** As written, the entry method `Run` comes out of the visit unchanged:
      its call is not wrapped and it gets no report. */
  lemma AsWrittenSkipsEntryMethod()
    ensures VisitClass(Context(Sample, SampleRegistry, RunId, false), ServiceClass, Initial).0.members[3]
            == ServiceClass.members[1]
  {
    var ctx := Context(Sample, SampleRegistry, RunId, false);
    assert Info(Sample, RunId) == Sample.methods[RunId];
    var st1 := Initial.(currentClass := Some(ClassId(1)));
    assert InEntryClass(ctx, st1);
    var (m0, st2) := VisitMember(ctx, ServiceClass.members[0], st1);
    NestedClassLeavesEntryClass(ctx, ClassDecl(Some(ClassId(2)), []), st1);
    MembersWithoutEntryUnchanged(ctx, [], st1.(currentClass := Some(ClassId(2))));
    assert !InEntryClass(ctx, st2) && st2.loopFields == [];
    var (rest, st3) := VisitMembers(ctx, ServiceClass.members[1..], st2);
    assert ServiceClass.members[1..] == [ServiceClass.members[1]];
    assert [ServiceClass.members[1]][1..] == [];
    MembersWithoutEntryUnchanged(ctx, ServiceClass.members[1..], st2);
    assert rest == [ServiceClass.members[1]] && st3.loopFields == [];
    assert VisitMembers(ctx, ServiceClass.members, st1) == ([m0] + rest, st3);
    assert Dedup(st3.loopFields) == [];
    var fields := StopwatchFields(MethodFieldNames(SampleRegistry)) + StopwatchFields(Dedup(st3.loopFields));
    assert |fields| == 2;
    assert VisitClass(ctx, ServiceClass, Initial).0.members == fields + ([m0] + rest);
  }

  const WrappedStep := Block([StartStopwatch(SampleQualified), CallStep, StopStopwatch(SampleQualified)])
  const InstrumentedRun := MethodMember(Some(RunId), "Run", Some(
    [WrappedStep] + BuildLogStatements("Run", [MethodLine(1, "Step", SampleQualified)])))

  lemma VisitOneStatement(ctx: Context, s: Stmt, st: RewriterState)
    ensures VisitStatements(ctx, [s], st) == ([VisitStatement(ctx, s, st).0], VisitStatement(ctx, s, st).1)
  {
    assert [s][0] == s && [s][1..] == [];
    var (s', st1) := VisitStatement(ctx, s, st);
    assert VisitStatements(ctx, [], st1) == ([], st1);
    assert [s'] + [] == [s'];
  }

  lemma VisitMembersCons(ctx: Context, m: Member, rest: seq<Member>, st: RewriterState)
    ensures var (m', st1) := VisitMember(ctx, m, st);
            VisitMembers(ctx, [m] + rest, st) == ([m'] + VisitMembers(ctx, rest, st1).0, VisitMembers(ctx, rest, st1).1)
  {
    assert ([m] + rest)[0] == m && ([m] + rest)[1..] == rest;
  }

  lemma SampleCallVisit(st: RewriterState)
    requires InEntryClass(Context(Sample, SampleRegistry, RunId, true), st)
    requires st.depth == 0 && st.inEntryMethod && st.log == []
    ensures VisitStatements(Context(Sample, SampleRegistry, RunId, true), [CallStep], st)
            == ([WrappedStep], st.(log := [MethodLine(1, "Step", SampleQualified)]))
  {
    var ctx := Context(Sample, SampleRegistry, RunId, true);
    SampleProbe(true);
    VisitWrapsCall(ctx, CallStep.expr, st);
    var r := VisitStatement(ctx, CallStep, st);
    assert r.0 == WrappedStep;
    assert r.1 == st.(log := [MethodLine(1, "Step", SampleQualified)]);
    VisitOneStatement(ctx, CallStep, st);
  }

  lemma SampleRunVisit(st: RewriterState)
    requires InEntryClass(Context(Sample, SampleRegistry, RunId, true), st)
    ensures var r := VisitMember(Context(Sample, SampleRegistry, RunId, true), ServiceClass.members[1], st);
            r.0 == InstrumentedRun && r.1.loopFields == st.loopFields
  {
    var st3 := st.(currentMethod := Some(RunId), inEntryMethod := true, depth := 0, log := []);
    SampleCallVisit(st3);
  }

  /** With the enclosing class restored, `Run` has its call wrapped and ends
      with its report. */
  lemma CorrectedInstrumentsEntryMethod()
    ensures VisitClass(Context(Sample, SampleRegistry, RunId, true), ServiceClass, Initial).0.members[3]
            == InstrumentedRun
  {
    var ctx := Context(Sample, SampleRegistry, RunId, true);
    assert Info(Sample, RunId) == Sample.methods[RunId];
    var st1 := Initial.(currentClass := Some(ClassId(1)));
    assert InEntryClass(ctx, st1);
    var (m0, st2) := VisitMember(ctx, ServiceClass.members[0], st1);
    MembersWithoutEntryUnchanged(ctx, [], st1.(currentClass := Some(ClassId(2))));
    assert st2 == st1;
    var (run, st4) := VisitMember(ctx, ServiceClass.members[1], st2);
    SampleRunVisit(st2);
    VisitMembersCons(ctx, ServiceClass.members[1], [], st2);
    assert VisitMembers(ctx, [], st4) == ([], st4);
    assert [ServiceClass.members[1]] + [] == [ServiceClass.members[1]] && [run] + [] == [run];
    assert VisitMembers(ctx, [ServiceClass.members[1]], st2) == ([run], st4);
    assert ServiceClass.members == [ServiceClass.members[0]] + [ServiceClass.members[1]];
    VisitMembersCons(ctx, ServiceClass.members[0], [ServiceClass.members[1]], st1);
    assert VisitMembers(ctx, ServiceClass.members, st1) == ([m0] + [run], st4);
    assert Dedup(st4.loopFields) == [];
    var fields := StopwatchFields(MethodFieldNames(SampleRegistry)) + StopwatchFields(Dedup(st4.loopFields));
    assert |fields| == 2;
    assert VisitClass(ctx, ServiceClass, Initial).0.members == fields + [m0, run];
  }

  /** With `restoreClass`, a member visit leaves the current class as it
      found it. */
  lemma {:induction false} MemberKeepsClass(ctx: Context, m: Member, st: RewriterState)
    requires ctx.restoreClass
    ensures VisitMember(ctx, m, st).1.currentClass == st.currentClass
    decreases m
  {
    match m
    case OtherType(ms) =>
      MembersKeepClass(ctx, ms, st);
    case _ =>
  }

  lemma {:induction false} MembersKeepClass(ctx: Context, ms: seq<Member>, st: RewriterState)
    requires ctx.restoreClass
    ensures VisitMembers(ctx, ms, st).1.currentClass == st.currentClass
    decreases ms
  {
    if ms != [] {
      MemberKeepsClass(ctx, ms[0], st);
      MembersKeepClass(ctx, ms[1..], VisitMember(ctx, ms[0], st).1);
    }
  }

  /** The `k`-th visited member is the visit of the `k`-th member in the
      state the members before it leave. */
  lemma {:induction false} VisitMembersAt(ctx: Context, ms: seq<Member>, st: RewriterState, k: nat)
    requires k < |ms|
    ensures VisitMembers(ctx, ms, st).0[k] == VisitMember(ctx, ms[k], VisitMembers(ctx, ms[..k], st).1).0
    decreases k
  {
    var (m', st1) := VisitMember(ctx, ms[0], st);
    if k > 0 {
      VisitMembersAt(ctx, ms[1..], st1, k - 1);
      assert ms[..k][1..] == ms[1..][..k - 1];
      assert ms[..k][0] == ms[0];
    } else {
      assert ms[..0] == [];
    }
  }

  predicate EndsWith(body: seq<Stmt>, report: seq<Stmt>) {
    |report| <= |body| && body[|body| - |report|..] == report
  }

  /** The entry class's members come back behind the generated fields. */
  lemma EntryClassLayout(ctx: Context, c: ClassDecl, st: RewriterState)
    requires IsEntryClassSymbol(ctx, c.symbol)
    ensures var (visited, st2) := VisitMembers(ctx, c.members, st.(currentClass := c.symbol));
            VisitClass(ctx, c, st).0.members
              == StopwatchFields(MethodFieldNames(ctx.stopwatches)) + StopwatchFields(Dedup(st2.loopFields)) + visited
  {
  }

  /** With `restoreClass`, the entry method among the entry class's members
      ends with its report, loops numbered on from the members before it. */
  lemma EntryMemberReport(ctx: Context, ms: seq<Member>, st: RewriterState, k: nat)
    requires ctx.restoreClass && InEntryClass(ctx, st)
    requires k < |ms| && ms[k].MethodMember? && ms[k].symbol == Some(ctx.entry) && ms[k].body.Some?
    ensures var v := VisitMembers(ctx, ms, st).0[k];
            v.MethodMember? && v.body.Some?
            && EndsWith(v.body.value, BuildLogStatements(ms[k].identifier,
                 SiteLog(SitesOf(ctx, ms[k].body.value, 0), VisitMembers(ctx, ms[..k], st).1.loopCounter)))
  {
    VisitMembersAt(ctx, ms, st, k);
    var stk := VisitMembers(ctx, ms[..k], st).1;
    MembersKeepClass(ctx, ms[..k], st);
    var m := ms[k];
    assert m == MethodMember(Some(ctx.entry), m.identifier, Some(m.body.value));
    EntryMethodReport(ctx, m.identifier, m.body.value, stk);
  }

  /** Corrected: every entry method of the entry class, wherever it stands
      among nested classes, ends with the report of its instrumentation
      sites. */
  lemma CorrectedReportsEntryMethod(ctx: Context, c: ClassDecl, st: RewriterState, k: nat)
    requires ctx.restoreClass && IsEntryClassSymbol(ctx, c.symbol)
    requires k < |c.members| && c.members[k].MethodMember? && c.members[k].symbol == Some(ctx.entry)
    requires c.members[k].body.Some?
    ensures var ms := VisitClass(ctx, c, st).0.members;
            var n := |ms| - |c.members|;
            var m := c.members[k];
            0 <= n && ms[n + k].MethodMember? && ms[n + k].body.Some?
            && exists from: nat :: EndsWith(ms[n + k].body.value, BuildLogStatements(m.identifier, SiteLog(SitesOf(ctx, m.body.value, 0), from)))
  {
    var st1 := st.(currentClass := c.symbol);
    var (visited, st2) := VisitMembers(ctx, c.members, st1);
    var fields := StopwatchFields(MethodFieldNames(ctx.stopwatches)) + StopwatchFields(Dedup(st2.loopFields));
    EntryClassLayout(ctx, c, st);
    var ms := VisitClass(ctx, c, st).0.members;
    IndexAfter(fields, visited, k);
    var n := |fields|;
    EntryMemberReport(ctx, c.members, st1, k);
    var from := VisitMembers(ctx, c.members[..k], st1).1.loopCounter;
    assert EndsWith(ms[n + k].body.value, BuildLogStatements(c.members[k].identifier, SiteLog(SitesOf(ctx, c.members[k].body.value, 0), from)));
  }
}

=== FILE: process_service_scenario.dfy ===
/** A worked example of the rewriter on the body of `ProcessService.ProcessAll`
    from the repository's sample solution: three loops, calls to a registered
    method of the entry class, and calls that stay unwrapped because they are
    excluded or are not expression statements. */
module ProcessServiceScenario {
  import opened Wrappers
  import opened Text
  import opened ProgramModel
  import opened Seqs
  import opened CallGraphModels
  import opened CallGraphBuilder
  import opened StopwatchRegistry
  import opened SyntaxModel
  import opened LogReport
  import opened DeepHierarchyRewriter
  import CodeRewriter

  const ProcessAllId := MethodId(11)
  const ProcessItemId := MethodId(12)
  const LoadItemsId := MethodId(13)
  const WriteId := MethodId(14)
  const SleepId := MethodId(15)
  const CalculateValueId := MethodId(16)
  const ApplyTaxId := MethodId(17)
  const WriteLineId := MethodId(18)

  const ProcessServiceType := TypeInfo(ClassId(11), "ProcessService", "ProcessService")
  const DataServiceType := TypeInfo(ClassId(12), "DataService", "DataService")
  const LogServiceType := TypeInfo(ClassId(13), "LogService", "LogService")
  const ThreadType := TypeInfo(ClassId(14), "Thread", "Thread")
  const ConsoleType := TypeInfo(ClassId(15), "Console", "Console")

  const SampleNamespace := "ProjectExample.Services"

  function Call(m: MethodId): SymbolInfo {
    SymbolInfo(Some(MethodSym(m)), [])
  }

  /** The invocations of each sample method, in document order. */
  const ProcessAllCalls := [
    Call(WriteId), Call(SleepId), Call(LoadItemsId),
    Call(ProcessItemId), Call(SleepId),
    Call(ProcessItemId), Call(SleepId),
    Call(ProcessItemId), Call(SleepId),
    Call(WriteId)]
  const ProcessItemCalls := [Call(WriteId), Call(SleepId), Call(CalculateValueId), Call(WriteId)]
  const LoadItemsCalls := [Call(SleepId)]
  const CalculateValueCalls := [Call(SleepId), Call(ApplyTaxId)]
  const ApplyTaxCalls := [Call(SleepId)]
  const WriteCalls := [Call(WriteLineId)]

  /** A method declared in the sample project. */
  function Declared(name: string, ty: TypeInfo, m: MethodId, calls: seq<SymbolInfo>): MethodInfo {
    MethodInfo(name, Some(ty), Some(SampleNamespace), OwnAssembly, m, MethodDeclaration(calls))
  }

  /** A method of the framework, known only from metadata. */
  function Framework(name: string, ty: TypeInfo, ns: string, m: MethodId): MethodInfo {
    MethodInfo(name, Some(ty), Some(ns), ReferencedAssembly("System.Private.CoreLib"), m, NoDeclaringSyntax)
  }

  const ProcessAllInfo := Declared("ProcessAll", ProcessServiceType, ProcessAllId, ProcessAllCalls)
  const ProcessItemInfo := Declared("ProcessItem", ProcessServiceType, ProcessItemId, ProcessItemCalls)
  const LoadItemsInfo := Declared("LoadItems", DataServiceType, LoadItemsId, LoadItemsCalls)
  const CalculateValueInfo := Declared("CalculateValue", DataServiceType, CalculateValueId, CalculateValueCalls)
  const ApplyTaxInfo := Declared("ApplyTax", DataServiceType, ApplyTaxId, ApplyTaxCalls)
  const WriteInfo := Declared("Write", LogServiceType, WriteId, WriteCalls)
  const SleepInfo := Framework("Sleep", ThreadType, "System.Threading", SleepId)
  const WriteLineInfo := Framework("WriteLine", ConsoleType, "System", WriteLineId)

  /** `ProcessService`, `DataService` and `LogService` of the sample, with
      `Thread.Sleep` and `Console.WriteLine` from the framework. */
  const Sample := Program(map[
    ProcessAllId := ProcessAllInfo,
    ProcessItemId := ProcessItemInfo,
    LoadItemsId := LoadItemsInfo,
    CalculateValueId := CalculateValueInfo,
    ApplyTaxId := ApplyTaxInfo,
    WriteId := WriteInfo,
    SleepId := SleepInfo,
    WriteLineId := WriteLineInfo])

  /** `_logService.Write(...);` */
  const WriteCall := ExpressionStatement(Invocation(Call(WriteId), []))
  /** `Thread.Sleep(...);` */
  const SleepCall := ExpressionStatement(Invocation(Call(SleepId), []))
  /** `ProcessItem(...);` */
  const ItemCall := ExpressionStatement(Invocation(Call(ProcessItemId), []))
  /** `var items = _dataService.LoadItems();` */
  const ItemsDeclaration := Simple([Call(LoadItemsId)])
  /** `int index = 0;` */
  const IndexDeclaration := Simple([])
  /** `index++;` */
  const Increment := ExpressionStatement(OtherExpression([]))

  /** The bodies of the `for` and `foreach` loops, and of the `while` loop. */
  const ForBody := Block([ItemCall, SleepCall])
  const WhileBody := Block([ItemCall, Increment, SleepCall])

  /** The body of `ProcessAll`. */
  const ProcessAllBody := [
    WriteCall, SleepCall, ItemsDeclaration,
    Loop(ForLoop, [], ForBody),
    Loop(ForEachLoop, [], ForBody),
    IndexDeclaration,
    Loop(WhileLoop, [], WhileBody),
    WriteCall]

  /** A rewriter for the sample whose entry method is `ProcessAll`, with
      `ProcessItem` and `Write` registered. The registry built from the call
      tree of `ProcessAll` is one (`SampleRegistryContext`). */
  predicate SampleContext(ctx: Context) {
    ctx.program == Sample && ctx.entry == ProcessAllId
    && ProcessItemId in Keys(ctx.stopwatches) && WriteId in Keys(ctx.stopwatches)
  }

  /** The probe of `ProcessItem`: its stopwatch field qualified by the entry class. */
  function ItemProbe(ctx: Context): string
    requires SampleContext(ctx)
  {
    ProcessServiceType.display + "." + Lookup(ctx.stopwatches, ProcessItemId).value.fieldName
  }

  /** `ProcessItem(...)` wrapped between the start and stop of its stopwatch. */
  function WrappedItem(ctx: Context): Stmt
    requires SampleContext(ctx)
  {
    Block([StartStopwatch(ItemProbe(ctx)), ItemCall, StopStopwatch(ItemProbe(ctx))])
  }

  /** A string without the first character of `part` does not contain it. */
  lemma {:induction false} NotContainsHead(s: string, part: string)
    requires |part| > 0 && forall i :: 0 <= i < |s| ==> s[i] != part[0]
    ensures !Contains(s, part)
  {
    if |s| > 0 {
      assert !StartsWith(s, part) by {
        if |part| <= |s| {
          assert s[..|part|][0] == s[0];
        }
      }
      NotContainsHead(s[1..], part);
    }
  }

  /** `LogService.Write` is excluded by its type name. */
  lemma WriteExcluded()
    ensures Excluded(Sample, WriteId)
  {
    assert Info(Sample, WriteId).containingType == Some(LogServiceType);
    assert StartsWith("LogService", "LogService");
  }

  /** `Thread.Sleep` is excluded by its namespace. */
  lemma SleepExcluded()
    ensures Excluded(Sample, SleepId)
  {
    assert Info(Sample, SleepId).containingNamespace == Some("System.Threading");
    assert "System.Threading"[..|"System"|] == "System";
  }

  /** `ProcessItem` is neither in a framework namespace nor a log service. */
  lemma ItemNotExcluded()
    ensures !Excluded(Sample, ProcessItemId)
  {
    var info := Info(Sample, ProcessItemId);
    assert info.containingNamespace == Some(SampleNamespace);
    assert info.containingType == Some(ProcessServiceType);
    assert SampleNamespace[0] != "System"[0] && SampleNamespace[0] != "Microsoft"[0];
    assert !StartsWith(SampleNamespace, "System") by {
      assert SampleNamespace[..|"System"|][0] == SampleNamespace[0];
    }
    assert !StartsWith(SampleNamespace, "Microsoft") by {
      assert SampleNamespace[..|"Microsoft"|][0] == SampleNamespace[0];
    }
    NotContainsHead("ProcessService", "LogService");
  }

  /** A registered but excluded call, and a framework call, get no probe. */
  lemma ExcludedCallsNotProbed(ctx: Context)
    requires SampleContext(ctx)
    ensures CallProbe(ctx, WriteCall.expr).None? && CallProbe(ctx, SleepCall.expr).None?
  {
    assert ResolveTarget(Call(WriteId)) == Some(WriteId);
    assert ResolveTarget(Call(SleepId)) == Some(SleepId);
    WriteExcluded();
    SleepExcluded();
  }

  /** The entry class is `ProcessService`, whose display name qualifies
      every probe. */
  lemma SampleEntryClass(ctx: Context)
    requires SampleContext(ctx)
    ensures EntryType(ctx) == Some(ProcessServiceType)
    ensures EntryClassName(EntryType(ctx)) == ProcessServiceType.display
  {
    assert Info(Sample, ProcessAllId) == ProcessAllInfo;
  }

  /** `ProcessItem(...)` is probed with its own stopwatch, reached through
      its original definition. */
  lemma ItemCallProbed(ctx: Context)
    requires SampleContext(ctx)
    ensures CallProbe(ctx, ItemCall.expr) == Some(("ProcessItem", ItemProbe(ctx)))
  {
    var e := ItemCall.expr;
    assert e == Invocation(Call(ProcessItemId), []);
    assert ResolveTarget(e.info) == Some(ProcessItemId);
    ItemNotExcluded();
    assert Info(Sample, ProcessItemId) == ProcessItemInfo;
    var sw := FindStopwatch(ctx, ProcessItemId);
    assert sw == Lookup(ctx.stopwatches, ProcessItemId);
    SampleEntryClass(ctx);
    assert CallProbe(ctx, e) == Some((ProcessItemInfo.name, ProcessServiceType.display + "." + sw.value.fieldName));
  }

  /** The state of the rewriter on entering `ProcessAll`'s body. */
  predicate InProcessAll(ctx: Context, st: RewriterState) {
    SampleContext(ctx) && st.currentClass == Some(ProcessServiceType.id) && st.inEntryMethod && st.depth == 0
  }

  lemma InProcessAllIsEntryClass(ctx: Context, st: RewriterState)
    requires InProcessAll(ctx, st)
    ensures InEntryClass(ctx, st)
  {
    SampleEntryClass(ctx);
  }

  /** Statements that are neither probed calls nor loops come back unchanged. */
  lemma PlainStatementsKept(ctx: Context, st: RewriterState)
    requires InProcessAll(ctx, st)
    ensures VisitStatement(ctx, WriteCall, st) == (WriteCall, st)
    ensures VisitStatement(ctx, SleepCall, st) == (SleepCall, st)
    ensures VisitStatement(ctx, ItemsDeclaration, st) == (ItemsDeclaration, st)
    ensures VisitStatement(ctx, IndexDeclaration, st) == (IndexDeclaration, st)
  {
    ExcludedCallsNotProbed(ctx);
    VisitSkipsCall(ctx, WriteCall.expr, st);
    VisitSkipsCall(ctx, SleepCall.expr, st);
  }

  /** `ProcessItem(...)` inside the entry class is wrapped and, in the entry
      method, reported a level below the current depth. */
  lemma ItemCallVisit(ctx: Context, st: RewriterState)
    requires SampleContext(ctx) && InEntryClass(ctx, st) && st.inEntryMethod && st.depth < MaxDepth
    ensures VisitStatement(ctx, ItemCall, st)
            == (WrappedItem(ctx), st.(log := st.log + [MethodLine(st.depth + 1, "ProcessItem", ItemProbe(ctx))]))
  {
    var e := ItemCall.expr;
    ItemCallProbed(ctx);
    VisitWrapsCall(ctx, e, st);
    var r := VisitStatement(ctx, ExpressionStatement(e), st);
    assert ExpressionStatement(e) == ItemCall;
    assert SameFrame(st, r.1);
    assert r.1 == st.(log := st.log + [MethodLine(st.depth + 1, "ProcessItem", ItemProbe(ctx))]);
  }

  /** `Thread.Sleep(...)` and `index++` are left as they are. */
  lemma UnprobedCallVisit(ctx: Context, st: RewriterState)
    requires SampleContext(ctx)
    ensures VisitStatement(ctx, SleepCall, st) == (SleepCall, st)
    ensures VisitStatement(ctx, Increment, st) == (Increment, st)
  {
    ExcludedCallsNotProbed(ctx);
    VisitSkipsCall(ctx, SleepCall.expr, st);
    VisitSkipsCall(ctx, Increment.expr, st);
  }

  /** A statement list is visited head first, the rest in the state it leaves. */
  lemma VisitCons(ctx: Context, s: Stmt, rest: seq<Stmt>, st: RewriterState)
    ensures var (s', st1) := VisitStatement(ctx, s, st);
            VisitStatements(ctx, [s] + rest, st) == ([s'] + VisitStatements(ctx, rest, st1).0, VisitStatements(ctx, rest, st1).1)
  {
    assert ([s] + rest)[0] == s && ([s] + rest)[1..] == rest;
  }

  lemma SnocTwo<T>(s: seq<T>, a: T, b: T)
    ensures s + [a] + [b] == s + [a, b]
  {
  }

  lemma Bracket3<T>(a: T, b: T, c: T, d: T, e: T)
    ensures [a] + [b, c, d] + [e] == [a, b, c, d, e]
  {
  }

  lemma Bracket2<T>(a: T, b: T, c: T, d: T)
    ensures [a] + [b, c] + [d] == [a, b, c, d]
  {
  }

  lemma Prefix3<T>(a: T, b: T, c: T, t: seq<T>)
    ensures [a] + ([b] + ([c] + t)) == [a, b, c] + t
  {
  }

  lemma SnocPairs<T>(s: seq<T>, a: T, b: T, c: T, y: T)
    ensures s + [a, y] + [b, y] + [c, y] == s + [a, y, b, y, c, y]
  {
  }

  lemma Snoc3<T>(s: seq<T>, a: T, b: T, c: T)
    ensures s + [a] + [b] + [c] == s + [a, b, c]
  {
  }

  /** One step of a statement-list visit, from known visits of the head and
      of the rest. */
  lemma ConsStep(ctx: Context, s: Stmt, s': Stmt, rest: seq<Stmt>, rest': seq<Stmt>, st: RewriterState, st1: RewriterState, st2: RewriterState)
    requires VisitStatement(ctx, s, st) == (s', st1) && VisitStatements(ctx, rest, st1) == (rest', st2)
    ensures VisitStatements(ctx, [s] + rest, st) == ([s'] + rest', st2)
  {
    VisitCons(ctx, s, rest, st);
  }

  /** A block is visited statement by statement. */
  lemma VisitBlock(ctx: Context, ss: seq<Stmt>, st: RewriterState)
    ensures VisitStatement(ctx, Block(ss), st) == (Block(VisitStatements(ctx, ss, st).0), VisitStatements(ctx, ss, st).1)
  {
  }

  /** A list of statements the visit leaves unchanged. */
  lemma SleepTailVisit(ctx: Context, st: RewriterState)
    requires SampleContext(ctx)
    ensures VisitStatements(ctx, [SleepCall], st) == ([SleepCall], st)
    ensures VisitStatements(ctx, [Increment, SleepCall], st) == ([Increment, SleepCall], st)
  {
    UnprobedCallVisit(ctx, st);
    VisitCons(ctx, SleepCall, [], st);
    assert [SleepCall] + [] == [SleepCall];
    VisitCons(ctx, Increment, [SleepCall], st);
    assert [Increment] + [SleepCall] == [Increment, SleepCall];
  }

  /** The state after `ProcessItem(...)` is reported one level down. */
  function ItemLogged(ctx: Context, st: RewriterState): RewriterState
    requires SampleContext(ctx)
  {
    st.(log := st.log + [MethodLine(2, "ProcessItem", ItemProbe(ctx))])
  }

  /** A block that starts with `ProcessItem(...)`, followed by statements the
      visit keeps. */
  lemma ItemThenKept(ctx: Context, st: RewriterState, tail: seq<Stmt>)
    requires SampleContext(ctx) && InEntryClass(ctx, st) && st.inEntryMethod && st.depth == 1
    requires VisitStatements(ctx, tail, ItemLogged(ctx, st)) == (tail, ItemLogged(ctx, st))
    ensures VisitStatement(ctx, Block([ItemCall] + tail), st) == (Block([WrappedItem(ctx)] + tail), ItemLogged(ctx, st))
  {
    ItemCallVisit(ctx, st);
    VisitCons(ctx, ItemCall, tail, st);
    VisitBlock(ctx, [ItemCall] + tail, st);
  }

  /** A loop body, one level down: `ProcessItem` is wrapped and reported a
      level below the loop, `Thread.Sleep` and `index++` are kept. */
  lemma ForBodyVisit(ctx: Context, st: RewriterState)
    requires SampleContext(ctx) && InEntryClass(ctx, st) && st.inEntryMethod && st.depth == 1
    ensures VisitStatement(ctx, ForBody, st) == (Block([WrappedItem(ctx), SleepCall]), ItemLogged(ctx, st))
  {
    SleepTailVisit(ctx, ItemLogged(ctx, st));
    ItemThenKept(ctx, st, [SleepCall]);
    assert [ItemCall] + [SleepCall] == [ItemCall, SleepCall];
    assert [WrappedItem(ctx)] + [SleepCall] == [WrappedItem(ctx), SleepCall];
  }

  lemma Cons2<T>(a: T, b: T, c: T)
    ensures [a] + [b, c] == [a, b, c]
  {
  }

  lemma WhileBodyVisit(ctx: Context, st: RewriterState)
    requires SampleContext(ctx) && InEntryClass(ctx, st) && st.inEntryMethod && st.depth == 1
    ensures VisitStatement(ctx, WhileBody, st) == (Block([WrappedItem(ctx), Increment, SleepCall]), ItemLogged(ctx, st))
  {
    var tail := [Increment, SleepCall];
    SleepTailVisit(ctx, ItemLogged(ctx, st));
    ItemThenKept(ctx, st, tail);
    Cons2(ItemCall, Increment, SleepCall);
    Cons2(WrappedItem(ctx), Increment, SleepCall);
  }

  /** The state after the `k`-th loop of `ProcessAll`: its field and its two
      report lines added. */
  function AfterLoop(ctx: Context, st: RewriterState, k: nat): RewriterState
    requires SampleContext(ctx)
  {
    st.(loopCounter := k,
        loopFields := st.loopFields + [LoopFieldName(k)],
        log := st.log + [LoopLine(1, LoopFieldName(k)), MethodLine(2, "ProcessItem", ItemProbe(ctx))])
  }

  /** The `for`/`foreach` body and the `while` body after the rewrite, timed
      by the `k`-th loop stopwatch. */
  function TimedFor(ctx: Context, k: nat): Stmt
    requires SampleContext(ctx)
  {
    Block([StartStopwatch(LoopFieldName(k)), WrappedItem(ctx), SleepCall, StopStopwatch(LoopFieldName(k))])
  }

  function TimedWhile(ctx: Context, k: nat): Stmt
    requires SampleContext(ctx)
  {
    Block([StartStopwatch(LoopFieldName(k)), WrappedItem(ctx), Increment, SleepCall, StopStopwatch(LoopFieldName(k))])
  }

  /** The body of a loop of `ProcessAll` is visited one level down, in the
      entry method and the entry class. */
  lemma EnterLoopInProcessAll(ctx: Context, st: RewriterState)
    requires InProcessAll(ctx, st)
    ensures InEntryClass(ctx, EnterLoop(st)) && EnterLoop(st).inEntryMethod && EnterLoop(st).depth == 1
  {
    InProcessAllIsEntryClass(ctx, st);
  }

  /** Leaving the `k`-th loop: the depth is restored, the loop's field and its
      two report lines stay. */
  lemma LeaveLoop(ctx: Context, st: RewriterState, k: nat)
    requires InProcessAll(ctx, st) && k == st.loopCounter + 1
    ensures ItemLogged(ctx, EnterLoop(st)).(depth := st.depth) == AfterLoop(ctx, st, k)
  {
    var name := LoopFieldName(k);
    var item := MethodLine(2, "ProcessItem", ItemProbe(ctx));
    var st1 := EnterLoop(st);
    assert st1.log == st.log + [LoopLine(1, name)];
    SnocTwo(st.log, LoopLine(1, name), item);
    var a, b := ItemLogged(ctx, st1).(depth := st.depth), AfterLoop(ctx, st, k);
    assert a.log == b.log;
    assert a.loopFields == b.loopFields && a.loopCounter == b.loopCounter;
  }

  /** A `for` or `foreach` loop of `ProcessAll` is numbered next, timed by its
      `swLoop` stopwatch inside its body, and reported before its call. */
  lemma ForLoopVisit(ctx: Context, kind: LoopKind, st: RewriterState, k: nat)
    requires InProcessAll(ctx, st) && k == st.loopCounter + 1
    ensures VisitStatement(ctx, Loop(kind, [], ForBody), st) == (Loop(kind, [], TimedFor(ctx, k)), AfterLoop(ctx, st, k))
  {
    var name := LoopFieldName(k);
    InProcessAllIsEntryClass(ctx, st);
    EnterLoopInProcessAll(ctx, st);
    ForBodyVisit(ctx, EnterLoop(st));
    RewriteLoopVisitsBody(ctx, kind, [], ForBody, st);
    LeaveLoop(ctx, st, k);
    Bracket2(StartStopwatch(name), WrappedItem(ctx), SleepCall, StopStopwatch(name));
  }

  lemma WhileLoopVisit(ctx: Context, st: RewriterState, k: nat)
    requires InProcessAll(ctx, st) && k == st.loopCounter + 1
    ensures VisitStatement(ctx, Loop(WhileLoop, [], WhileBody), st) == (Loop(WhileLoop, [], TimedWhile(ctx, k)), AfterLoop(ctx, st, k))
  {
    var name := LoopFieldName(k);
    InProcessAllIsEntryClass(ctx, st);
    EnterLoopInProcessAll(ctx, st);
    WhileBodyVisit(ctx, EnterLoop(st));
    RewriteLoopVisitsBody(ctx, WhileLoop, [], WhileBody, st);
    LeaveLoop(ctx, st, k);
    Bracket3(StartStopwatch(name), WrappedItem(ctx), Increment, SleepCall, StopStopwatch(name));
  }

  /** Leaving a loop keeps the rewriter inside `ProcessAll`, with the loop's
      number as the counter. */
  lemma AfterLoopInProcessAll(ctx: Context, st: RewriterState, k: nat)
    requires InProcessAll(ctx, st)
    ensures InProcessAll(ctx, AfterLoop(ctx, st, k)) && AfterLoop(ctx, st, k).loopCounter == k
  {
  }

  lemma KeptStatements(ctx: Context, st: RewriterState)
    requires InProcessAll(ctx, st)
    ensures VisitStatements(ctx, [WriteCall], st) == ([WriteCall], st)
  {
    PlainStatementsKept(ctx, st);
    VisitCons(ctx, WriteCall, [], st);
    assert [WriteCall] + [] == [WriteCall];
  }

  /** The statements of `ProcessAll` from the `while` loop on. */
  const FromWhileLoop := [Loop(WhileLoop, [], WhileBody), WriteCall]
  const FromIndexDeclaration := [IndexDeclaration] + FromWhileLoop
  const FromForEachLoop := [Loop(ForEachLoop, [], ForBody)] + FromIndexDeclaration

  /** The same statements after the rewrite, the first loop among them being
      the `k`-th. */
  function RewrittenFromWhile(ctx: Context, k: nat): seq<Stmt>
    requires SampleContext(ctx)
  {
    [Loop(WhileLoop, [], TimedWhile(ctx, k)), WriteCall]
  }

  function RewrittenFromIndex(ctx: Context, k: nat): seq<Stmt>
    requires SampleContext(ctx)
  {
    [IndexDeclaration] + RewrittenFromWhile(ctx, k)
  }

  function RewrittenFromForEach(ctx: Context, k: nat): seq<Stmt>
    requires SampleContext(ctx)
  {
    [Loop(ForEachLoop, [], TimedFor(ctx, k))] + RewrittenFromIndex(ctx, k + 1)
  }

  function RewrittenFromFor(ctx: Context, k: nat): seq<Stmt>
    requires SampleContext(ctx)
  {
    [Loop(ForLoop, [], TimedFor(ctx, k))] + RewrittenFromForEach(ctx, k + 1)
  }

  lemma FromWhile(ctx: Context, st: RewriterState, k: nat)
    requires InProcessAll(ctx, st) && k == st.loopCounter + 1
    ensures VisitStatements(ctx, FromWhileLoop, st) == (RewrittenFromWhile(ctx, k), AfterLoop(ctx, st, k))
  {
    var st1 := AfterLoop(ctx, st, k);
    var l, l' := Loop(WhileLoop, [], WhileBody), Loop(WhileLoop, [], TimedWhile(ctx, k));
    WhileLoopVisit(ctx, st, k);
    AfterLoopInProcessAll(ctx, st, k);
    KeptStatements(ctx, st1);
    ConsStep(ctx, l, l', [WriteCall], [WriteCall], st, st1, st1);
    assert [l] + [WriteCall] == FromWhileLoop;
    assert [l'] + [WriteCall] == RewrittenFromWhile(ctx, k);
  }

  lemma FromIndex(ctx: Context, st: RewriterState, k: nat)
    requires InProcessAll(ctx, st) && k == st.loopCounter + 1
    ensures VisitStatements(ctx, FromIndexDeclaration, st) == (RewrittenFromIndex(ctx, k), AfterLoop(ctx, st, k))
  {
    PlainStatementsKept(ctx, st);
    FromWhile(ctx, st, k);
    ConsStep(ctx, IndexDeclaration, IndexDeclaration, FromWhileLoop, RewrittenFromWhile(ctx, k), st, st, AfterLoop(ctx, st, k));
  }

  lemma FromForEach(ctx: Context, st: RewriterState, k: nat)
    requires InProcessAll(ctx, st) && k == st.loopCounter + 1
    ensures VisitStatements(ctx, FromForEachLoop, st)
            == (RewrittenFromForEach(ctx, k), AfterLoop(ctx, AfterLoop(ctx, st, k), k + 1))
  {
    var st1 := AfterLoop(ctx, st, k);
    var st2 := AfterLoop(ctx, st1, k + 1);
    var l, l' := Loop(ForEachLoop, [], ForBody), Loop(ForEachLoop, [], TimedFor(ctx, k));
    var rest' := RewrittenFromIndex(ctx, k + 1);
    ForLoopVisit(ctx, ForEachLoop, st, k);
    assert VisitStatement(ctx, l, st) == (l', st1);
    AfterLoopInProcessAll(ctx, st, k);
    FromIndex(ctx, st1, k + 1);
    assert VisitStatements(ctx, FromIndexDeclaration, st1) == (rest', st2);
    ConsStep(ctx, l, l', FromIndexDeclaration, rest', st, st1, st2);
  }

  lemma FromFor(ctx: Context, st: RewriterState, k: nat)
    requires InProcessAll(ctx, st) && k == st.loopCounter + 1
    ensures VisitStatements(ctx, ProcessAllBody[3..], st)
            == (RewrittenFromFor(ctx, k), AfterLoop(ctx, AfterLoop(ctx, AfterLoop(ctx, st, k), k + 1), k + 2))
  {
    var st1 := AfterLoop(ctx, st, k);
    var st3 := AfterLoop(ctx, AfterLoop(ctx, st1, k + 1), k + 2);
    var l, l' := Loop(ForLoop, [], ForBody), Loop(ForLoop, [], TimedFor(ctx, k));
    var rest' := RewrittenFromForEach(ctx, k + 1);
    ForLoopVisit(ctx, ForLoop, st, k);
    assert VisitStatement(ctx, l, st) == (l', st1);
    AfterLoopInProcessAll(ctx, st, k);
    FromForEach(ctx, st1, k + 1);
    assert VisitStatements(ctx, FromForEachLoop, st1) == (rest', st3);
    BodyFromFor();
    ConsStep(ctx, l, l', FromForEachLoop, rest', st, st1, st3);
  }

  lemma BodyFromFor()
    ensures ProcessAllBody[3..] == [Loop(ForLoop, [], ForBody)] + FromForEachLoop
  {
  }

  lemma BodySplits()
    ensures ProcessAllBody == [WriteCall] + ProcessAllBody[1..]
    ensures ProcessAllBody[1..] == [SleepCall] + ProcessAllBody[2..]
    ensures ProcessAllBody[2..] == [ItemsDeclaration] + ProcessAllBody[3..]
  {
  }

  /** The three statements before the first loop are kept as they are. */
  lemma HeadKept(ctx: Context, st: RewriterState, rest: seq<Stmt>, st': RewriterState)
    requires InProcessAll(ctx, st)
    requires VisitStatements(ctx, ProcessAllBody[3..], st) == (rest, st')
    ensures VisitStatements(ctx, ProcessAllBody, st) == ([WriteCall, SleepCall, ItemsDeclaration] + rest, st')
  {
    PlainStatementsKept(ctx, st);
    BodySplits();
    ConsStep(ctx, ItemsDeclaration, ItemsDeclaration, ProcessAllBody[3..], rest, st, st, st');
    ConsStep(ctx, SleepCall, SleepCall, ProcessAllBody[2..], [ItemsDeclaration] + rest, st, st, st');
    ConsStep(ctx, WriteCall, WriteCall, ProcessAllBody[1..], [SleepCall] + ([ItemsDeclaration] + rest), st, st, st');
    Prefix3(WriteCall, SleepCall, ItemsDeclaration, rest);
  }

  /** The body of `ProcessAll` after the rewrite, from loop number `n + 1` on. */
  function RewrittenBody(ctx: Context, n: nat): seq<Stmt>
    requires SampleContext(ctx)
  {
    [WriteCall, SleepCall, ItemsDeclaration,
     Loop(ForLoop, [], TimedFor(ctx, n + 1)),
     Loop(ForEachLoop, [], TimedFor(ctx, n + 2)),
     IndexDeclaration,
     Loop(WhileLoop, [], TimedWhile(ctx, n + 3)),
     WriteCall]
  }

  lemma RewrittenSplit(ctx: Context, n: nat)
    requires SampleContext(ctx)
    ensures RewrittenBody(ctx, n) == [WriteCall, SleepCall, ItemsDeclaration] + RewrittenFromFor(ctx, n + 1)
  {
  }

  /** The state after the three loops of `ProcessAll`. */
  function AfterThreeLoops(ctx: Context, st: RewriterState): RewriterState
    requires SampleContext(ctx)
  {
    var k := st.loopCounter + 1;
    AfterLoop(ctx, AfterLoop(ctx, AfterLoop(ctx, st, k), k + 1), k + 2)
  }

  /** `ProcessAll` rewritten: `_logService.Write`, `Thread.Sleep` and the
      `items` declaration are kept as they are, the three loops become
      `swLoop<n+1>` to `swLoop<n+3>` in document order, each timed inside
      its body, and every `ProcessItem(...)` call is wrapped. */
  lemma ProcessAllRewritten(ctx: Context, st: RewriterState)
    requires InProcessAll(ctx, st)
    ensures VisitStatements(ctx, ProcessAllBody, st) == (RewrittenBody(ctx, st.loopCounter), AfterThreeLoops(ctx, st))
  {
    var n := st.loopCounter;
    var rest, st' := RewrittenFromFor(ctx, n + 1), AfterThreeLoops(ctx, st);
    FromFor(ctx, st, n + 1);
    assert VisitStatements(ctx, ProcessAllBody[3..], st) == (rest, st');
    HeadKept(ctx, st, rest, st');
    RewrittenSplit(ctx, n);
  }

  /** After `ProcessAll` three loop fields are recorded, and the report holds,
      per loop, its line one level down followed by the `ProcessItem` line two
      levels down. */
  lemma ProcessAllRecords(ctx: Context, st: RewriterState)
    requires InProcessAll(ctx, st)
    ensures var n := st.loopCounter;
            var st' := AfterThreeLoops(ctx, st);
            var item := MethodLine(2, "ProcessItem", ItemProbe(ctx));
            && st'.loopCounter == n + 3
            && st'.loopFields == st.loopFields + [LoopFieldName(n + 1), LoopFieldName(n + 2), LoopFieldName(n + 3)]
            && st'.log == st.log + [LoopLine(1, LoopFieldName(n + 1)), item,
                                    LoopLine(1, LoopFieldName(n + 2)), item,
                                    LoopLine(1, LoopFieldName(n + 3)), item]
  {
    var n := st.loopCounter;
    var item := MethodLine(2, "ProcessItem", ItemProbe(ctx));
    Snoc3(st.loopFields, LoopFieldName(n + 1), LoopFieldName(n + 2), LoopFieldName(n + 3));
    SnocPairs(st.log, LoopLine(1, LoopFieldName(n + 1)), LoopLine(1, LoopFieldName(n + 2)), LoopLine(1, LoopFieldName(n + 3)), item);
  }

  /** In a class whose first loops these are, they are `swLoop1` to `swLoop3`. */
  lemma FirstLoopNames()
    ensures LoopFieldName(1) == "swLoop1" && LoopFieldName(2) == "swLoop2" && LoopFieldName(3) == "swLoop3"
  {
    assert DecimalString(1) == "1" && DecimalString(2) == "2" && DecimalString(3) == "3";
  }

  /** A direct callee of the root, in the root's own assembly, gets a
      stopwatch in the registry built from the root's call tree. */
  lemma DirectCalleeRegistered(p: Program, root: MethodId, m: MethodId, entryClass: Option<TypeInfo>)
    requires m in ChildTargets(p, root)
    ensures m in Keys(BuildStopwatchRegistry(p, BuildTree(p, root, {}).0, entryClass))
  {
    var tree := BuildTree(p, root, {}).0;
    assert m in Symbols(tree.children);
    var j :| 0 <= j < |tree.children| && Symbols(tree.children)[j] == m;
    ChildSymbolInPreOrder(tree, j);
    DedupSameElements(Symbols(PreOrder(tree)), m);
  }

  /** `ProcessAll` calls `ProcessItem` and `Write`, both of its own assembly. */
  lemma SampleCallees()
    ensures ProcessItemId in ChildTargets(Sample, ProcessAllId) && WriteId in ChildTargets(Sample, ProcessAllId)
  {
    assert Info(Sample, ProcessAllId) == ProcessAllInfo;
    assert Info(Sample, ProcessItemId) == ProcessItemInfo;
    assert Info(Sample, WriteId) == WriteInfo;
    TargetsHas(Sample, ProcessAllCalls, 3, ProcessItemId);
    TargetsHas(Sample, ProcessAllCalls, 0, WriteId);
  }

  /** The context `RewriteAsync` builds for the sample, with `ProcessAll` as
      entry method, registers `ProcessItem` and `Write`: the call-tree
      builder filters by assembly only. */
  lemma SampleRegistryContext(comp: CodeRewriter.Compilation, restoreClass: bool)
    requires comp.program == Sample
    ensures SampleContext(CodeRewriter.RewriteContext(comp, BuildTree(Sample, ProcessAllId, {}).0, ProcessAllId, restoreClass))
  {
    var tree := BuildTree(Sample, ProcessAllId, {}).0;
    var entryClass := Info(Sample, ProcessAllId).containingType;
    SampleCallees();
    DirectCalleeRegistered(Sample, ProcessAllId, ProcessItemId, entryClass);
    DirectCalleeRegistered(Sample, ProcessAllId, WriteId, entryClass);
  }
}

=== FILE: program_model.dfy ===
/** The part of Roslyn the instrumenter asks questions of, as plain data.
    Symbols are identities; everything the source reads off a symbol (its name,
    containing type and namespace, assembly, original definition, declaring
    syntax) is looked up in a `Program`. */
module ProgramModel {
  import opened Wrappers

  /** Identity of a method symbol (`SymbolEqualityComparer.Default`): two
      overloads with the same name are different identities. */
  datatype MethodId = MethodId(key: nat)

  /** Identity of a named type symbol. */
  datatype ClassId = ClassId(key: nat)

  /** `ContainingAssembly`, compared against the compilation's own assembly. */
  datatype AssemblyId = OwnAssembly | ReferencedAssembly(name: string)

  /** A containing type: its identity, `Name`, and its
      `ToDisplayString(SymbolDisplayFormat.MinimallyQualifiedFormat)`. */
  datatype TypeInfo = TypeInfo(id: ClassId, name: string, display: string)

  /** What `GetSymbolInfo` returns for an invocation. */
  datatype Sym = MethodSym(target: MethodId) | OtherSym
  datatype SymbolInfo = SymbolInfo(symbol: Option<Sym>, candidates: seq<Sym>)

  /** The first declaring syntax reference of a method: absent (metadata), some
      syntax that is not a method declaration (a local function, an accessor,
      ...), or a method declaration with its invocations in document order
      (`DescendantNodes().OfType<InvocationExpressionSyntax>()`, pre-order, so
      an invocation precedes those nested in its receiver and arguments). */
  datatype DeclSyntax =
    | NoDeclaringSyntax
    | NonMethodSyntax
    | MethodDeclaration(invocations: seq<SymbolInfo>)

  datatype MethodInfo = MethodInfo(
    name: string,
    containingType: Option<TypeInfo>,
    containingNamespace: Option<string>,   // `ContainingNamespace?.ToDisplayString()`
    assembly: AssemblyId,
    originalDefinition: MethodId,
    syntax: DeclSyntax)

  /** The compilation: every method symbol it can describe. */
  datatype Program = Program(methods: map<MethodId, MethodInfo>)

  /** A symbol the program does not describe behaves as a metadata-only method
      of a referenced assembly: unnamed, no declaring syntax. */
  function Info(p: Program, m: MethodId): MethodInfo {
    if m in p.methods then p.methods[m]
    else MethodInfo("", None, None, ReferencedAssembly(""), m, NoDeclaringSyntax)
  }

  /** `candidates.OfType<IMethodSymbol>().FirstOrDefault()`. */
  function FirstMethod(candidates: seq<Sym>): (r: Option<MethodId>)
    ensures r.None? <==> forall k :: 0 <= k < |candidates| ==> !candidates[k].MethodSym?
    ensures r.Some? ==> exists k :: 0 <= k < |candidates| && candidates[k] == MethodSym(r.value)
                                    && forall j :: 0 <= j < k ==> !candidates[j].MethodSym?
  {
    if candidates == [] then None
    else if candidates[0].MethodSym? then Some(candidates[0].target)
    else
      var r := FirstMethod(candidates[1..]);
      assert forall j :: 0 < j < |candidates| ==> candidates[j] == candidates[1..][j - 1];
      r
  }

  /** The invocation target both the call-tree builder and the rewriter use:
      the resolved symbol when it is a method, otherwise the first method among
      the candidate symbols (overload-resolution failures), otherwise none. */
  function ResolveTarget(info: SymbolInfo): (r: Option<MethodId>)
    ensures (info.symbol.Some? && info.symbol.value.MethodSym?) ==> r == Some(info.symbol.value.target)
    ensures !(info.symbol.Some? && info.symbol.value.MethodSym?) ==> r == FirstMethod(info.candidates)
  {
    if info.symbol.Some? && info.symbol.value.MethodSym? then Some(info.symbol.value.target)
    else if |info.candidates| > 0 then FirstMethod(info.candidates)
    else None
  }
}

=== FILE: rewriter_classes.dfy ===
/** Member- and class-level properties of the rewriter: the report appended
    to the entry method, classes the rewriter leaves alone, and the stopwatch
    fields it declares. */
module RewriterClasses {
  import opened Wrappers
  import opened Text
  import opened Seqs
  import opened ProgramModel
  import opened CallGraphModels
  import opened StopwatchRegistry
  import opened SyntaxModel
  import opened LogReport
  import opened DeepHierarchyRewriter
  import opened RewriterErasure
  import opened RewriterSites

  predicate IsEntryClassSymbol(ctx: Context, sym: Option<ClassId>) {
    sym.Some? && EntryType(ctx).Some? && sym.value == EntryType(ctx).value.id
  }

  /** The entry method of the entry class keeps its statements (up to the
      inserted instrumentation) and gets, at the end, the report of its
      instrumentation sites, loops numbered on from the loops already seen. */
  lemma EntryMethodReport(ctx: Context, id: string, b: seq<Stmt>, st: RewriterState)
    requires InEntryClass(ctx, st)
    ensures var body := VisitMember(ctx, MethodMember(Some(ctx.entry), id, Some(b)), st).0.body.value;
            var report := BuildLogStatements(id, SiteLog(SitesOf(ctx, b, 0), st.loopCounter));
            |report| <= |body| && body[|body| - |report|..] == report
            && NormOf(body[..|body| - |report|]) == NormOf(b)
  {
    var st2 := EntryMethodState(ctx, st);
    var (b', st3) := VisitStatements(ctx, b, st2);
    EntryMethodBody(ctx, id, b, st);
    VisitStatementsFollowSites(ctx, b, st2);
    VisitStatementsErase(ctx, b, st2);
    var report := BuildLogStatements(id, st3.log);
    assert st3.log == SiteLog(SitesOf(ctx, b, 0), st.loopCounter);
    var body := b' + report;
    assert body[..|b'|] == b' && body[|b'|..] == report;
  }

  /** The state the rewriter enters the entry method's body with. */
  function EntryMethodState(ctx: Context, st: RewriterState): RewriterState {
    st.(currentMethod := Some(ctx.entry), inEntryMethod := true, depth := 0, log := [])
  }

  /** The entry method's rewritten body is its visited statements followed by
      the report built from the log they leave. */
  lemma EntryMethodBody(ctx: Context, id: string, b: seq<Stmt>, st: RewriterState)
    requires InEntryClass(ctx, st)
    ensures var (b', st3) := VisitStatements(ctx, b, EntryMethodState(ctx, st));
            VisitMember(ctx, MethodMember(Some(ctx.entry), id, Some(b)), st).0.body.value == b' + BuildLogStatements(id, st3.log)
  {
    assert InEntryClass(ctx, st.(currentMethod := Some(ctx.entry)));
  }

  /** The entry method's report can be read back: the method's name and one
      line per site, every depth between one and the limit. */
  lemma EntryReportReadable(ctx: Context, id: string, b: seq<Stmt>, from: nat)
    ensures var lines := SiteLog(SitesOf(ctx, b, 0), from);
            ParseLog(BuildLogStatements(id, lines)) == Some((id, lines))
            && forall k :: 0 <= k < |lines| ==> 1 <= lines[k].depth <= MaxDepth
  {
    var lines := SiteLog(SitesOf(ctx, b, 0), from);
    LogRoundTrip(id, lines);
    SitesOfDepths(ctx, b, 0);
    SiteLogDepths(SitesOf(ctx, b, 0), from, 0);
  }

  /** No statement of a list is the report's builder declaration. */
  predicate NoReport(ss: seq<Stmt>) {
    forall k :: 0 <= k < |ss| ==> !ss[k].DeclareLogBuilder?
  }

  lemma VisitStatementKeepsKind(ctx: Context, s: Stmt, st: RewriterState)
    ensures VisitStatement(ctx, s, st).0.DeclareLogBuilder? ==> s.DeclareLogBuilder?
  {
  }

  lemma {:induction false} VisitStatementsNoReport(ctx: Context, ss: seq<Stmt>, st: RewriterState)
    requires NoReport(ss)
    ensures NoReport(VisitStatements(ctx, ss, st).0)
    decreases ss
  {
    if ss != [] {
      var (s', st1) := VisitStatement(ctx, ss[0], st);
      VisitStatementKeepsKind(ctx, ss[0], st);
      VisitStatementsNoReport(ctx, ss[1..], st1);
      assert VisitStatements(ctx, ss, st).0 == [s'] + VisitStatements(ctx, ss[1..], st1).0;
    }
  }

  /** Any other method of the entry class keeps its statements (up to the
      inserted instrumentation) and gets no report. */
  lemma OtherMethodNoReport(ctx: Context, sym: Option<MethodId>, id: string, b: seq<Stmt>, st: RewriterState)
    requires InEntryClass(ctx, st) && sym != Some(ctx.entry) && NoReport(b)
    ensures var body := VisitMember(ctx, MethodMember(sym, id, Some(b)), st).0.body.value;
            NoReport(body) && NormOf(body) == NormOf(b)
  {
    var st2 := st.(currentMethod := sym, inEntryMethod := false, depth := 0, log := []);
    VisitStatementsNoReport(ctx, b, st2);
    VisitStatementsErase(ctx, b, st2);
  }

  /** Some class declared in the member, at any nesting, is the entry class. */
  predicate DeclaresEntry(ctx: Context, m: Member) {
    match m
    case NestedClass(c) => IsEntryClassSymbol(ctx, c.symbol) || AnyDeclaresEntry(ctx, c.members)
    case OtherType(ms) => AnyDeclaresEntry(ctx, ms)
    case _ => false
  }

  predicate AnyDeclaresEntry(ctx: Context, ms: seq<Member>) {
    ms != [] && (DeclaresEntry(ctx, ms[0]) || AnyDeclaresEntry(ctx, ms[1..]))
  }

  /** The part of the state only the entry class changes. */
  predicate SameRecords(a: RewriterState, b: RewriterState) {
    a.inEntryMethod == b.inEntryMethod && a.depth == b.depth && a.log == b.log
    && a.loopFields == b.loopFields && a.loopCounter == b.loopCounter
  }

  lemma {:induction false} MemberWithoutEntryUnchanged(ctx: Context, m: Member, st: RewriterState)
    requires !InEntryClass(ctx, st) && !DeclaresEntry(ctx, m)
    ensures VisitMember(ctx, m, st).0 == m
    ensures !InEntryClass(ctx, VisitMember(ctx, m, st).1) && SameRecords(st, VisitMember(ctx, m, st).1)
    decreases m
  {
    match m
    case NestedClass(c) =>
      var st1 := st.(currentClass := c.symbol);
      MembersWithoutEntryUnchanged(ctx, c.members, st1);
    case OtherType(ms) =>
      MembersWithoutEntryUnchanged(ctx, ms, st);
    case _ =>
  }

  lemma {:induction false} MembersWithoutEntryUnchanged(ctx: Context, ms: seq<Member>, st: RewriterState)
    requires !InEntryClass(ctx, st) && !AnyDeclaresEntry(ctx, ms)
    ensures VisitMembers(ctx, ms, st).0 == ms
    ensures !InEntryClass(ctx, VisitMembers(ctx, ms, st).1) && SameRecords(st, VisitMembers(ctx, ms, st).1)
    decreases ms
  {
    if ms != [] {
      var (m', st1) := VisitMember(ctx, ms[0], st);
      MemberWithoutEntryUnchanged(ctx, ms[0], st);
      MembersWithoutEntryUnchanged(ctx, ms[1..], st1);
      assert ms == [ms[0]] + ms[1..];
    }
  }

  /** A syntax tree that does not declare the entry class is left exactly
      as it is. */
  lemma UnitWithoutEntryUnchanged(ctx: Context, u: CompilationUnit)
    requires !AnyDeclaresEntry(ctx, u.members)
    ensures VisitUnit(ctx, u) == u
  {
    MembersWithoutEntryUnchanged(ctx, u.members, Initial);
  }

  /** Every recorded loop field is a `swLoop` name. */
  predicate LoopFieldsWellFormed(st: RewriterState) {
    forall k :: 0 <= k < |st.loopFields| ==> StartsWith(st.loopFields[k], "swLoop")
  }

  lemma LoopFieldNameStarts(n: nat)
    ensures StartsWith(LoopFieldName(n), "swLoop")
  {
    assert LoopFieldName(n)[..6] == "swLoop";
  }

  lemma StatementsKeepLoopFields(ctx: Context, ss: seq<Stmt>, st: RewriterState)
    requires LoopFieldsWellFormed(st)
    ensures LoopFieldsWellFormed(VisitStatements(ctx, ss, st).1)
  {
    if InEntryClass(ctx, st) {
      VisitStatementsFollowSites(ctx, ss, st);
      var r := VisitStatements(ctx, ss, st).1;
      var names := LoopNames(st.loopCounter, LoopCount(SitesOf(ctx, ss, st.depth)));
      LoopNamesAt(st.loopCounter, LoopCount(SitesOf(ctx, ss, st.depth)));
      forall k | 0 <= k < |r.loopFields|
        ensures StartsWith(r.loopFields[k], "swLoop")
      {
        if k >= |st.loopFields| {
          LoopFieldNameStarts(st.loopCounter + (k - |st.loopFields|) + 1);
        }
      }
    }
  }

  lemma {:induction false} MemberKeepsLoopFields(ctx: Context, m: Member, st: RewriterState)
    requires LoopFieldsWellFormed(st)
    ensures LoopFieldsWellFormed(VisitMember(ctx, m, st).1)
    decreases m
  {
    match m
    case MethodMember(sym, id, body) =>
      if body.Some? {
        var st1 := st.(currentMethod := sym);
        StatementsKeepLoopFields(ctx, body.value, st1);
        StatementsKeepLoopFields(ctx, body.value, st1.(inEntryMethod := sym == Some(ctx.entry), depth := 0, log := []));
      }
    case CodeMember(ss) =>
      StatementsKeepLoopFields(ctx, ss, st);
    case NestedClass(c) =>
      MembersKeepLoopFields(ctx, c.members, st.(currentClass := c.symbol));
    case OtherType(ms) =>
      MembersKeepLoopFields(ctx, ms, st);
    case _ =>
  }

  lemma {:induction false} MembersKeepLoopFields(ctx: Context, ms: seq<Member>, st: RewriterState)
    requires LoopFieldsWellFormed(st)
    ensures LoopFieldsWellFormed(VisitMembers(ctx, ms, st).1)
    decreases ms
  {
    if ms != [] {
      var st1 := VisitMember(ctx, ms[0], st).1;
      MemberKeepsLoopFields(ctx, ms[0], st);
      MembersKeepLoopFields(ctx, ms[1..], st1);
    }
  }

  lemma VisitMemberNotField(ctx: Context, m: Member, st: RewriterState)
    requires !m.StopwatchField?
    ensures !VisitMember(ctx, m, st).0.StopwatchField?
  {
  }

  predicate NoFields(ms: seq<Member>) {
    forall k :: 0 <= k < |ms| ==> !ms[k].StopwatchField?
  }

  lemma {:induction false} VisitMembersNoFields(ctx: Context, ms: seq<Member>, st: RewriterState)
    requires NoFields(ms)
    ensures NoFields(VisitMembers(ctx, ms, st).0)
    decreases ms
  {
    if ms != [] {
      var (m', st1) := VisitMember(ctx, ms[0], st);
      VisitMemberNotField(ctx, ms[0], st);
      VisitMembersNoFields(ctx, ms[1..], st1);
      assert VisitMembers(ctx, ms, st).0 == [m'] + VisitMembers(ctx, ms[1..], st1).0;
    }
  }

  /** A method stopwatch name (`sw<digits>_...`) is never a loop stopwatch
      name (`swLoop...`). */
  lemma MethodNameNotLoopName(n: nat, methodName: string, s: string)
    requires StartsWith(s, "swLoop")
    ensures FieldName(n, methodName) != s
  {
    var f := FieldName(n, methodName);
    assert f[2] == DecimalString(n)[0];
    assert s[2] == 'L';
  }

  /** A method stopwatch name is never one of the loop stopwatch names. */
  lemma MethodFieldNotLoopField(p: Program, reg: Registry, loops: seq<string>, i: nat, j: nat)
    requires forall i :: 0 <= i < |reg| ==> reg[i].info.fieldName == FieldName(i + 1, Info(p, reg[i].symbol).name)
    requires forall k :: 0 <= k < |loops| ==> StartsWith(loops[k], "swLoop")
    requires i < |reg| && j < |Dedup(loops)|
    ensures MethodFieldNames(reg)[i] != Dedup(loops)[j]
  {
    var k :| 0 <= k < |loops| && loops[k] == Dedup(loops)[j];
    MethodNameNotLoopName(i + 1, Info(p, reg[i].symbol).name, loops[k]);
  }

  lemma {:induction false} FieldNamesAllDistinct(p: Program, reg: Registry, loops: seq<string>)
    requires forall i :: 0 <= i < |reg| ==> reg[i].info.fieldName == FieldName(i + 1, Info(p, reg[i].symbol).name)
    requires forall k :: 0 <= k < |loops| ==> StartsWith(loops[k], "swLoop")
    ensures NoDuplicates(MethodFieldNames(reg) + Dedup(loops))
  {
    var a, b := MethodFieldNames(reg), Dedup(loops);
    NumberedNamesDistinct(p, reg);
    assert NoDuplicates(a);
    forall i, j | 0 <= i < |a| && 0 <= j < |b|
      ensures a[i] != b[j]
    {
      MethodFieldNotLoopField(p, reg, loops, i, j);
    }
    NoDuplicatesAppend(a, b);
  }

  lemma FieldsThenMembers(names: seq<string>, visited: seq<Member>)
    requires NoDuplicates(names) && NoFields(visited)
    ensures var ms := StopwatchFields(names) + visited;
            forall i, j :: 0 <= i < j < |ms| && ms[i].StopwatchField? && ms[j].StopwatchField? ==> ms[i].name != ms[j].name
  {
  }

  lemma StopwatchFieldsAppend(a: seq<string>, b: seq<string>)
    ensures StopwatchFields(a + b) == StopwatchFields(a) + StopwatchFields(b)
  {
    var l, r := StopwatchFields(a + b), StopwatchFields(a) + StopwatchFields(b);
    forall i | 0 <= i < |l|
      ensures l[i] == r[i]
    {
      if i < |a| {
        assert (a + b)[i] == a[i];
      } else {
        assert (a + b)[i] == b[i - |a|];
      }
    }
  }

  /** The entry class never declares the same stopwatch field twice: with the
      registry built from the call tree and a class the tool has not
      instrumented before (no generated stopwatch field yet; a file rewritten
      earlier would parse its fields as ordinary ones), the fields it
      receives have pairwise distinct names. */
  lemma EntryClassFieldsDistinct(ctx: Context, root: CallGraphNode, c: ClassDecl, st: RewriterState)
    requires ctx.stopwatches == BuildStopwatchRegistry(ctx.program, root, EntryType(ctx))
    requires IsEntryClassSymbol(ctx, c.symbol) && LoopFieldsWellFormed(st) && NoFields(c.members)
    ensures var ms := VisitClass(ctx, c, st).0.members;
            forall i, j :: 0 <= i < j < |ms| && ms[i].StopwatchField? && ms[j].StopwatchField? ==> ms[i].name != ms[j].name
  {
    var st1 := st.(currentClass := c.symbol);
    var (visited, st2) := VisitMembers(ctx, c.members, st1);
    MembersKeepLoopFields(ctx, c.members, st1);
    VisitMembersNoFields(ctx, c.members, st1);
    var a, b := MethodFieldNames(ctx.stopwatches), Dedup(st2.loopFields);
    FieldNamesAllDistinct(ctx.program, ctx.stopwatches, st2.loopFields);
    StopwatchFieldsAppend(a, b);
    FieldsThenMembers(a + b, visited);
    assert VisitClass(ctx, c, st).0.members == StopwatchFields(a + b) + visited;
  }
}

=== FILE: rewriter_erasure.dfy ===
/** The rewriter only inserts: erasing the generated statements and fields,
    and the blocks the visitor opens around them, from its output gives back
    its input, erased the same way. Blocks of the input stay blocks. */
module RewriterErasure {
  import opened Wrappers
  import opened Seqs
  import opened ProgramModel
  import opened SyntaxModel
  import opened LogReport
  import opened DeepHierarchyRewriter

  /** The statements of a block the visitor opens: a wrapped call and a timed
      loop body both start with a stopwatch start. Parsed source never holds
      a generated statement, so no block of the input starts with one. */
  predicate Opened(ss: seq<Stmt>) {
    |ss| > 0 && ss[0].StartStopwatch?
  }

  /** A statement with the instrumentation erased: generated statements are
      dropped, a block the visitor opened is flattened into the surrounding
      list, every other block stays a block, and the parts of compound
      statements are kept apart. */
  function Norm(s: Stmt): seq<Stmt>
    decreases s, 1
  {
    match s
    case Loop(kind, header, body) => [Loop(kind, header, Block(NormBody(body)))]
    case Block(ss) => if Opened(ss) then NormOf(ss) else [Block(NormOf(ss))]
    case Compound(header, parts) => [Compound(header, NormParts(parts))]
    case ExpressionStatement(_) => [s]
    case Simple(_) => [s]
    case _ => []
  }

  /** A loop body erased: the timed body reuses the loop's own block, or
      opens one around a single statement, so a block body and a single
      statement body are compared by their statements. */
  function NormBody(body: Stmt): seq<Stmt>
    decreases body, 2
  {
    if body.Block? then NormOf(body.stmts) else Norm(body)
  }

  function NormOf(ss: seq<Stmt>): seq<Stmt>
    decreases ss, 0
  {
    if ss == [] then [] else Norm(ss[0]) + NormOf(ss[1..])
  }

  function NormParts(ps: seq<Stmt>): seq<Stmt>
    decreases ps, 0
  {
    if ps == [] then [] else [Block(Norm(ps[0]))] + NormParts(ps[1..])
  }

  lemma NormOfCons(x: Stmt, rest: seq<Stmt>)
    ensures NormOf([x] + rest) == Norm(x) + NormOf(rest)
  {
    assert ([x] + rest)[0] == x && ([x] + rest)[1..] == rest;
  }

  lemma {:induction false} NormOfAppend(a: seq<Stmt>, b: seq<Stmt>)
    ensures NormOf(a + b) == NormOf(a) + NormOf(b)
  {
    if a == [] {
      assert a + b == b;
    } else {
      var x, t := a[0], a[1..];
      HeadSplit(a, b);
      NormOfAppend(t, b);
      NormOfCons(x, t + b);
      NormOfCons(x, t);
    }
  }

  lemma {:induction false} NormOfGenerated(ss: seq<Stmt>)
    requires forall k :: 0 <= k < |ss| ==> IsGenerated(ss[k])
    ensures NormOf(ss) == []
  {
    if ss != [] {
      NormOfGenerated(ss[1..]);
    }
  }

  lemma NormOfSingle(s: Stmt)
    ensures NormOf([s]) == Norm(s)
  {
    assert [s][1..] == [];
  }

  /** A statement as parsed from source: no generated statement anywhere in it. */
  predicate Parsed(s: Stmt) {
    match s
    case ExpressionStatement(_) => true
    case Simple(_) => true
    case Loop(_, _, body) => Parsed(body)
    case Block(ss) => forall k :: 0 <= k < |ss| ==> Parsed(ss[k])
    case Compound(_, parts) => forall k :: 0 <= k < |parts| ==> Parsed(parts[k])
    case _ => false
  }

  /** Erasure loses nothing of parsed source: a parsed statement erases to
      one statement, and a block of it stays a block with as many statements. */
  lemma {:induction false} NormParsed(s: Stmt)
    requires Parsed(s)
    ensures |Norm(s)| == 1
    ensures s.Block? ==> Norm(s) == [Block(NormOf(s.stmts))] && |NormOf(s.stmts)| == |s.stmts|
    decreases s, 1
  {
    if s.Block? {
      NormOfParsed(s.stmts);
    }
  }

  lemma {:induction false} NormOfParsed(ss: seq<Stmt>)
    requires forall k :: 0 <= k < |ss| ==> Parsed(ss[k])
    ensures |NormOf(ss)| == |ss|
    ensures forall k :: 0 <= k < |ss| ==> |Norm(ss[k])| == 1 && NormOf(ss)[k] == Norm(ss[k])[0]
    decreases ss, 0
  {
    if ss != [] {
      NormParsed(ss[0]);
      NormOfParsed(ss[1..]);
    }
  }

  /** Regrouping the input's blocks shows under erasure: unwrapping a block,
      dropping an empty one or merging two are all told apart. */
  lemma BlocksKept(a: Stmt, b: Stmt)
    requires a.Simple? && b.Simple?
    ensures NormOf([Block([a]), b]) != NormOf([a, b])
    ensures NormOf([Block([])]) != NormOf([])
    ensures NormOf([Block([a]), Block([b])]) != NormOf([Block([a, b])])
  {
    NormOfParsed([Block([a]), b]);
    NormOfParsed([a, b]);
    NormOfParsed([Block([])]);
    NormOfParsed([Block([a]), Block([b])]);
    NormOfParsed([Block([a, b])]);
  }

  /** A call wrapped in its stopwatch's start and stop erases to the call. */
  lemma WrappedErases(q: string, s: Stmt)
    ensures Norm(Block([StartStopwatch(q), s, StopStopwatch(q)])) == Norm(s)
  {
    assert [StartStopwatch(q), s, StopStopwatch(q)] == [StartStopwatch(q)] + ([s] + [StopStopwatch(q)]);
    NormOfCons(StartStopwatch(q), [s] + [StopStopwatch(q)]);
    NormOfCons(s, [StopStopwatch(q)]);
    NormOfSingle(StopStopwatch(q));
  }

  /** A statement visit erases to its input. */
  lemma {:induction false} VisitStatementErases(ctx: Context, s: Stmt, st: RewriterState)
    ensures Norm(VisitStatement(ctx, s, st).0) == Norm(s)
    ensures NormBody(VisitStatement(ctx, s, st).0) == NormBody(s)
    decreases s, 1
  {
    match s
    case ExpressionStatement(e) =>
      if InEntryClass(ctx, st) && st.depth < MaxDepth && CallProbe(ctx, e).Some? {
        VisitWrapsCall(ctx, e, st);
        WrappedErases(CallProbe(ctx, e).value.1, s);
      } else if InEntryClass(ctx, st) {
        VisitSkipsCall(ctx, e, st);
      }
    case Loop(kind, header, body) =>
      RewriteLoopErases(ctx, kind, header, body, st);
    case Block(ss) =>
      VisitStatementsErase(ctx, ss, st);
    case Compound(header, parts) =>
      VisitStatementsErase(ctx, parts, st);
    case _ =>
  }

  /** The timed body is an opened block: it erases to the visited body's
      statements, whether that body was a block or a single statement. */
  lemma TimedBodyErases(name: string, body: Stmt)
    ensures Norm(TimedBody(name, body)) == NormBody(body)
    ensures NormBody(TimedBody(name, body)) == NormBody(body)
  {
    var inner := if body.Block? then body.stmts else [body];
    if !body.Block? {
      NormOfSingle(body);
    }
    NormOfAppend([StartStopwatch(name)] + inner, [StopStopwatch(name)]);
    NormOfAppend([StartStopwatch(name)], inner);
    NormOfSingle(StartStopwatch(name));
    NormOfSingle(StopStopwatch(name));
  }

  lemma {:induction false} RewriteLoopErases(ctx: Context, kind: LoopKind, header: seq<SymbolInfo>, body: Stmt, st: RewriterState)
    ensures Norm(RewriteLoop(ctx, kind, header, body, st).0) == Norm(Loop(kind, header, body))
    decreases body, 2
  {
    if InEntryClass(ctx, st) && st.depth < MaxDepth {
      var st1 := EnterLoop(st);
      var body' := VisitStatement(ctx, body, st1).0;
      VisitStatementErases(ctx, body, st1);
      TimedBodyErases(LoopFieldName(st1.loopCounter), body');
    }
  }

  lemma {:induction false} VisitStatementsErase(ctx: Context, ss: seq<Stmt>, st: RewriterState)
    ensures NormOf(VisitStatements(ctx, ss, st).0) == NormOf(ss)
    ensures NormParts(VisitStatements(ctx, ss, st).0) == NormParts(ss)
    decreases ss, 0
  {
    if ss != [] {
      var (s', st1) := VisitStatement(ctx, ss[0], st);
      VisitStatementErases(ctx, ss[0], st);
      VisitStatementsErase(ctx, ss[1..], st1);
      var r := VisitStatements(ctx, ss, st).0;
      assert r[0] == s' && r[1..] == VisitStatements(ctx, ss[1..], st1).0;
    }
  }

  /** Members with the instrumentation erased: generated fields are dropped
      and every body is erased. */
  function EraseMember(m: Member): seq<Member> {
    match m
    case MethodMember(sym, id, body) =>
      (match body
       case None => [m]
       case Some(b) => [MethodMember(sym, id, Some(NormOf(b)))])
    case CodeMember(ss) => [CodeMember(NormOf(ss))]
    case NestedClass(c) => [NestedClass(EraseClass(c))]
    case OtherType(ms) => [OtherType(EraseMembers(ms))]
    case DataMember => [m]
    case StopwatchField(_) => []
  }

  function EraseMembers(ms: seq<Member>): seq<Member> {
    if ms == [] then [] else EraseMember(ms[0]) + EraseMembers(ms[1..])
  }

  function EraseClass(c: ClassDecl): ClassDecl {
    ClassDecl(c.symbol, EraseMembers(c.members))
  }

  lemma EraseMembersCons(x: Member, rest: seq<Member>)
    ensures EraseMembers([x] + rest) == EraseMember(x) + EraseMembers(rest)
  {
    assert ([x] + rest)[0] == x && ([x] + rest)[1..] == rest;
  }

  lemma {:induction false} EraseMembersAppend(a: seq<Member>, b: seq<Member>)
    ensures EraseMembers(a + b) == EraseMembers(a) + EraseMembers(b)
  {
    if a == [] {
      assert a + b == b;
    } else {
      var x, t := a[0], a[1..];
      HeadSplit(a, b);
      EraseMembersAppend(t, b);
      EraseMembersCons(x, t + b);
      EraseMembersCons(x, t);
    }
  }

  lemma {:induction false} EraseFields(names: seq<string>)
    ensures EraseMembers(StopwatchFields(names)) == []
  {
    if names != [] {
      EraseFields(names[1..]);
      assert StopwatchFields(names)[1..] == StopwatchFields(names[1..]);
    }
  }

  lemma {:induction false} VisitMemberErases(ctx: Context, m: Member, st: RewriterState)
    ensures EraseMembers([VisitMember(ctx, m, st).0]) == EraseMember(m)
    decreases m
  {
    var r := VisitMember(ctx, m, st).0;
    assert EraseMembers([r]) == EraseMember(r) by {
      assert [r][1..] == [];
    }
    match m
    case MethodMember(sym, id, body) =>
      if body.Some? {
        VisitMethodErases(ctx, sym, id, body.value, st);
      }
    case CodeMember(ss) =>
      VisitStatementsErase(ctx, ss, st);
    case NestedClass(c) =>
      VisitClassErases(ctx, c, st);
    case OtherType(ms) =>
      VisitMembersErase(ctx, ms, st);
    case DataMember =>
    case StopwatchField(_) =>
  }

  lemma VisitMethodErases(ctx: Context, sym: Option<MethodId>, id: string, b: seq<Stmt>, st: RewriterState)
    ensures VisitMember(ctx, MethodMember(sym, id, Some(b)), st).0 == MethodMember(sym, id, Some(VisitMember(ctx, MethodMember(sym, id, Some(b)), st).0.body.value))
    ensures NormOf(VisitMember(ctx, MethodMember(sym, id, Some(b)), st).0.body.value) == NormOf(b)
  {
    var st1 := st.(currentMethod := sym);
    if !InEntryClass(ctx, st1) {
      VisitStatementsErase(ctx, b, st1);
    } else {
      var st2 := st1.(inEntryMethod := sym == Some(ctx.entry), depth := 0, log := []);
      var (b', st3) := VisitStatements(ctx, b, st2);
      VisitStatementsErase(ctx, b, st2);
      if st3.inEntryMethod {
        var report := BuildLogStatements(id, st3.log);
        NormOfAppend(b', report);
        NormOfGenerated(report);
      }
    }
  }

  lemma {:induction false} VisitMembersErase(ctx: Context, ms: seq<Member>, st: RewriterState)
    ensures EraseMembers(VisitMembers(ctx, ms, st).0) == EraseMembers(ms)
    decreases ms
  {
    if ms != [] {
      var (m', st1) := VisitMember(ctx, ms[0], st);
      VisitMemberErases(ctx, ms[0], st);
      VisitMembersErase(ctx, ms[1..], st1);
      var r := VisitMembers(ctx, ms, st).0;
      assert r == [m'] + VisitMembers(ctx, ms[1..], st1).0;
      EraseMembersAppend([m'], VisitMembers(ctx, ms[1..], st1).0);
    }
  }

  lemma {:induction false} VisitClassErases(ctx: Context, c: ClassDecl, st: RewriterState)
    ensures EraseClass(VisitClass(ctx, c, st).0) == EraseClass(c)
    decreases c
  {
    var st1 := st.(currentClass := c.symbol);
    var (ms, st2) := VisitMembers(ctx, c.members, st1);
    VisitMembersErase(ctx, c.members, st1);
    if InEntryClass(ctx, st1) {
      var a := StopwatchFields(MethodFieldNames(ctx.stopwatches));
      var b := StopwatchFields(Dedup(st2.loopFields));
      EraseMembersAppend(a + b, ms);
      EraseMembersAppend(a, b);
      EraseFields(MethodFieldNames(ctx.stopwatches));
      EraseFields(Dedup(st2.loopFields));
    }
  }

  /** A rewritten syntax tree is its input plus generated statements, the
      blocks opened around them and generated fields: erasing those gives the
      input back, erased the same way, with every block of the input kept. */
  lemma VisitUnitErases(ctx: Context, u: CompilationUnit)
    ensures EraseMembers(VisitUnit(ctx, u).members) == EraseMembers(u.members)
  {
    VisitMembersErase(ctx, u.members, Initial);
  }
}

=== FILE: rewriter_sites.dfy ===
/** What the rewriter instruments, defined without the visitor's state: the
    instrumentation sites of a statement in document order. The visitor's
    loop numbering, loop fields, report lines and started stopwatches all
    follow from the sites. */
module RewriterSites {
  import opened Wrappers
  import opened Seqs
  import opened Text
  import opened ProgramModel
  import opened SyntaxModel
  import opened LogReport
  import opened DeepHierarchyRewriter

  /** A wrapped call (at the nesting depth of the statement) or a loop. */
  datatype Site =
    | CallSite(depth: nat, methodName: string, stopwatch: string)
    | LoopSite(depth: nat)

  /** The sites of a statement at loop-nesting `depth`: each expression
      statement with a probe and each loop, above the depth limit. */
  function Sites(ctx: Context, s: Stmt, depth: nat): seq<Site> {
    match s
    case ExpressionStatement(e) =>
      if depth >= MaxDepth then []
      else (match CallProbe(ctx, e)
            case Some((name, q)) => [CallSite(depth, name, q)]
            case None => [])
    case Loop(_, _, body) =>
      if depth >= MaxDepth then [] else [LoopSite(depth)] + Sites(ctx, body, depth + 1)
    case Block(ss) => SitesOf(ctx, ss, depth)
    case Compound(_, parts) => SitesOf(ctx, parts, depth)
    case _ => []
  }

  function SitesOf(ctx: Context, ss: seq<Stmt>, depth: nat): seq<Site> {
    if ss == [] then [] else Sites(ctx, ss[0], depth) + SitesOf(ctx, ss[1..], depth)
  }

  function LoopCount(sites: seq<Site>): nat {
    if sites == [] then 0 else (if sites[0].LoopSite? then 1 else 0) + LoopCount(sites[1..])
  }

  /** The loop field names numbered `from + 1` to `from + k`. */
  function LoopNames(from: nat, k: nat): seq<string> {
    if k == 0 then [] else LoopNames(from, k - 1) + [LoopFieldName(from + k)]
  }

  /** There is one name per loop, and the `i`-th is `swLoop<from + i + 1>`. */
  lemma {:induction false} LoopNamesAt(from: nat, k: nat)
    ensures |LoopNames(from, k)| == k
    ensures forall i :: 0 <= i < k ==> LoopNames(from, k)[i] == LoopFieldName(from + i + 1)
  {
    if k > 0 {
      LoopNamesAt(from, k - 1);
    }
  }

  /** The report lines of the sites, loops numbered from `from + 1`: each
      one level below its site's depth. */
  function SiteLog(sites: seq<Site>, from: nat): seq<LogLine> {
    if sites == [] then []
    else
      match sites[0]
      case CallSite(d, name, q) => [MethodLine(d + 1, name, q)] + SiteLog(sites[1..], from)
      case LoopSite(d) => [LoopLine(d + 1, LoopFieldName(from + 1))] + SiteLog(sites[1..], from + 1)
  }

  /** The stopwatch each site starts, loops numbered from `from + 1`. */
  function SiteStopwatches(sites: seq<Site>, from: nat): seq<string> {
    if sites == [] then []
    else
      match sites[0]
      case CallSite(_, _, q) => [q] + SiteStopwatches(sites[1..], from)
      case LoopSite(_) => [LoopFieldName(from + 1)] + SiteStopwatches(sites[1..], from + 1)
  }

  /** The stopwatches a statement starts, in document order. */
  function Started(s: Stmt): seq<string> {
    match s
    case StartStopwatch(q) => [q]
    case Loop(_, _, body) => Started(body)
    case Block(ss) => StartedOf(ss)
    case Compound(_, parts) => StartedOf(parts)
    case _ => []
  }

  function StartedOf(ss: seq<Stmt>): seq<string> {
    if ss == [] then [] else Started(ss[0]) + StartedOf(ss[1..])
  }

  lemma {:induction false} LoopCountAppend(a: seq<Site>, b: seq<Site>)
    ensures LoopCount(a + b) == LoopCount(a) + LoopCount(b)
  {
    if a == [] {
      assert a + b == b;
    } else {
      LoopCountAppend(a[1..], b);
      assert (a + b)[1..] == a[1..] + b;
    }
  }

  lemma {:induction false} LoopNamesAppend(from: nat, j: nat, k: nat)
    ensures LoopNames(from, j + k) == LoopNames(from, j) + LoopNames(from + j, k)
  {
    if k > 0 {
      LoopNamesAppend(from, j, k - 1);
    }
  }

  lemma {:induction false} SiteLogAppend(a: seq<Site>, b: seq<Site>, from: nat)
    ensures SiteLog(a + b, from) == SiteLog(a, from) + SiteLog(b, from + LoopCount(a))
  {
    if a == [] {
      assert a + b == b;
    } else {
      assert (a + b)[1..] == a[1..] + b && (a + b)[0] == a[0];
      if a[0].LoopSite? {
        SiteLogAppend(a[1..], b, from + 1);
      } else {
        SiteLogAppend(a[1..], b, from);
      }
    }
  }

  lemma {:induction false} SiteStopwatchesAppend(a: seq<Site>, b: seq<Site>, from: nat)
    ensures SiteStopwatches(a + b, from) == SiteStopwatches(a, from) + SiteStopwatches(b, from + LoopCount(a))
  {
    if a == [] {
      assert a + b == b;
    } else {
      assert (a + b)[1..] == a[1..] + b && (a + b)[0] == a[0];
      if a[0].LoopSite? {
        SiteStopwatchesAppend(a[1..], b, from + 1);
      } else {
        SiteStopwatchesAppend(a[1..], b, from);
      }
    }
  }

  lemma StartedOfCons(x: Stmt, rest: seq<Stmt>)
    ensures StartedOf([x] + rest) == Started(x) + StartedOf(rest)
  {
    assert ([x] + rest)[0] == x && ([x] + rest)[1..] == rest;
  }

  lemma {:induction false} StartedOfAppend(a: seq<Stmt>, b: seq<Stmt>)
    ensures StartedOf(a + b) == StartedOf(a) + StartedOf(b)
  {
    if a == [] {
      assert a + b == b;
    } else {
      var x, t := a[0], a[1..];
      HeadSplit(a, b);
      StartedOfAppend(t, b);
      StartedOfCons(x, t + b);
      StartedOfCons(x, t);
    }
  }

  lemma StartedOfSingle(s: Stmt)
    ensures StartedOf([s]) == Started(s)
  {
    assert [s][1..] == [];
  }

  /** The part of the state that the sites determine, after the visit. */
  predicate Follows(ctx: Context, st: RewriterState, r: RewriterState, sites: seq<Site>) {
    r.loopCounter == st.loopCounter + LoopCount(sites)
    && r.loopFields == st.loopFields + LoopNames(st.loopCounter, LoopCount(sites))
    && r.log == st.log + (if st.inEntryMethod then SiteLog(sites, st.loopCounter) else [])
  }

  lemma TimedBodyStarts(name: string, body: Stmt)
    ensures StartedOf(TimedBody(name, body).stmts) == [name] + Started(body)
  {
    var inner := if body.Block? then body.stmts else [body];
    if !body.Block? {
      StartedOfSingle(body);
    }
    StartedOfAppend([StartStopwatch(name)] + inner, [StopStopwatch(name)]);
    StartedOfAppend([StartStopwatch(name)], inner);
    StartedOfSingle(StartStopwatch(name));
    StartedOfSingle(StopStopwatch(name));
  }

  /** What a loop site in front of its body's sites records. */
  lemma LoopSiteRecords(d: nat, bodySites: seq<Site>, from: nat)
    ensures LoopCount([LoopSite(d)] + bodySites) == 1 + LoopCount(bodySites)
    ensures SiteLog([LoopSite(d)] + bodySites, from) == [LoopLine(d + 1, LoopFieldName(from + 1))] + SiteLog(bodySites, from + 1)
    ensures SiteStopwatches([LoopSite(d)] + bodySites, from) == [LoopFieldName(from + 1)] + SiteStopwatches(bodySites, from + 1)
  {
    assert ([LoopSite(d)] + bodySites)[0] == LoopSite(d) && ([LoopSite(d)] + bodySites)[1..] == bodySites;
  }

  lemma LoopNamesCons(from: nat, k: nat)
    ensures LoopNames(from, 1 + k) == [LoopFieldName(from + 1)] + LoopNames(from + 1, k)
  {
    LoopNamesAppend(from, 1, k);
  }

  lemma LoopFollows(ctx: Context, st: RewriterState, st2: RewriterState, bodySites: seq<Site>)
    requires Follows(ctx, EnterLoop(st), st2, bodySites)
    ensures Follows(ctx, st, st2.(depth := st.depth), [LoopSite(st.depth)] + bodySites)
  {
    var e := EnterLoop(st);
    var name := LoopFieldName(st.loopCounter + 1);
    LoopSiteRecords(st.depth, bodySites, st.loopCounter);
    LoopNamesCons(st.loopCounter, LoopCount(bodySites));
    assert e.loopFields == st.loopFields + [name];
    AppendAssoc(st.loopFields, [name], LoopNames(st.loopCounter + 1, LoopCount(bodySites)));
    if st.inEntryMethod {
      assert e.log == st.log + [LoopLine(st.depth + 1, name)];
      AppendAssoc(st.log, [LoopLine(st.depth + 1, name)], SiteLog(bodySites, st.loopCounter + 1));
    } else {
      AppendEmpty(st.log);
    }
  }

  /** In the entry class, a statement visit numbers exactly the loops among
      the statement's sites, in order, records their fields, and (in the
      entry method) records one report line per site; for a statement not
      yet instrumented, the stopwatches its output starts are the sites'. */
  lemma {:induction false} VisitFollowsSites(ctx: Context, s: Stmt, st: RewriterState)
    requires InEntryClass(ctx, st)
    ensures Follows(ctx, st, VisitStatement(ctx, s, st).1, Sites(ctx, s, st.depth))
    ensures Started(s) == [] ==> Started(VisitStatement(ctx, s, st).0) == SiteStopwatches(Sites(ctx, s, st.depth), st.loopCounter)
    decreases s, 1
  {
    match s
    case ExpressionStatement(e) =>
      ExpressionFollowsSites(ctx, e, st);
    case Loop(kind, header, body) =>
      RewriteLoopFollowsSites(ctx, kind, header, body, st);
    case Block(ss) =>
      VisitStatementsFollowSites(ctx, ss, st);
    case Compound(header, parts) =>
      VisitStatementsFollowSites(ctx, parts, st);
    case _ =>
  }

  /** A wrapped call starts exactly its own stopwatch. */
  lemma WrappedCallStarts(s: Stmt, q: string)
    requires s.ExpressionStatement?
    ensures Started(Block([StartStopwatch(q), s, StopStopwatch(q)])) == [q]
  {
    var ss := [StartStopwatch(q), s, StopStopwatch(q)];
    assert ss[1..] == [s, StopStopwatch(q)];
    assert [s, StopStopwatch(q)][1..] == [StopStopwatch(q)];
    StartedOfSingle(StopStopwatch(q));
    assert StartedOf([s, StopStopwatch(q)]) == Started(s) + StartedOf([StopStopwatch(q)]) == [];
    assert StartedOf(ss) == [q] + StartedOf(ss[1..]);
  }

  /** What a single call site records: one method line a level down, its
      stopwatch, and no loop. */
  lemma CallSiteRecords(d: nat, name: string, q: string, from: nat)
    ensures SiteLog([CallSite(d, name, q)], from) == [MethodLine(d + 1, name, q)]
    ensures SiteStopwatches([CallSite(d, name, q)], from) == [q]
    ensures LoopCount([CallSite(d, name, q)]) == 0
  {
    assert [CallSite(d, name, q)][1..] == [];
  }

  lemma CallSites(ctx: Context, e: Expr, depth: nat)
    requires depth < MaxDepth && CallProbe(ctx, e).Some?
    ensures Sites(ctx, ExpressionStatement(e), depth)
            == [CallSite(depth, CallProbe(ctx, e).value.0, CallProbe(ctx, e).value.1)]
  {
  }

  lemma NoCallSites(ctx: Context, e: Expr, depth: nat)
    requires depth >= MaxDepth || CallProbe(ctx, e).None?
    ensures Sites(ctx, ExpressionStatement(e), depth) == []
  {
  }

  lemma ExpressionFollowsSites(ctx: Context, e: Expr, st: RewriterState)
    requires InEntryClass(ctx, st)
    ensures Follows(ctx, st, VisitStatement(ctx, ExpressionStatement(e), st).1, Sites(ctx, ExpressionStatement(e), st.depth))
    ensures Started(VisitStatement(ctx, ExpressionStatement(e), st).0) == SiteStopwatches(Sites(ctx, ExpressionStatement(e), st.depth), st.loopCounter)
  {
    if st.depth < MaxDepth && CallProbe(ctx, e).Some? {
      WrappedCallFollows(ctx, e, st);
    } else {
      VisitSkipsCall(ctx, e, st);
      NoCallSites(ctx, e, st.depth);
    }
  }

  /** A wrapped call is one site: its line, its stopwatch, no loop. */
  lemma WrappedCallFollows(ctx: Context, e: Expr, st: RewriterState)
    requires InEntryClass(ctx, st) && st.depth < MaxDepth && CallProbe(ctx, e).Some?
    ensures Follows(ctx, st, VisitStatement(ctx, ExpressionStatement(e), st).1, Sites(ctx, ExpressionStatement(e), st.depth))
    ensures Started(VisitStatement(ctx, ExpressionStatement(e), st).0) == SiteStopwatches(Sites(ctx, ExpressionStatement(e), st.depth), st.loopCounter)
  {
    WrappedCallState(ctx, e, st);
    WrappedCallStopwatch(ctx, e, st);
  }

  lemma WrappedCallState(ctx: Context, e: Expr, st: RewriterState)
    requires InEntryClass(ctx, st) && st.depth < MaxDepth && CallProbe(ctx, e).Some?
    ensures Follows(ctx, st, VisitStatement(ctx, ExpressionStatement(e), st).1, Sites(ctx, ExpressionStatement(e), st.depth))
  {
    var (name, q) := CallProbe(ctx, e).value;
    var r := VisitStatement(ctx, ExpressionStatement(e), st).1;
    var sites := Sites(ctx, ExpressionStatement(e), st.depth);
    VisitWrapsCall(ctx, e, st);
    CallSites(ctx, e, st.depth);
    CallSiteRecords(st.depth, name, q, st.loopCounter);
    assert LoopCount(sites) == 0;
    LoopNamesNone(st.loopFields, st.loopCounter);
    assert r.loopFields == st.loopFields + LoopNames(st.loopCounter, LoopCount(sites));
    assert SiteLog(sites, st.loopCounter) == [MethodLine(st.depth + 1, name, q)];
  }

  lemma WrappedCallStopwatch(ctx: Context, e: Expr, st: RewriterState)
    requires InEntryClass(ctx, st) && st.depth < MaxDepth && CallProbe(ctx, e).Some?
    ensures Started(VisitStatement(ctx, ExpressionStatement(e), st).0) == SiteStopwatches(Sites(ctx, ExpressionStatement(e), st.depth), st.loopCounter)
  {
    var (name, q) := CallProbe(ctx, e).value;
    VisitWrapsCall(ctx, e, st);
    CallSites(ctx, e, st.depth);
    CallSiteRecords(st.depth, name, q, st.loopCounter);
    WrappedCallStarts(ExpressionStatement(e), q);
  }

  /** No loop adds no loop field. */
  lemma LoopNamesNone(fields: seq<string>, from: nat)
    ensures fields + LoopNames(from, 0) == fields
  {
  }

  lemma {:induction false} RewriteLoopFollowsSites(ctx: Context, kind: LoopKind, header: seq<SymbolInfo>, body: Stmt, st: RewriterState)
    requires InEntryClass(ctx, st)
    ensures Follows(ctx, st, RewriteLoop(ctx, kind, header, body, st).1, Sites(ctx, Loop(kind, header, body), st.depth))
    ensures Started(body) == [] ==>
              Started(RewriteLoop(ctx, kind, header, body, st).0) == SiteStopwatches(Sites(ctx, Loop(kind, header, body), st.depth), st.loopCounter)
    decreases body, 2
  {
    if st.depth < MaxDepth {
      var st1 := EnterLoop(st);
      var v := VisitStatement(ctx, body, st1);
      var bodySites := Sites(ctx, body, st1.depth);
      VisitFollowsSites(ctx, body, st1);
      RewriteLoopVisitsBody(ctx, kind, header, body, st);
      var r := RewriteLoop(ctx, kind, header, body, st);
      assert r == (Loop(kind, header, TimedBody(LoopFieldName(st.loopCounter + 1), v.0)), v.1.(depth := st.depth));
      LoopSitesUnfold(ctx, kind, header, body, st.depth, st1.depth);
      LoopStateFollows(ctx, st, v.1, bodySites, r.1);
      if Started(body) == [] {
        LoopStartsSites(st, v.0, bodySites, r.0, kind, header);
        assert Started(r.0) == SiteStopwatches(Sites(ctx, Loop(kind, header, body), st.depth), st.loopCounter);
      }
    }
  }

  lemma LoopSitesUnfold(ctx: Context, kind: LoopKind, header: seq<SymbolInfo>, body: Stmt, depth: nat, inner: nat)
    requires depth < MaxDepth && inner == depth + 1
    ensures Sites(ctx, Loop(kind, header, body), depth) == [LoopSite(depth)] + Sites(ctx, body, inner)
  {
  }

  /** The loop's own site comes first, then its body's, and the state the
      body's visit leaves follows all of them. */
  lemma LoopStateFollows(ctx: Context, st: RewriterState, st2: RewriterState, bodySites: seq<Site>, r: RewriterState)
    requires Follows(ctx, EnterLoop(st), st2, bodySites)
    requires r == st2.(depth := st.depth)
    ensures Follows(ctx, st, r, [LoopSite(st.depth)] + bodySites)
  {
    LoopFollows(ctx, st, st2, bodySites);
  }

  /** The rewritten loop starts its own stopwatch, then those of its body. */
  lemma LoopStartsSites(st: RewriterState, body': Stmt, bodySites: seq<Site>, r: Stmt, kind: LoopKind, header: seq<SymbolInfo>)
    requires Started(body') == SiteStopwatches(bodySites, st.loopCounter + 1)
    requires r == Loop(kind, header, TimedBody(LoopFieldName(st.loopCounter + 1), body'))
    ensures Started(r) == SiteStopwatches([LoopSite(st.depth)] + bodySites, st.loopCounter)
  {
    TimedBodyStarts(LoopFieldName(st.loopCounter + 1), body');
    LoopSiteRecords(st.depth, bodySites, st.loopCounter);
  }

  /** Two consecutive runs of loop names chain into one. */
  lemma LoopFieldsChain(f0: seq<string>, f1: seq<string>, f2: seq<string>, from: nat, j: nat, k: nat)
    requires f1 == f0 + LoopNames(from, j) && f2 == f1 + LoopNames(from + j, k)
    ensures f2 == f0 + LoopNames(from, j + k)
  {
    LoopNamesAppend(from, j, k);
  }

  /** Two consecutive runs of report lines chain into one. */
  lemma SiteLogChain(l0: seq<LogLine>, l1: seq<LogLine>, l2: seq<LogLine>, a: seq<Site>, b: seq<Site>, from: nat)
    requires l1 == l0 + SiteLog(a, from) && l2 == l1 + SiteLog(b, from + LoopCount(a))
    ensures l2 == l0 + SiteLog(a + b, from)
  {
    SiteLogAppend(a, b, from);
  }

  lemma FollowsAppend(ctx: Context, st: RewriterState, st1: RewriterState, st2: RewriterState, a: seq<Site>, b: seq<Site>)
    requires Follows(ctx, st, st1, a) && Follows(ctx, st1, st2, b) && st1.inEntryMethod == st.inEntryMethod
    ensures Follows(ctx, st, st2, a + b)
  {
    LoopCountAppend(a, b);
    LoopFieldsChain(st.loopFields, st1.loopFields, st2.loopFields, st.loopCounter, LoopCount(a), LoopCount(b));
    if st.inEntryMethod {
      SiteLogChain(st.log, st1.log, st2.log, a, b, st.loopCounter);
    } else {
      AppendEmpty(st.log);
      AppendEmpty(st1.log);
    }
  }

  lemma {:induction false} VisitStatementsFollowSites(ctx: Context, ss: seq<Stmt>, st: RewriterState)
    requires InEntryClass(ctx, st)
    ensures Follows(ctx, st, VisitStatements(ctx, ss, st).1, SitesOf(ctx, ss, st.depth))
    ensures StartedOf(ss) == [] ==>
              StartedOf(VisitStatements(ctx, ss, st).0) == SiteStopwatches(SitesOf(ctx, ss, st.depth), st.loopCounter)
    decreases ss, 0
  {
    if ss != [] {
      var (s', st1) := VisitStatement(ctx, ss[0], st);
      VisitFollowsSites(ctx, ss[0], st);
      var (rest', st2) := VisitStatements(ctx, ss[1..], st1);
      VisitStatementsFollowSites(ctx, ss[1..], st1);
      var a := Sites(ctx, ss[0], st.depth);
      var b := SitesOf(ctx, ss[1..], st.depth);
      FollowsAppend(ctx, st, st1, st2, a, b);
      if StartedOf(ss) == [] {
        StartsAppend(ss, s', rest', a, b, st.loopCounter, st1.loopCounter);
      }
    }
  }

  lemma StartsAppend(ss: seq<Stmt>, s': Stmt, rest': seq<Stmt>, a: seq<Site>, b: seq<Site>, from: nat, from1: nat)
    requires ss != [] && StartedOf(ss) == []
    requires Started(ss[0]) == [] ==> Started(s') == SiteStopwatches(a, from)
    requires StartedOf(ss[1..]) == [] ==> StartedOf(rest') == SiteStopwatches(b, from1)
    requires from1 == from + LoopCount(a)
    ensures StartedOf([s'] + rest') == SiteStopwatches(a + b, from)
  {
    StartedOfNoneParts(ss);
    var sa, sb := SiteStopwatches(a, from), SiteStopwatches(b, from1);
    assert Started(s') == sa && StartedOf(rest') == sb;
    StartedOfCons(s', rest');
    SiteStopwatchesAppend(a, b, from);
  }

  /** A list that starts no stopwatch starts none in its head nor in its tail. */
  lemma StartedOfNoneParts(ss: seq<Stmt>)
    requires ss != [] && StartedOf(ss) == []
    ensures Started(ss[0]) == [] && StartedOf(ss[1..]) == []
  {
    assert |StartedOf(ss)| == |Started(ss[0])| + |StartedOf(ss[1..])|;
  }

  /** Every site lies at or below the starting depth and above the limit. */
  lemma {:induction false} SitesDepths(ctx: Context, s: Stmt, depth: nat)
    ensures forall k :: 0 <= k < |Sites(ctx, s, depth)| ==> depth <= Sites(ctx, s, depth)[k].depth < MaxDepth
    decreases s
  {
    match s
    case Loop(_, _, body) =>
      if depth < MaxDepth {
        SitesDepths(ctx, body, depth + 1);
      }
    case Block(ss) =>
      SitesOfDepths(ctx, ss, depth);
    case Compound(_, parts) =>
      SitesOfDepths(ctx, parts, depth);
    case _ =>
  }

  lemma {:induction false} SitesOfDepths(ctx: Context, ss: seq<Stmt>, depth: nat)
    ensures forall k :: 0 <= k < |SitesOf(ctx, ss, depth)| ==> depth <= SitesOf(ctx, ss, depth)[k].depth < MaxDepth
    decreases ss
  {
    if ss != [] {
      SitesDepths(ctx, ss[0], depth);
      SitesOfDepths(ctx, ss[1..], depth);
    }
  }

  /** Report lines of sites at depth at least `depth` lie between `depth + 1`
      and the limit. */
  lemma {:induction false} SiteLogDepths(sites: seq<Site>, from: nat, depth: nat)
    requires forall k :: 0 <= k < |sites| ==> depth <= sites[k].depth < MaxDepth
    ensures forall k :: 0 <= k < |SiteLog(sites, from)| ==> depth + 1 <= SiteLog(sites, from)[k].depth <= MaxDepth
    decreases sites
  {
    if sites != [] {
      if sites[0].LoopSite? {
        SiteLogDepths(sites[1..], from + 1, depth);
      } else {
        SiteLogDepths(sites[1..], from, depth);
      }
    }
  }
}

=== FILE: scenarios.dfy ===
/** Small worked examples: a recursive call cycle through the call-tree
    builder and the stopwatch registry. */
module Scenarios {
  import opened Wrappers
  import opened Text
  import opened Seqs
  import opened ProgramModel
  import opened CallGraphModels
  import opened CallGraphBuilder
  import opened StopwatchRegistry

  const MainId := MethodId(1)
  const AId := MethodId(2)
  const BId := MethodId(3)
  const WorkerType := TypeInfo(ClassId(1), "Worker", "Worker")

  function Call(m: MethodId): SymbolInfo {
    SymbolInfo(Some(MethodSym(m)), [])
  }

  function Declared(name: string, calls: seq<SymbolInfo>, m: MethodId): MethodInfo {
    MethodInfo(name, Some(WorkerType), Some("App"), OwnAssembly, m, MethodDeclaration(calls))
  }

  /** `Main` calls `A`; `A` calls `B`; `B` calls `A` back. */
  const Cycle := Program(map[
    MainId := Declared("Main", [Call(AId)], MainId),
    AId := Declared("A", [Call(BId)], AId),
    BId := Declared("B", [Call(AId)], BId)])

  /** One call to a method not yet visited, or to one already visited. */
  lemma ExpandOneCall(m: MethodId, visited: set<MethodId>)
    requires m in Cycle.methods
    ensures ExpandCalls(Cycle, [Call(m)], visited) == ([Expand(Cycle, m, visited).0], Expand(Cycle, m, visited).1)
  {
    assert ResolveTarget(Call(m)) == Some(m);
    assert Info(Cycle, m) == Cycle.methods[m];
    assert [Call(m)][1..] == [];
    var (child, mid) := Expand(Cycle, m, visited);
    assert ExpandCalls(Cycle, [], mid) == ([], mid);
    assert [child] + [] == [child];
  }

  /** The recursion ends at the second visit of `A`, which stays a leaf. */
  lemma CycleTree()
    ensures BuildTree(Cycle, MainId, {}).0
            == CallGraphNode(MainId, [CallGraphNode(AId, [CallGraphNode(BId, [CallGraphNode(AId, [])])])])
  {
    assert Info(Cycle, MainId) == Cycle.methods[MainId];
    assert Info(Cycle, AId) == Cycle.methods[AId];
    assert Info(Cycle, BId) == Cycle.methods[BId];
    var all := {MainId, AId, BId};
    assert Expand(Cycle, AId, all) == (CallGraphNode(AId, []), all);
    ExpandOneCall(AId, all);
    assert {MainId, AId} + {BId} == all;
    assert Info(Cycle, BId).syntax == MethodDeclaration([Call(AId)]);
    assert Expand(Cycle, BId, {MainId, AId}) == (CallGraphNode(BId, [CallGraphNode(AId, [])]), all);
    ExpandOneCall(BId, {MainId, AId});
    assert {MainId} + {AId} == {MainId, AId};
    assert Info(Cycle, AId).syntax == MethodDeclaration([Call(BId)]);
    assert Expand(Cycle, AId, {MainId}).0 == CallGraphNode(AId, [CallGraphNode(BId, [CallGraphNode(AId, [])])]);
    ExpandOneCall(AId, {MainId});
    assert {} + {MainId} == {MainId};
    assert Info(Cycle, MainId).syntax == MethodDeclaration([Call(AId)]);
  }

  lemma AlnumName(s: string)
    requires forall i :: 0 <= i < |s| ==> IsLetterOrDigit(s[i])
    ensures LettersAndDigits(s) == s
  {
  }

  /** The field name of a one-digit counter and an alphanumeric method name. */
  lemma SmallFieldName(n: nat, name: string)
    requires n < 10 && forall i :: 0 <= i < |name| ==> IsLetterOrDigit(name[i])
    ensures FieldName(n, name) == "sw" + [DigitChar(n)] + "_" + name
  {
    AlnumName(name);
  }

  lemma MainFieldName()
    ensures FieldName(1, "Main") == "sw1_Main"
  {
    SmallFieldName(1, "Main");
    assert DigitChar(1) == '1';
  }

  lemma AFieldName()
    ensures FieldName(2, "A") == "sw2_A"
  {
    SmallFieldName(2, "A");
    assert DigitChar(2) == '2';
  }

  lemma BFieldName()
    ensures FieldName(3, "B") == "sw3_B"
  {
    SmallFieldName(3, "B");
    assert DigitChar(3) == '3';
  }

  lemma CyclePreOrder()
    ensures Symbols(PreOrder(BuildTree(Cycle, MainId, {}).0)) == [MainId, AId, BId, AId]
  {
    CycleTree();
    var leafA := CallGraphNode(AId, []);
    var nodeB := CallGraphNode(BId, [leafA]);
    var nodeA := CallGraphNode(AId, [nodeB]);
    var root := CallGraphNode(MainId, [nodeA]);
    assert PreOrder(leafA) == [leafA];
    assert PreOrderList([leafA]) == [leafA];
    assert PreOrder(nodeB) == [nodeB, leafA];
    assert PreOrderList([nodeB]) == [nodeB, leafA];
    assert PreOrder(nodeA) == [nodeA, nodeB, leafA];
    assert PreOrderList([nodeA]) == [nodeA, nodeB, leafA];
    assert PreOrder(root) == [root, nodeA, nodeB, leafA];
  }

  lemma CycleDistinct()
    ensures Dedup([MainId, AId, BId, AId]) == [MainId, AId, BId]
  {
    DedupOfDistinct([MainId, AId, BId]);
    DedupSnoc([MainId, AId, BId], AId);
    assert [MainId, AId, BId, AId] == [MainId, AId, BId] + [AId];
  }

  /** Three methods, three stopwatches, numbered in visiting order; the
      second visit of `A` adds none. */
  lemma CycleKeys()
    ensures var reg := BuildStopwatchRegistry(Cycle, BuildTree(Cycle, MainId, {}).0, Some(WorkerType));
            Keys(reg) == [MainId, AId, BId]
  {
    CyclePreOrder();
    CycleDistinct();
  }

  lemma CycleNames()
    ensures Info(Cycle, MainId).name == "Main" && Info(Cycle, AId).name == "A" && Info(Cycle, BId).name == "B"
  {
  }

  /** Entry `i` of a registry is declared in the entry class and named after
      its counter and its method's name. */
  lemma RegistryInfo(p: Program, root: CallGraphNode, t: TypeInfo, i: nat)
    ensures var reg := BuildStopwatchRegistry(p, root, Some(t));
            i < |reg| ==> reg[i].info == StopwatchInfo(t.display, FieldName(i + 1, Info(p, reg[i].symbol).name))
  {
  }

  lemma CycleMainEntry()
    ensures var reg := BuildStopwatchRegistry(Cycle, BuildTree(Cycle, MainId, {}).0, Some(WorkerType));
            |reg| == 3 && reg[0].info == StopwatchInfo("Worker", FieldName(1, "Main"))
  {
    var reg := BuildStopwatchRegistry(Cycle, BuildTree(Cycle, MainId, {}).0, Some(WorkerType));
    CycleKeys();
    assert reg[0].symbol == Keys(reg)[0];
    CycleNames();
    RegistryInfo(Cycle, BuildTree(Cycle, MainId, {}).0, WorkerType, 0);
  }

  lemma CycleAEntry()
    ensures var reg := BuildStopwatchRegistry(Cycle, BuildTree(Cycle, MainId, {}).0, Some(WorkerType));
            |reg| == 3 && reg[1].info == StopwatchInfo("Worker", FieldName(2, "A"))
  {
    var reg := BuildStopwatchRegistry(Cycle, BuildTree(Cycle, MainId, {}).0, Some(WorkerType));
    CycleKeys();
    assert reg[1].symbol == Keys(reg)[1];
    CycleNames();
    RegistryInfo(Cycle, BuildTree(Cycle, MainId, {}).0, WorkerType, 1);
  }

  lemma CycleBEntry()
    ensures var reg := BuildStopwatchRegistry(Cycle, BuildTree(Cycle, MainId, {}).0, Some(WorkerType));
            |reg| == 3 && reg[2].info == StopwatchInfo("Worker", FieldName(3, "B"))
  {
    var reg := BuildStopwatchRegistry(Cycle, BuildTree(Cycle, MainId, {}).0, Some(WorkerType));
    CycleKeys();
    assert reg[2].symbol == Keys(reg)[2];
    CycleNames();
    RegistryInfo(Cycle, BuildTree(Cycle, MainId, {}).0, WorkerType, 2);
  }

  /** Three methods, three stopwatches, numbered in visiting order and all
      declared in `Worker`. */
  lemma CycleRegistry()
    ensures var reg := BuildStopwatchRegistry(Cycle, BuildTree(Cycle, MainId, {}).0, Some(WorkerType));
            && Keys(reg) == [MainId, AId, BId]
            && reg[0].info == StopwatchInfo("Worker", "sw1_Main")
            && reg[1].info == StopwatchInfo("Worker", "sw2_A")
            && reg[2].info == StopwatchInfo("Worker", "sw3_B")
  {
    CycleKeys();
    CycleMainEntry();
    CycleAEntry();
    CycleBEntry();
    MainFieldName();
    AFieldName();
    BFieldName();
  }
}

=== FILE: seqs.dfy ===
/** Sequence facts shared by the registry, the rewriter and the analyzer. */
module Seqs {

  predicate NoDuplicates<T(==)>(s: seq<T>) {
    forall i, j :: 0 <= i < j < |s| ==> s[i] != s[j]
  }

  /** The elements of `s` at their first occurrence, in order: LINQ `Distinct()`,
      and equally the key order of a dictionary filled by "add if absent". */
  function Dedup<T(==)>(s: seq<T>): (r: seq<T>)
    ensures NoDuplicates(r)
    ensures forall i :: 0 <= i < |r| ==> r[i] in s
  {
    if s == [] then []
    else
      var p := Dedup(s[..|s| - 1]);
      if s[|s| - 1] in s[..|s| - 1] then p else p + [s[|s| - 1]]
  }

  /** A non-empty sequence, alone and in front of another, split at its head. */
  lemma HeadSplit<T>(a: seq<T>, b: seq<T>)
    requires a != []
    ensures a == [a[0]] + a[1..] && a + b == [a[0]] + (a[1..] + b)
  {
  }

  lemma IndexAfter<T>(a: seq<T>, b: seq<T>, k: nat)
    requires k < |b|
    ensures (a + b)[|a| + k] == b[k]
  {
  }

  lemma AppendAssoc<T>(a: seq<T>, b: seq<T>, c: seq<T>)
    ensures (a + b) + c == a + (b + c)
  {
  }

  lemma AppendEmpty<T>(s: seq<T>)
    ensures s + [] == s
  {
  }

  /** A sequence without duplicates is its own `Distinct()`. */
  lemma {:induction false} DedupOfDistinct<T>(s: seq<T>)
    requires NoDuplicates(s)
    ensures Dedup(s) == s
  {
    if s != [] {
      var init := s[..|s| - 1];
      assert NoDuplicates(init);
      DedupOfDistinct(init);
      assert s[|s| - 1] !in init;
      assert init + [s[|s| - 1]] == s;
    }
  }

  /** One step of `Dedup`: an appended element is kept iff it is new. */
  lemma DedupSnoc<T>(s: seq<T>, x: T)
    ensures Dedup(s + [x]) == if x in s then Dedup(s) else Dedup(s) + [x]
  {
    assert (s + [x])[..|s + [x]| - 1] == s;
  }

  lemma {:induction false} DedupSameElements<T>(s: seq<T>, x: T)
    ensures x in Dedup(s) <==> x in s
  {
    if s != [] {
      var init := s[..|s| - 1];
      DedupSameElements(init, x);
      assert s == init + [s[|s| - 1]];
    }
  }

  /** The inductive step of `DedupAppend`: one more element at the end. */
  lemma DedupAppendSnoc<T>(a: seq<T>, b: seq<T>, x: T)
    requires Dedup(Dedup(a) + b) == Dedup(a + b)
    ensures Dedup(Dedup(a) + (b + [x])) == Dedup(a + (b + [x]))
  {
    SnocAssoc(Dedup(a), b, x);
    SnocAssoc(a, b, x);
    DedupSameElements(a, x);
    DedupSnocSame(Dedup(a) + b, a + b, x);
  }

  lemma SnocAssoc<T>(a: seq<T>, b: seq<T>, x: T)
    ensures a + (b + [x]) == (a + b) + [x]
  {
  }

  /** Sequences with the same `Dedup` and the same membership of `x` keep the
      same `Dedup` when `x` is appended. */
  lemma DedupSnocSame<T>(s: seq<T>, t: seq<T>, x: T)
    requires Dedup(s) == Dedup(t) && (x in s <==> x in t)
    ensures Dedup(s + [x]) == Dedup(t + [x])
  {
    DedupSnoc(s, x);
    DedupSnoc(t, x);
  }

  /** De-duplicating a prefix first changes nothing. */
  lemma {:induction false} DedupAppend<T>(a: seq<T>, b: seq<T>)
    ensures Dedup(Dedup(a) + b) == Dedup(a + b)
  {
    if b == [] {
      assert Dedup(a) + b == Dedup(a);
      assert a + b == a;
      DedupOfDistinct(Dedup(a));
    } else {
      var b', x := b[..|b| - 1], b[|b| - 1];
      DedupAppend(a, b');
      DedupAppendSnoc(a, b', x);
      assert b == b' + [x];
    }
  }

  lemma DedupAssoc<T>(a: seq<T>, b: seq<T>, c: seq<T>)
    ensures Dedup(a + b + c) == Dedup(a + (b + c))
  {
    var x, y := a + b + c, a + (b + c);
    assert x == y;
  }

  /** `DedupAppend` with the prefix itself a concatenation. */
  lemma DedupChain<T>(a: seq<T>, b: seq<T>, c: seq<T>)
    ensures Dedup(Dedup(a + b) + c) == Dedup(a + (b + c))
  {
    DedupAppend(a + b, c);
    DedupAssoc(a, b, c);
  }

  /** Two duplicate-free sequences with no element in common concatenate to a
      duplicate-free sequence. */
  lemma {:induction false} NoDuplicatesAppend<T>(a: seq<T>, b: seq<T>)
    requires NoDuplicates(a) && NoDuplicates(b)
    requires forall i, j :: 0 <= i < |a| && 0 <= j < |b| ==> a[i] != b[j]
    ensures NoDuplicates(a + b)
  {
    forall i, j | 0 <= i < j < |a + b|
      ensures (a + b)[i] != (a + b)[j]
    {
      if j < |a| {
        assert (a + b)[i] == a[i] && (a + b)[j] == a[j];
      } else if i >= |a| {
        assert (a + b)[i] == b[i - |a|] && (a + b)[j] == b[j - |a|];
      } else {
        assert (a + b)[i] == a[i] && (a + b)[j] == b[j - |a|];
      }
    }
  }

  /** A sequence without duplicates is no longer than any set holding its elements. */
  lemma {:induction false} DistinctLength<T>(s: seq<T>, u: set<T>)
    requires NoDuplicates(s)
    requires forall i :: 0 <= i < |s| ==> s[i] in u
    ensures |s| <= |u|
  {
    if s != [] {
      var x := s[0];
      assert NoDuplicates(s[1..]);
      forall k | 0 <= k < |s[1..]|
        ensures s[1..][k] in u - {x}
      {
        assert s[1..][k] == s[k + 1];
      }
      DistinctLength(s[1..], u - {x});
    }
  }
}

=== FILE: solution_analyzer.dfy ===
/** `SolutionAnalyzer.AnalyzeAsync`: check the configuration, pick the project,
    list every method declared in its documents and look up the entry method.
    The opened solution and the set of existing files are given as values;
    exceptions become `Failure`s. */
module SolutionAnalyzer {
  import opened Wrappers
  import opened Text
  import opened ProgramModel
  import opened SyntaxModel
  import opened CodeRewriter

  /** The configured paths and names; `None` stands for null. */
  datatype Config = Config(solutionFile: Option<string>, projectName: Option<string>,
                           className: Option<string>, methodName: Option<string>)

  /** A document of the project: `FilePath`, `GetSyntaxRootAsync` and whether
      `GetSemanticModelAsync` gives a model. */
  datatype Document = Document(filePath: Option<string>, root: Option<CompilationUnit>, hasSemanticModel: bool)

  /** A project: its name, its documents, and `GetCompilationAsync`. */
  datatype Project = Project(name: string, documents: seq<Document>, compilation: Option<Compilation>)

  datatype Solution = Solution(projects: seq<Project>)

  /** The exceptions `AnalyzeAsync` throws. */
  datatype AnalyzeError =
    | SolutionPathMissing                       // InvalidOperationException: blank solution path
    | SolutionNotFound(path: string)            // FileNotFoundException
    | ProjectNotFound(projectName: Option<string>) // InvalidOperationException: no such project
    | CompilationFailed                         // InvalidOperationException: no compilation

  /** A missing entry method is not an error: it is reported as `None`. */
  datatype AnalyzeResult = AnalyzeResult(compilation: Compilation, entryMethod: Option<MethodId>, methods: seq<AnalyzedMethod>)

  // ---------------------------------------------------------------------------
  // Method declarations of a syntax tree

  /** `DescendantNodes().OfType<MethodDeclarationSyntax>()` mapped through
      `GetDeclaredSymbol`: the declared symbol of every method declaration,
      nested types included, in document order. */
  function DeclaredIn(m: Member): seq<Option<MethodId>>
    decreases m
  {
    match m
    case MethodMember(sym, _, _) => [sym]
    case NestedClass(c) => DeclaredInAll(c.members)
    case OtherType(ms) => DeclaredInAll(ms)
    case _ => []
  }

  function DeclaredInAll(ms: seq<Member>): seq<Option<MethodId>>
    decreases ms
  {
    if ms == [] then [] else DeclaredIn(ms[0]) + DeclaredInAll(ms[1..])
  }

  function TreeDeclared(t: SyntaxTree): seq<Option<MethodId>> {
    DeclaredInAll(t.root.members)
  }

  /** The declarations of all syntax trees, tree by tree. */
  function AllDeclared(ts: seq<SyntaxTree>): seq<Option<MethodId>> {
    if ts == [] then [] else AllDeclared(ts[..|ts| - 1]) + TreeDeclared(ts[|ts| - 1])
  }

  lemma {:induction false} AllDeclaredPrefix(ts: seq<SyntaxTree>, n: nat)
    requires n <= |ts|
    ensures AllDeclared(ts[..n]) <= AllDeclared(ts)
  {
    if n < |ts| {
      var init := ts[..|ts| - 1];
      AllDeclaredPrefix(init, n);
      assert init[..n] == ts[..n];
    } else {
      assert ts[..n] == ts;
    }
  }

  // ---------------------------------------------------------------------------
  // GetTargetProject

  /** The first project whose name equals `name` ignoring case. */
  function FirstProjectNamed(ps: seq<Project>, name: string): (r: Option<Project>)
    ensures r.None? <==> forall i :: 0 <= i < |ps| ==> !EqualsIgnoreCase(ps[i].name, name)
    ensures r.Some? ==> exists i :: 0 <= i < |ps| && ps[i] == r.value && EqualsIgnoreCase(ps[i].name, name)
                                    && forall j :: 0 <= j < i ==> !EqualsIgnoreCase(ps[j].name, name)
  {
    if ps == [] then None
    else if EqualsIgnoreCase(ps[0].name, name) then Some(ps[0])
    else
      var r := FirstProjectNamed(ps[1..], name);
      assert forall j :: 0 < j < |ps| ==> ps[j] == ps[1..][j - 1];
      r
  }

  /** `GetTargetProject`: with no project name, the first project of the
      solution; otherwise the first whose name matches ignoring case. */
  function GetTargetProject(sol: Solution, projectName: Option<string>): (r: Option<Project>)
    ensures IsNullOrWhiteSpace(projectName) ==> (r.None? <==> sol.projects == [])
    ensures IsNullOrWhiteSpace(projectName) && r.Some? ==> r.value == sol.projects[0]
    ensures !IsNullOrWhiteSpace(projectName) ==>
              (r.None? <==> forall i :: 0 <= i < |sol.projects| ==> !EqualsIgnoreCase(sol.projects[i].name, projectName.value))
    ensures !IsNullOrWhiteSpace(projectName) && r.Some? ==> EqualsIgnoreCase(r.value.name, projectName.value) && r.value in sol.projects
  {
    if IsNullOrWhiteSpace(projectName) then
      if sol.projects == [] then None else Some(sol.projects[0])
    else
      FirstProjectNamed(sol.projects, projectName.value)
  }

  // ---------------------------------------------------------------------------
  // FindEntryMethod

  /** The entry method test: the method's name equals `methodName` ordinally
      and its containing type's name equals `className` ignoring case (a
      method without a containing type never matches). */
  predicate IsEntry(p: Program, m: MethodId, className: string, methodName: string) {
    var info := Info(p, m);
    info.name == methodName && info.containingType.Some? && EqualsIgnoreCase(info.containingType.value.name, className)
  }

  predicate DeclaresEntry(p: Program, d: Option<MethodId>, className: string, methodName: string) {
    d.Some? && IsEntry(p, d.value, className, methodName)
  }

  predicate NoEntryIn(p: Program, ds: seq<Option<MethodId>>, className: string, methodName: string) {
    forall k :: 0 <= k < |ds| ==> !DeclaresEntry(p, ds[k], className, methodName)
  }

  /** `r` is what a first-match search over the declarations `ds` returns:
      the first declared entry method, or none when there is none. */
  predicate FirstEntry(p: Program, ds: seq<Option<MethodId>>, className: string, methodName: string, r: Option<MethodId>) {
    && (r.None? <==> NoEntryIn(p, ds, className, methodName))
    && (r.Some? ==> exists i :: 0 <= i < |ds| && ds[i] == r && DeclaresEntry(p, ds[i], className, methodName)
                                && NoEntryIn(p, ds[..i], className, methodName))
  }

  /** At most one result is the first match. */
  lemma FirstEntryUnique(p: Program, ds: seq<Option<MethodId>>, className: string, methodName: string, r1: Option<MethodId>, r2: Option<MethodId>)
    requires FirstEntry(p, ds, className, methodName, r1) && FirstEntry(p, ds, className, methodName, r2)
    ensures r1 == r2
  {
    if r1.Some? && r2.Some? {
      var i1 :| 0 <= i1 < |ds| && ds[i1] == r1 && DeclaresEntry(p, ds[i1], className, methodName)
                && NoEntryIn(p, ds[..i1], className, methodName);
      var i2 :| 0 <= i2 < |ds| && ds[i2] == r2 && DeclaresEntry(p, ds[i2], className, methodName)
                && NoEntryIn(p, ds[..i2], className, methodName);
    }
  }

  /** One more declaration that is not the entry keeps the search empty. */
  lemma NoEntrySnoc(p: Program, ds: seq<Option<MethodId>>, d: Option<MethodId>, className: string, methodName: string)
    requires NoEntryIn(p, ds, className, methodName) && !DeclaresEntry(p, d, className, methodName)
    ensures NoEntryIn(p, ds + [d], className, methodName)
  {
    assert forall k :: 0 <= k < |ds| ==> (ds + [d])[k] == ds[k];
  }

  lemma AllDeclaredStep(ts: seq<SyntaxTree>, t: nat)
    requires t < |ts|
    ensures AllDeclared(ts[..t + 1]) == AllDeclared(ts[..t]) + TreeDeclared(ts[t])
  {
    assert ts[..t + 1][..t] == ts[..t];
  }

  /** The `j`-th declaration of tree `t` is the first entry when nothing
      before it is. */
  lemma FoundFirstEntry(p: Program, ts: seq<SyntaxTree>, t: nat, j: nat, className: string, methodName: string)
    requires t < |ts| && j < |TreeDeclared(ts[t])|
    requires NoEntryIn(p, AllDeclared(ts[..t]) + TreeDeclared(ts[t])[..j], className, methodName)
    requires DeclaresEntry(p, TreeDeclared(ts[t])[j], className, methodName)
    ensures FirstEntry(p, AllDeclared(ts), className, methodName, TreeDeclared(ts[t])[j])
  {
    var ds, before, decls := AllDeclared(ts), AllDeclared(ts[..t]), TreeDeclared(ts[t]);
    var i := |before| + j;
    AllDeclaredStep(ts, t);
    AllDeclaredPrefix(ts, t + 1);
    assert (before + decls)[i] == decls[j];
    assert ds[i] == decls[j];
    assert ds[..i] == before + decls[..j];
  }

  /** `FindEntryMethod`: `None` when either name is blank; otherwise the
      first method declaration, tree by tree in document order, whose symbol
      is the configured method of the configured class. */
  method FindEntryMethod(comp: Compilation, className: Option<string>, methodName: Option<string>) returns (r: Option<MethodId>)
    ensures IsNullOrWhiteSpace(className) || IsNullOrWhiteSpace(methodName) ==> r == None
    ensures !IsNullOrWhiteSpace(className) && !IsNullOrWhiteSpace(methodName) ==>
              FirstEntry(comp.program, AllDeclared(comp.trees), className.value, methodName.value, r)
  {
    if IsNullOrWhiteSpace(className) || IsNullOrWhiteSpace(methodName) {
      return None;
    }
    var p, c, n := comp.program, className.value, methodName.value;
    var t := 0;
    while t < |comp.trees|
      invariant 0 <= t <= |comp.trees|
      invariant NoEntryIn(p, AllDeclared(comp.trees[..t]), c, n)
    {
      var decls := TreeDeclared(comp.trees[t]);
      var j := 0;
      assert AllDeclared(comp.trees[..t]) + decls[..0] == AllDeclared(comp.trees[..t]);
      while j < |decls|
        invariant 0 <= j <= |decls|
        invariant NoEntryIn(p, AllDeclared(comp.trees[..t]) + decls[..j], c, n)
      {
        if decls[j].Some? && IsEntry(p, decls[j].value, c, n) {
          FoundFirstEntry(p, comp.trees, t, j, c, n);
          return decls[j];
        }
        NoEntrySnoc(p, AllDeclared(comp.trees[..t]) + decls[..j], decls[j], c, n);
        assert AllDeclared(comp.trees[..t]) + decls[..j + 1] == (AllDeclared(comp.trees[..t]) + decls[..j]) + [decls[j]];
        j := j + 1;
      }
      AllDeclaredStep(comp.trees, t);
      assert decls[..j] == decls;
      t := t + 1;
    }
    assert comp.trees[..t] == comp.trees;
    return None;
  }

  // ---------------------------------------------------------------------------
  // The method-collection loop

  /** `ContainingType?.Name ?? ""`. */
  function ClassNameOf(t: Option<TypeInfo>): string {
    match t
    case Some(info) => info.name
    case None => ""
  }

  /** The record added for a declared method symbol of a document. */
  function Analyzed(p: Program, m: MethodId, filePath: Option<string>): (r: AnalyzedMethod)
    ensures r.symbol == Some(m) && r.methodName == Info(p, m).name
    ensures r.className == ClassNameOf(Info(p, m).containingType)
    ensures filePath.Some? ==> r.filePath == filePath.value
    ensures filePath.None? ==> r.filePath == ""
  {
    AnalyzedMethod(ClassNameOf(Info(p, m).containingType), Info(p, m).name,
                   match filePath case Some(f) => f case None => "", Some(m))
  }

  /** The records for a document's declarations: declarations without a
      method symbol are skipped. */
  function AnalyzedAll(p: Program, ds: seq<Option<MethodId>>, filePath: Option<string>): seq<AnalyzedMethod> {
    if ds == [] then []
    else
      AnalyzedAll(p, ds[..|ds| - 1], filePath)
      + (if ds[|ds| - 1].Some? then [Analyzed(p, ds[|ds| - 1].value, filePath)] else [])
  }

  /** A document is skipped when it has no syntax root or no semantic model. */
  predicate Usable(d: Document) {
    d.root.Some? && d.hasSemanticModel
  }

  function DocumentMethods(p: Program, d: Document): seq<AnalyzedMethod> {
    if Usable(d) then AnalyzedAll(p, DeclaredInAll(d.root.value.members), d.filePath) else []
  }

  /** Reference definition of the collection loop, document by document. */
  function Collected(p: Program, docs: seq<Document>): seq<AnalyzedMethod> {
    if docs == [] then [] else Collected(p, docs[..|docs| - 1]) + DocumentMethods(p, docs[|docs| - 1])
  }

  lemma CollectedStep(p: Program, docs: seq<Document>, i: nat)
    requires i < |docs|
    ensures Collected(p, docs[..i + 1]) == Collected(p, docs[..i]) + DocumentMethods(p, docs[i])
  {
    assert docs[..i + 1][..i] == docs[..i];
  }

  lemma AnalyzedStep(p: Program, ds: seq<Option<MethodId>>, filePath: Option<string>, j: nat)
    requires j < |ds|
    ensures AnalyzedAll(p, ds[..j + 1], filePath)
            == AnalyzedAll(p, ds[..j], filePath) + (if ds[j].Some? then [Analyzed(p, ds[j].value, filePath)] else [])
  {
    assert ds[..j + 1][..j] == ds[..j];
  }

  /** The inner loop: one record per declaration that has a method symbol. */
  method DeclarationRecords(p: Program, decls: seq<Option<MethodId>>, filePath: Option<string>) returns (r: seq<AnalyzedMethod>)
    ensures r == AnalyzedAll(p, decls, filePath)
  {
    r := [];
    var j := 0;
    while j < |decls|
      invariant 0 <= j <= |decls|
      invariant r == AnalyzedAll(p, decls[..j], filePath)
    {
      AnalyzedStep(p, decls, filePath, j);
      if decls[j].Some? {
        r := r + [Analyzed(p, decls[j].value, filePath)];
      } else {
        assert r + [] == r;
      }
      j := j + 1;
    }
    assert decls[..j] == decls;
  }

  /** The collection loop over the project's documents. */
  method CollectMethods(p: Program, docs: seq<Document>) returns (r: seq<AnalyzedMethod>)
    ensures r == Collected(p, docs)
  {
    r := [];
    var i := 0;
    while i < |docs|
      invariant 0 <= i <= |docs|
      invariant r == Collected(p, docs[..i])
    {
      var d := docs[i];
      CollectedStep(p, docs, i);
      if d.root.Some? && d.hasSemanticModel {
        var found := DeclarationRecords(p, DeclaredInAll(d.root.value.members), d.filePath);
        r := r + found;
      } else {
        assert r + [] == r;
      }
      i := i + 1;
    }
    assert docs[..i] == docs;
  }

  /** Every collected record is a declared method symbol of a usable
      document, named after the symbol, its class and its document. */
  lemma {:induction false} CollectedSound(p: Program, docs: seq<Document>, k: nat)
    requires k < |Collected(p, docs)|
    ensures var a := Collected(p, docs)[k];
            exists i :: 0 <= i < |docs| && Usable(docs[i]) && a.symbol.Some? && a.symbol in DeclaredInAll(docs[i].root.value.members)
                        && a == Analyzed(p, a.symbol.value, docs[i].filePath)
  {
    var init := docs[..|docs| - 1];
    var last := docs[|docs| - 1];
    var a := Collected(p, docs)[k];
    if k < |Collected(p, init)| {
      CollectedSound(p, init, k);
      var i :| 0 <= i < |init| && Usable(init[i]) && a.symbol.Some? && a.symbol in DeclaredInAll(init[i].root.value.members)
               && a == Analyzed(p, a.symbol.value, init[i].filePath);
      assert docs[i] == init[i];
    } else {
      var ds := DeclaredInAll(last.root.value.members);
      AnalyzedAllSound(p, ds, last.filePath, k - |Collected(p, init)|);
      assert docs[|docs| - 1] == last;
    }
  }

  lemma {:induction false} AnalyzedAllSound(p: Program, ds: seq<Option<MethodId>>, filePath: Option<string>, k: nat)
    requires k < |AnalyzedAll(p, ds, filePath)|
    ensures var a := AnalyzedAll(p, ds, filePath)[k];
            a.symbol.Some? && a.symbol in ds && a == Analyzed(p, a.symbol.value, filePath)
  {
    var init := ds[..|ds| - 1];
    if k < |AnalyzedAll(p, init, filePath)| {
      AnalyzedAllSound(p, init, filePath, k);
      assert AnalyzedAll(p, ds, filePath)[k] == AnalyzedAll(p, init, filePath)[k];
    }
  }

  /** Every method symbol declared in a usable document is collected. */
  lemma {:induction false} CollectedComplete(p: Program, docs: seq<Document>, i: nat, m: MethodId)
    requires i < |docs| && Usable(docs[i]) && Some(m) in DeclaredInAll(docs[i].root.value.members)
    ensures Analyzed(p, m, docs[i].filePath) in Collected(p, docs)
  {
    var init := docs[..|docs| - 1];
    if i < |docs| - 1 {
      assert init[i] == docs[i];
      CollectedComplete(p, init, i, m);
    } else {
      AnalyzedAllComplete(p, DeclaredInAll(docs[i].root.value.members), docs[i].filePath, m);
    }
  }

  lemma {:induction false} AnalyzedAllComplete(p: Program, ds: seq<Option<MethodId>>, filePath: Option<string>, m: MethodId)
    requires Some(m) in ds
    ensures Analyzed(p, m, filePath) in AnalyzedAll(p, ds, filePath)
  {
    var init := ds[..|ds| - 1];
    if ds[|ds| - 1] != Some(m) {
      assert ds == init + [ds[|ds| - 1]];
      AnalyzedAllComplete(p, init, filePath, m);
    }
  }

  // ---------------------------------------------------------------------------
  // AnalyzeAsync

  /** `AnalyzeAsync` over the solution the configured file opens to. The
      checks run in the source's order, each with its own error; a missing
      entry method still gives a result. */
  method Analyze(cfg: Config, existing: set<string>, sol: Solution) returns (r: Result<AnalyzeResult, AnalyzeError>)
    ensures IsNullOrWhiteSpace(cfg.solutionFile) ==> r == Failure(SolutionPathMissing)
    ensures !IsNullOrWhiteSpace(cfg.solutionFile) && cfg.solutionFile.value !in existing ==>
              r == Failure(SolutionNotFound(cfg.solutionFile.value))
    ensures !IsNullOrWhiteSpace(cfg.solutionFile) && cfg.solutionFile.value in existing ==>
              match GetTargetProject(sol, cfg.projectName)
              case None => r == Failure(ProjectNotFound(cfg.projectName))
              case Some(project) =>
                match project.compilation
                case None => r == Failure(CompilationFailed)
                case Some(comp) =>
                  && r.Success?
                  && r.value.compilation == comp
                  && r.value.methods == Collected(comp.program, project.documents)
                  && (IsNullOrWhiteSpace(cfg.className) || IsNullOrWhiteSpace(cfg.methodName) ==> r.value.entryMethod == None)
                  && (!IsNullOrWhiteSpace(cfg.className) && !IsNullOrWhiteSpace(cfg.methodName) ==>
                        FirstEntry(comp.program, AllDeclared(comp.trees), cfg.className.value, cfg.methodName.value, r.value.entryMethod))
  {
    if IsNullOrWhiteSpace(cfg.solutionFile) {
      return Failure(SolutionPathMissing);
    }
    if cfg.solutionFile.value !in existing {
      return Failure(SolutionNotFound(cfg.solutionFile.value));
    }
    var project := GetTargetProject(sol, cfg.projectName);
    if project.None? {
      return Failure(ProjectNotFound(cfg.projectName));
    }
    var compilation := project.value.compilation;
    if compilation.None? {
      return Failure(CompilationFailed);
    }
    var comp := compilation.value;
    var methods := CollectMethods(comp.program, project.value.documents);
    var entry := FindEntryMethod(comp, cfg.className, cfg.methodName);
    return Success(AnalyzeResult(comp, entry, methods));
  }
}

=== FILE: stopwatch_registry.dfy ===
/** `CodeRewriter.BuildStopwatchRegistry`: one stopwatch per distinct method of
    the call tree, numbered in first-visit pre-order, every one declared in the
    entry class. The dictionary is kept as its entries in insertion order, which
    is the order the rewriter enumerates it in. */
module StopwatchRegistry {
  import opened Wrappers
  import opened Text
  import opened Seqs
  import opened ProgramModel
  import opened CallGraphModels

  datatype RegistryEntry = RegistryEntry(symbol: MethodId, info: StopwatchInfo)
  type Registry = seq<RegistryEntry>

  /** Stand-in class name when the entry method has no containing type. */
  const FallbackClassName := "EntryClass"

  /** The dictionary's keys, in insertion order. */
  function Keys(reg: Registry): (r: seq<MethodId>)
    ensures |r| == |reg|
    ensures forall i :: 0 <= i < |reg| ==> r[i] == reg[i].symbol
  {
    seq(|reg|, i requires 0 <= i < |reg| => reg[i].symbol)
  }

  /** `TryGetValue`. */
  function Lookup(reg: Registry, m: MethodId): (r: Option<StopwatchInfo>)
    ensures r.Some? <==> m in Keys(reg)
    ensures r.Some? ==> exists i :: 0 <= i < |reg| && reg[i] == RegistryEntry(m, r.value)
  {
    if reg == [] then None
    else if reg[0].symbol == m then Some(reg[0].info)
    else
      var r := Lookup(reg[1..], m);
      assert forall i :: 0 <= i < |reg[1..]| ==> reg[1..][i] == reg[i + 1];
      r
  }

  /** `$"sw{counter}_{cleanMethod}"`. */
  function FieldName(counter: nat, methodName: string): string {
    "sw" + DecimalString(counter) + "_" + LettersAndDigits(methodName)
  }

  /** A method field name is a C# identifier: a letter first, then letters
      and digits, with one underscore right after the counter. */
  lemma FieldNameIsIdentifier(counter: nat, methodName: string)
    ensures |FieldName(counter, methodName)| > 3 && FieldName(counter, methodName)[..2] == "sw"
    ensures IsDigit(FieldName(counter, methodName)[2])
    ensures forall i :: 0 <= i < |FieldName(counter, methodName)| ==>
              IsLetterOrDigit(FieldName(counter, methodName)[i])
              || (FieldName(counter, methodName)[i] == '_' && i == 2 + |DecimalString(counter)|)
  {
  }

  /** The class every stopwatch is declared in: the entry class's minimally
      qualified display name, or the fallback when there is none. */
  function EntryClassName(entryClass: Option<TypeInfo>): (r: string)
    ensures entryClass.None? ==> r == "EntryClass"
    ensures entryClass.Some? ==> r == entryClass.value.display
  {
    match entryClass
    case Some(t) => t.display
    case None => FallbackClassName
  }

  /** Entry `i` is the `(i+1)`-th stopwatch, named after its method and
      declared in `className`. */
  predicate WellNumbered(p: Program, className: string, reg: Registry) {
    forall i :: 0 <= i < |reg| ==>
      reg[i].info == StopwatchInfo(className, FieldName(i + 1, Info(p, reg[i].symbol).name))
  }

  lemma KeysAppend(a: Registry, b: Registry)
    ensures Keys(a + b) == Keys(a) + Keys(b)
  {
  }

  lemma KeysSnoc(reg: Registry, e: RegistryEntry)
    ensures Keys(reg + [e]) == Keys(reg) + [e.symbol]
  {
    KeysAppend(reg, [e]);
  }

  /** A method already registered adds nothing. */
  lemma RegisterKnown(keys: seq<MethodId>, sym: MethodId)
    requires NoDuplicates(keys) && sym in keys
    ensures Dedup(keys + [sym]) == keys
  {
    DedupOfDistinct(keys);
    DedupSnoc(keys, sym);
  }

  /** A new method is appended. */
  lemma RegisterFresh(keys: seq<MethodId>, sym: MethodId)
    requires NoDuplicates(keys) && sym !in keys
    ensures Dedup(keys + [sym]) == keys + [sym]
  {
    DedupOfDistinct(keys);
    DedupSnoc(keys, sym);
  }

  /** `dict[sym] = new StopwatchInfo { DeclaringClassName = ..., FieldName = ... }`. */
  function NewEntry(p: Program, className: string, counter: nat, sym: MethodId): RegistryEntry {
    RegistryEntry(sym, NewStopwatchInfo().(declaringClassName := className, fieldName := FieldName(counter, Info(p, sym).name)))
  }

  lemma WellNumberedSnoc(p: Program, className: string, reg: Registry, sym: MethodId)
    requires WellNumbered(p, className, reg)
    ensures WellNumbered(p, className, reg + [NewEntry(p, className, |reg| + 1, sym)])
  {
  }

  /** Adding a new method as the next numbered entry. */
  lemma RegisterNew(p: Program, className: string, reg: Registry, sym: MethodId)
    requires NoDuplicates(Keys(reg)) && WellNumbered(p, className, reg) && sym !in Keys(reg)
    ensures Keys(reg + [NewEntry(p, className, |reg| + 1, sym)]) == Dedup(Keys(reg) + [sym])
    ensures WellNumbered(p, className, reg + [NewEntry(p, className, |reg| + 1, sym)])
  {
    KeysSnoc(reg, NewEntry(p, className, |reg| + 1, sym));
    RegisterFresh(Keys(reg), sym);
    WellNumberedSnoc(p, className, reg, sym);
  }

  /** `if (!dict.ContainsKey(sym)) dict[sym] = new StopwatchInfo { ... counter++ ... }`. */
  function Register(p: Program, className: string, reg: Registry, counter: nat, sym: MethodId): (r: (Registry, nat))
    requires NoDuplicates(Keys(reg)) && WellNumbered(p, className, reg) && counter == |reg| + 1
    ensures Keys(r.0) == Dedup(Keys(reg) + [sym])
    ensures NoDuplicates(Keys(r.0)) && WellNumbered(p, className, r.0) && r.1 == |r.0| + 1
    ensures reg <= r.0
  {
    if sym in Keys(reg) then
      RegisterKnown(Keys(reg), sym);
      (reg, counter)
    else
      RegisterNew(p, className, reg, sym);
      (reg + [NewEntry(p, className, counter, sym)], counter + 1)
  }

  lemma WellNumberedFields(p: Program, className: string, reg: Registry)
    requires WellNumbered(p, className, reg)
    ensures forall i :: 0 <= i < |reg| ==> reg[i].info.declaringClassName == className
    ensures forall i :: 0 <= i < |reg| ==> reg[i].info.fieldName == FieldName(i + 1, Info(p, reg[i].symbol).name)
  {
  }

  /** The local `Walk`: register the node's method, then walk the children. */
  function Walk(p: Program, className: string, n: CallGraphNode, reg: Registry, counter: nat): (r: (Registry, nat))
    requires NoDuplicates(Keys(reg)) && WellNumbered(p, className, reg) && counter == |reg| + 1
    ensures Keys(r.0) == Dedup(Keys(reg) + Symbols(PreOrder(n)))
    ensures WellNumbered(p, className, r.0) && r.1 == |r.0| + 1
    ensures reg <= r.0
  {
    var (reg1, counter1) := Register(p, className, reg, counter, n.symbol);
    DedupChain(Keys(reg), [n.symbol], Symbols(PreOrderList(n.children)));
    SymbolsAppend([n], PreOrderList(n.children));
    WalkChildren(p, className, n.children, reg1, counter1)
  }

  function WalkChildren(p: Program, className: string, ns: seq<CallGraphNode>, reg: Registry, counter: nat): (r: (Registry, nat))
    requires NoDuplicates(Keys(reg)) && WellNumbered(p, className, reg) && counter == |reg| + 1
    ensures Keys(r.0) == Dedup(Keys(reg) + Symbols(PreOrderList(ns)))
    ensures WellNumbered(p, className, r.0) && r.1 == |r.0| + 1
    ensures reg <= r.0
  {
    if ns == [] then
      DedupOfDistinct(Keys(reg));
      assert Keys(reg) + Symbols(PreOrderList(ns)) == Keys(reg);
      (reg, counter)
    else
      var (reg1, counter1) := Walk(p, className, ns[0], reg, counter);
      SymbolsAppend(PreOrder(ns[0]), PreOrderList(ns[1..]));
      DedupChain(Keys(reg), Symbols(PreOrder(ns[0])), Symbols(PreOrderList(ns[1..])));
      WalkChildren(p, className, ns[1..], reg1, counter1)
  }

  /** `BuildStopwatchRegistry(root, entryClass)`: the keys are the distinct
      methods of the tree (root included) in first-visit pre-order; entry `i`
      is named `sw{i+1}_{letters and digits of the method name}` and declared
      in the entry class. */
  function BuildStopwatchRegistry(p: Program, root: CallGraphNode, entryClass: Option<TypeInfo>): (reg: Registry)
    ensures Keys(reg) == Dedup(Symbols(PreOrder(root)))
    ensures forall i :: 0 <= i < |reg| ==> reg[i].info.declaringClassName == EntryClassName(entryClass)
    ensures forall i :: 0 <= i < |reg| ==> reg[i].info.fieldName == FieldName(i + 1, Info(p, reg[i].symbol).name)
  {
    var className := EntryClassName(entryClass);
    assert Keys([]) == [];
    var r := Walk(p, className, root, [], 1);
    assert Keys([]) + Symbols(PreOrder(root)) == Symbols(PreOrder(root));
    WellNumberedFields(p, className, r.0);
    r.0
  }

  /** Field names built from distinct counters differ, whatever the method names. */
  lemma FieldNamesDiffer(i: nat, a: string, j: nat, b: string)
    requires i != j
    ensures FieldName(i, a) != FieldName(j, b)
  {
    var di, dj := DecimalString(i), DecimalString(j);
    var fa, fb := FieldName(i, a), FieldName(j, b);
    // After "sw" the digits run up to the first '_'.
    if |di| < |dj| {
      assert fa[2 + |di|] == '_';
      assert fb[2 + |di|] == dj[|di|];
    } else if |dj| < |di| {
      assert fb[2 + |dj|] == '_';
      assert fa[2 + |dj|] == di[|dj|];
    } else {
      DecimalStringInjective(i, j);
      assert fa[2..2 + |di|] == di;
      assert fb[2..2 + |dj|] == dj;
    }
  }

  /** Numbered field names are pairwise distinct. */
  lemma NumberedNamesDistinct(p: Program, reg: Registry)
    requires forall i :: 0 <= i < |reg| ==> reg[i].info.fieldName == FieldName(i + 1, Info(p, reg[i].symbol).name)
    ensures forall i, j :: 0 <= i < j < |reg| ==> reg[i].info.fieldName != reg[j].info.fieldName
  {
    forall i, j | 0 <= i < j < |reg|
      ensures reg[i].info.fieldName != reg[j].info.fieldName
    {
      FieldNamesDiffer(i + 1, Info(p, reg[i].symbol).name, j + 1, Info(p, reg[j].symbol).name);
    }
  }

  /** Every method of the tree has exactly one stopwatch and no two stopwatches
      share a field name. */
  lemma RegistryNamesDistinct(p: Program, root: CallGraphNode, entryClass: Option<TypeInfo>)
    ensures NoDuplicates(Keys(BuildStopwatchRegistry(p, root, entryClass)))
    ensures var reg := BuildStopwatchRegistry(p, root, entryClass);
            forall i, j :: 0 <= i < j < |reg| ==> reg[i].info.fieldName != reg[j].info.fieldName
  {
    NumberedNamesDistinct(p, BuildStopwatchRegistry(p, root, entryClass));
  }
}

=== FILE: syntax_model.dfy ===
/** The slice of C# syntax the rewriter distinguishes, with the statements it
    generates as tagged records instead of parsed text. */
module SyntaxModel {
  import opened Wrappers
  import opened ProgramModel

  /** The loops the visitor times. `ForEachLoop` is the single-variable
      `foreach (var x in xs)`; the deconstructing `foreach (var (a, b) in xs)`
      and `do ... while` are not among them (see `Compound`). */
  datatype LoopKind = ForLoop | ForEachLoop | WhileLoop

  /** The expression of an expression statement: an invocation (with the
      invocations nested in its receiver and arguments), or anything else
      (assignment, increment, ...) with the invocations it contains. */
  datatype Expr =
    | Invocation(info: SymbolInfo, nested: seq<SymbolInfo>)
    | OtherExpression(invocations: seq<SymbolInfo>)

  /** Text of an appended log line, minus the runtime elapsed-time interpolation.
      `bars` is the indentation prefix. */
  datatype LogText =
    | EntryHeader(methodName: string)                               // [Dentro do método: M]
    | MethodElapsed(bars: string, methodName: string, stopwatch: string) // bars[Metodo: M] Tempo: ...
    | MethodHeader(bars: string, methodName: string)                // bars[Dentro do método: M]
    | LoopElapsed(bars: string, stopwatch: string)              // bars[Loop: swLoopN] Tempo: ...

  datatype Stmt =
    | ExpressionStatement(expr: Expr)
      /** `for` / single-variable `foreach` / `while`: the header's
          invocations, and the body. */
    | Loop(kind: LoopKind, header: seq<SymbolInfo>, body: Stmt)
    | Block(stmts: seq<Stmt>)
      /** Any other statement with nested statements (`if`/`else`, `using`,
          `try`, `lock`, `do ... while`, the deconstructing `foreach`, ...):
          the invocations of its own expressions, and its nested statements.
          It gets the default visit: no loop stopwatch, no loop number. */
    | Compound(header: seq<SymbolInfo>, parts: seq<Stmt>)
      /** A statement without nested statements that is not an expression
          statement: local declaration, `return`, `break`, `throw`, ... */
    | Simple(invocations: seq<SymbolInfo>)
      // Generated statements.
    | StartStopwatch(stopwatch: string)     // <stopwatch>.Start();
    | StopStopwatch(stopwatch: string)      // <stopwatch>.Stop();
    | DeclareLogBuilder                     // var logStopwatch = new System.Text.StringBuilder();
    | AppendLog(text: LogText)              // logStopwatch.AppendLine(...);

  datatype Member =
    | MethodMember(symbol: Option<MethodId>, identifier: string, body: Option<seq<Stmt>>)
      /** Constructor, accessor or operator: its statements get the default visit. */
    | CodeMember(stmts: seq<Stmt>)
      /** Field, property without body, event, ...: no statements. */
    | DataMember
    | NestedClass(decl: ClassDecl)
      /** `struct`, `record`, `interface` or `enum` declaration: its members
          get the default visit, which does not update the current class. */
    | OtherType(members: seq<Member>)
      /** Generated `internal static readonly System.Diagnostics.Stopwatch <name> = new();` */
    | StopwatchField(name: string)

  datatype ClassDecl = ClassDecl(symbol: Option<ClassId>, members: seq<Member>)

  /** A syntax tree: its type declarations in document order (namespaces
      flattened). */
  datatype CompilationUnit = CompilationUnit(members: seq<Member>)

  predicate IsGenerated(s: Stmt) {
    s.StartStopwatch? || s.StopStopwatch? || s.DeclareLogBuilder? || s.AppendLog?
  }

  /** Invocations of a statement in document pre-order. */
  function Invocations(s: Stmt): seq<SymbolInfo> {
    match s
    case ExpressionStatement(Invocation(info, nested)) => [info] + nested
    case ExpressionStatement(OtherExpression(calls)) => calls
    case Loop(_, header, body) => header + Invocations(body)
    case Block(stmts) => InvocationsOf(stmts)
    case Compound(header, parts) => header + InvocationsOf(parts)
    case Simple(calls) => calls
    case _ => []
  }

  function InvocationsOf(ss: seq<Stmt>): seq<SymbolInfo> {
    if ss == [] then [] else Invocations(ss[0]) + InvocationsOf(ss[1..])
  }
}

=== FILE: text.dfy ===
/** The few .NET string and char operations the instrumenter relies on,
    written out over `seq<char>`. */
module Text {
  import opened Wrappers

  /** `char.IsWhiteSpace`: the Unicode space, line and paragraph separators plus
      the control characters U+0009..U+000D and U+0085. */
  predicate IsWhiteSpace(c: char) {
    || c == ' '
    || ('\t' <= c <= '\r')
    || c == '\U{0085}'
    || c == '\U{00A0}'
    || c == '\U{1680}'
    || ('\U{2000}' <= c <= '\U{200A}')
    || c == '\U{2028}'
    || c == '\U{2029}'
    || c == '\U{202F}'
    || c == '\U{205F}'
    || c == '\U{3000}'
  }

  /** `string.IsNullOrWhiteSpace`; `None` stands for a null reference. */
  predicate IsNullOrWhiteSpace(s: Option<string>) {
    match s
    case None => true
    case Some(t) => forall i :: 0 <= i < |t| ==> IsWhiteSpace(t[i])
  }

  predicate IsAsciiLetter(c: char) {
    ('a' <= c <= 'z') || ('A' <= c <= 'Z')
  }

  predicate IsDigit(c: char) {
    '0' <= c <= '9'
  }

  /** `char.IsLetterOrDigit`, restricted to the ASCII range. */
  predicate IsLetterOrDigit(c: char) {
    IsAsciiLetter(c) || IsDigit(c)
  }

  /** The upper-case mapping `StringComparison.OrdinalIgnoreCase` compares by
      (ASCII range). */
  function ToUpper(c: char): char {
    if 'a' <= c <= 'z' then (c as int - 32) as char else c
  }

  /** `string.Equals(a, b, StringComparison.OrdinalIgnoreCase)`. */
  predicate EqualsIgnoreCase(a: string, b: string) {
    |a| == |b| && forall i :: 0 <= i < |a| ==> ToUpper(a[i]) == ToUpper(b[i])
  }

  /** Ordinal `string.StartsWith`. */
  predicate StartsWith(s: string, prefix: string) {
    |prefix| <= |s| && s[..|prefix|] == prefix
  }

  /** `part` occurs in `s` starting at index `i`. */
  predicate OccursAt(s: string, part: string, i: int) {
    0 <= i && i + |part| <= |s| && s[i..i + |part|] == part
  }

  /** Ordinal `string.Contains`: some occurrence of `part` in `s`. */
  predicate Contains(s: string, part: string): (r: bool)
    ensures r <==> exists i :: OccursAt(s, part, i)
    decreases |s|
  {
    if StartsWith(s, part) then
      assert OccursAt(s, part, 0);
      true
    else if |s| == 0 then
      false
    else
      ContainsStep(s, part);
      Contains(s[1..], part)
  }

  /** Without an occurrence at the front, the occurrences in `s` are those in
      its tail, shifted by one. */
  lemma ContainsStep(s: string, part: string)
    requires |s| > 0 && !StartsWith(s, part)
    ensures (exists i :: OccursAt(s, part, i)) <==> (exists j :: OccursAt(s[1..], part, j))
  {
    if i :| OccursAt(s, part, i) {
      assert i != 0;
      assert s[1..][i - 1..i - 1 + |part|] == s[i..i + |part|];
      assert OccursAt(s[1..], part, i - 1);
    }
    if j :| OccursAt(s[1..], part, j) {
      assert s[j + 1..j + 1 + |part|] == s[1..][j..j + |part|];
      assert OccursAt(s, part, j + 1);
    }
  }

  /** `new string(s.Where(char.IsLetterOrDigit).ToArray())`. */
  function LettersAndDigits(s: string): (r: string)
    ensures |r| <= |s|
    ensures forall i :: 0 <= i < |r| ==> IsLetterOrDigit(r[i])
    ensures (forall i :: 0 <= i < |s| ==> IsLetterOrDigit(s[i])) ==> r == s
  {
    if s == [] then []
    else (if IsLetterOrDigit(s[0]) then [s[0]] else []) + LettersAndDigits(s[1..])
  }

  /** Every letter and digit of the name is kept, as often as it occurs. */
  lemma {:induction false} LettersAndDigitsKeeps(s: string)
    ensures forall c :: IsLetterOrDigit(c) ==> multiset(LettersAndDigits(s))[c] == multiset(s)[c]
  {
    if s != [] {
      LettersAndDigitsKeeps(s[1..]);
      assert s == [s[0]] + s[1..];
      assert multiset(s) == multiset([s[0]]) + multiset(s[1..]);
    }
  }

  /** Filtering distributes over concatenation, so the kept characters
      stay in their original order: `Process_Item` becomes `ProcessItem`. */
  lemma {:induction false} LettersAndDigitsAppend(a: string, b: string)
    ensures LettersAndDigits(a + b) == LettersAndDigits(a) + LettersAndDigits(b)
  {
    if a == [] {
      assert a + b == b;
    } else {
      var head := if IsLetterOrDigit(a[0]) then [a[0]] else [];
      assert (a + b)[0] == a[0] && (a + b)[1..] == a[1..] + b;
      LettersAndDigitsAppend(a[1..], b);
      assert LettersAndDigits(a + b) == head + (LettersAndDigits(a[1..]) + LettersAndDigits(b));
      assert head + (LettersAndDigits(a[1..]) + LettersAndDigits(b)) == (head + LettersAndDigits(a[1..])) + LettersAndDigits(b);
    }
  }

  /** A single character is kept exactly when it is a letter or a digit. */
  lemma LettersAndDigitsOne(c: char)
    ensures LettersAndDigits([c]) == if IsLetterOrDigit(c) then [c] else []
  {
  }

  function DigitChar(d: nat): char
    requires d < 10
  {
    ('0' as int + d) as char
  }

  /** Decimal rendering of a counter, as string interpolation prints an `int`. */
  function DecimalString(n: nat): (r: string)
    ensures |r| > 0
    ensures forall i :: 0 <= i < |r| ==> IsDigit(r[i])
  {
    if n < 10 then [DigitChar(n)] else DecimalString(n / 10) + [DigitChar(n % 10)]
  }

  /** Distinct counters render to distinct strings. */
  lemma {:induction false} DecimalStringInjective(a: nat, b: nat)
    ensures DecimalString(a) == DecimalString(b) <==> a == b
  {
    if a != b {
      var sa, sb := DecimalString(a), DecimalString(b);
      if a < 10 && b < 10 {
        assert sa[0] != sb[0];
      } else if a < 10 || b < 10 {
        assert |sa| != |sb| by {
          if a >= 10 {
            assert |DecimalString(a / 10)| >= 1;
          } else {
            assert |DecimalString(b / 10)| >= 1;
          }
        }
      } else if a % 10 != b % 10 {
        assert sa[|sa| - 1] != sb[|sb| - 1];
      } else {
        DecimalStringInjective(a / 10, b / 10);
        assert sa[..|sa| - 1] == DecimalString(a / 10);
        assert sb[..|sb| - 1] == DecimalString(b / 10);
      }
    }
  }

  /** `string.Concat(Enumerable.Repeat(s, n))`. */
  function Repeat(s: string, n: nat): (r: string)
    ensures |r| == n * |s|
    ensures forall i :: 0 <= i < |r| ==> r[i] == s[i % |s|]
  {
    if n == 0 then []
    else
      var rest := Repeat(s, n - 1);
      RepeatStep(s, n, rest);
      s + rest
  }

  /** One more copy in front keeps every position within its period. */
  lemma RepeatStep(s: string, n: nat, rest: string)
    requires 0 < n && |rest| == (n - 1) * |s|
    requires forall i :: 0 <= i < |rest| ==> rest[i] == s[i % |s|]
    ensures |s + rest| == n * |s|
    ensures forall i :: 0 <= i < |s + rest| ==> (s + rest)[i] == s[i % |s|]
  {
    forall i | 0 <= i < |s + rest|
      ensures (s + rest)[i] == s[i % |s|]
    {
      if i < |s| {
        ModUnique(i, |s|, 0, i);
      } else {
        ModShift(i, |s|);
      }
    }
  }

  /** Removing one period keeps the position within the period. */
  lemma ModShift(i: int, k: int)
    requires 0 < k <= i
    ensures (i - k) % k == i % k
  {
    var q, m := (i - k) / k, (i - k) % k;
    assert i == k * (q + 1) + m;
    ModUnique(i, k, q + 1, m);
  }

  /** The remainder is the only `m` in `[0, k)` with `x == k * q + m`. */
  lemma ModUnique(x: int, k: int, q: int, m: int)
    requires 0 < k && 0 <= m < k && x == k * q + m
    ensures x % k == m
  {
    var a := q - x / k;
    assert k * a == x % k - m;
  }
}

=== FILE: wrappers.dfy ===
/** Failure-compatible wrappers: a nullable reference becomes an Option, a thrown
    exception becomes the Failure side of a Result. */
module Wrappers {

  datatype Option<+T> = None | Some(value: T) {

    predicate IsFailure() {
      None?
    }

    function PropagateFailure<U>(): Option<U>
      requires None?
    {
      None
    }

    function Extract(): T
      requires Some?
    {
      value
    }
  }

  datatype Result<+R, +E> = Success(value: R) | Failure(error: E) {

    predicate IsFailure() {
      Failure?
    }

    function PropagateFailure<U>(): Result<U, E>
      requires Failure?
    {
      Failure(error)
    }

    function Extract(): R
      requires Success?
    {
      value
    }
  }
}
